=== FILE: README.md ===
# Soundboard, modelled in Dafny

This project models the logic of a browser soundboard and proves properties
of it. The soundboard has a small Express server that lists audio files under
a `public/soundboard` directory. It also has two clients:

- a Preact client, with an audio hook, a list view, sound buttons, a slider
  and a palette generator;
- an older framework-free client in `public/main.js`.

Each part of the system becomes a module of pure functions over immutable
values:

| module | file | models |
|---|---|---|
| `Catalog` | `catalog.dfy` | the `/api/sounds` handler of `app.ts`: filter by extension, sort, strip the root, map to records |
| `AudioHook` | `audio.dfy` | `src/hooks/useAudio.ts`: see below |
| `SoundList` | `soundlist.dfy` | `src/components/SoundList.tsx`: alphabetical and category views, the "playing" highlight, what a gesture on a listed button reaches |
| `App` | `app.dfy` | `src/App.tsx`: the button-size cycle, the favourites toggle and what it stores, the search filter, category indexing of a fetched catalog |
| `SoundButton` | `soundbutton.dfy` | `src/components/SoundButton.tsx`: the label (last path segment without its extension) and the two gestures |
| `Colors` | `colors.dfy` | `src/lib/colors.ts`: HSV to RGB by sector, and the evenly spaced palette |
| `Slider` | `slider.dfy` | `src/components/Slider.tsx`: thumb position, cursor-to-value with clamp, snap and clamp |
| `LegacyBoard` | `legacy.dfy` | `public/main.js`: see below |
| `Types` | `types.dfy` | the `Sound` record of `src/lib/types.ts` |
| `JsNumber` | `jsnumber.dfy` | ECMAScript number semantics the code relies on: ToInt32, `<< 5`, the truncating `%`, `Math.round`, `Math.max`, `Math.min` |
| `JsString` | `jsstring.dfy` | string methods: `indexOf`, `includes`, `startsWith`, `endsWith`, `replace` of a first occurrence, `split`/`join` on one character, `pop` of a split, ASCII `toLowerCase`, `String(n)` |
| `Seqs` | `seqs.dfy` | `filter`; insertion sort by a string key under character order; `indexOf`; `[...new Set(xs)]` |
| `UrlPath` | `url.dfy` | how the browser resolves `/api/audio` + path into an element's `src`: C0 controls and spaces cut from both ends and tabs and newlines deleted, the page origin, UTF-8 percent-encoding of the path, a backslash read as `/` |
| `Results` | `results.dfy` | `Option` (a value that may be `undefined`) and `Result` (returns or throws) |

`AudioHook` covers `src/hooks/useAudio.ts`:

- the path-keyed cache;
- the single current element;
- `preloadSound` and `playSound`;
- the batch `preloadSounds`, with its progress and error accounting.

The hook's invariant, kept by every operation, is that each cached element was created for its own key (`/api/audio` + key), that the current element is cached, and that only the current element can be sounding.

`LegacyBoard` covers `public/main.js`:

- the `stringToColor` rolling hash;
- the sections and their toggles;
- the loading bar;
- the stop-then-play click rule.

The browser's decisions are parameters of the operation that meets them:

- which of `loadeddata`, `error` or the 10 s timer fires first;
- whether `play()` is allowed;
- the order in which a batch of loads settles;
- whether an element of the old client ever loads;
- when a sounding element plays to its end and the browser pauses it.

State updates are sequential and take effect at once. Strings are sequences
of characters. A Dafny character is a Unicode scalar value, while a
JavaScript string is a sequence of UTF-16 code units, so the two agree only
on strings within the Basic Multilingual Plane. Numbers are
unbounded integers or exact reals. Where the source depends on 32-bit
conversion or on truncating division, that behaviour is written out in
`JsNumber`.

## Model

| member | source | states |
|---|---|---|
| Catalog.SortedAudioFiles | app.ts:20-22 | only names ending in `.mp3` or `.ogg` (case-sensitive) survive, each from the input; the result is a permutation of the filtered files in ascending code-unit order |
| Catalog.CatalogItems | app.ts:20-30 | one item per audio file, each with type `sound` and `name == path`, in sorted file order, each path being that file with its first occurrence of the root removed |
| Catalog.ListSounds | app.ts:13-32 | a directory read error answers status 500 with the fixed message and no items; a listing answers as many items as there are audio files |
| Catalog.CatalogUnderRoot | app.ts:20-24 | when every file starts with the root, putting the root back in front of each item's path gives exactly the audio files, each as often as listed, ascending |
| AudioHook.PreloadSound | src/hooks/useAudio.ts:10-32 | an empty path rejects and leaves the state alone; a cached path resolves to the cached element; otherwise only `loadeddata` resolves, adding exactly `path ↦ element`; an error or a timeout that settles first rejects, and the state at that moment is unchanged (a `loadeddata` that still arrives later is `LateLoadedData`); nothing else in the state moves; the invariant is kept |
| AudioHook.LateLoadedData | src/hooks/useAudio.ts:19-30 | the `loadeddata` listener stays attached after the promise has rejected: when it fires it adds exactly `path ↦ new element` to the cache, keeps every other entry, `current`, `loading` and the progress, and keeps the invariant |
| AudioHook.TimeoutThenCached | src/hooks/useAudio.ts:15-30 | a load that times out rejects and leaves the cache alone; once its late `loadeddata` fires, preloading the same sound resolves from the cache and playing it starts |
| AudioHook.FreshLoadElement | src/hooks/useAudio.ts:17-22 | a fresh load creates a paused element at time 0 on `/api/audio` + path, and the cache gains that entry only |
| AudioHook.PreloadIdempotent | src/hooks/useAudio.ts:15 | once a path has loaded, preloading it again returns the same element and changes nothing, whatever the browser would report |
| AudioHook.StopCurrent | src/hooks/useAudio.ts:40-43 | a sounding current element ends paused at time 0; a paused one and every other element are untouched; the invariant is kept |
| AudioHook.PlaySound | src/hooks/useAudio.ts:34-54 | an empty path changes nothing; otherwise the sounding current element is stopped first; playback starts exactly when the element is available and `play()` is allowed, and only then does it become current, rewound, playing the cached element or a new one on `/api/audio` + path; on a throw `current` is unchanged; a paused current element other than the played one is left as it was; no other element changes; the invariant is kept |
| AudioHook.SingleSounding | src/hooks/useAudio.ts:40-49 | playing A and then B back to back, while A still sounds, leaves B current and the only element sounding, with A paused at time 0 |
| AudioHook.Ended | src/hooks/useAudio.ts:40-43 | an element that plays to its end is paused where it stopped, has ended, and stays `currentAudio`; nothing else changes, and the invariant is kept |
| AudioHook.EndedNotRewound | src/hooks/useAudio.ts:40-49 | when A has ended on its own before B is played, line 40 finds it paused, so A stays at its end time instead of being rewound, and B is the only element sounding |
| AudioHook.Percent | src/hooks/useAudio.ts:73 | `(loaded / total) * 100` lies in [0, 100] and equals 100 exactly when every entry has loaded |
| AudioHook.PercentMonotone | src/hooks/useAudio.ts:72-73 | more loaded entries never give a smaller percentage |
| AudioHook.ResolvedPlusRejected | src/hooks/useAudio.ts:69-77 | the resolved and the rejected entries together number exactly the attempted entries (sounds with a path) |
| AudioHook.AllResolveIff | src/hooks/useAudio.ts:67-73 | the count of resolved entries equals the number of entries exactly when every entry is an attempted sound that resolves |
| AudioHook.ProgressFull | src/hooks/useAudio.ts:72-73 | 100 appears among the progress values exactly when the list is non-empty and every entry advanced the count |
| AudioHook.Settle | src/hooks/useAudio.ts:68-78 | a resolving entry adds one progress value and possibly its cache entry; a rejecting one adds one error; a skipped entry changes nothing; earlier cache entries survive |
| AudioHook.SettleAll | src/hooks/useAudio.ts:67-80 | after all entries have settled in any order, the progress values count the resolved entries and run `Percent(1..k)`; the errors count the rejected entries; every resolved path is cached |
| AudioHook.PreloadSounds | src/hooks/useAudio.ts:56-88 | a non-array input changes nothing; otherwise `loading` ends false, failures are collected without rejecting, progress stays in [0, 100], never decreases, and reaches 100 exactly when every entry loads; the cache only grows |
| SoundList.ShowsPlaying | src/components/SoundList.tsx:32 | a button is highlighted exactly when there is a current element and the raw path occurs at some position of its `src` |
| SoundList.PlayedIsHighlighted | src/components/SoundList.tsx:32 | after a successful play of a sound whose path holds nothing the URL serialiser rewrites, whether it was cached (as every sound is after the mount-time preload) or loaded now, its button is highlighted: `src` is the origin, the audio route and the path, because every cached element was created for its own key |
| SoundList.EscapedPathNotHighlighted | src/components/SoundList.tsx:32 | a sound whose path holds a character the serialiser rewrites (a space, a non-ASCII letter) becomes current when played but its button is not highlighted |
| SoundList.NestedPathAlsoHighlighted | src/components/SoundList.tsx:63 | while a sound plays, every sound whose path occurs inside its path (`/x/a.mp3` inside `/y/x/a.mp3`) is highlighted too |
| SoundList.DroppedCharHighlightsJoined | src/components/SoundList.tsx:32 | while a path with a tab or newline plays, the parser has deleted that character, so the button of the joined path is highlighted and the playing one is not |
| SoundList.TrailingRunHighlightsTrimmed | src/components/SoundList.tsx:32 | while a path ending in spaces or C0 controls plays, the parser has cut them, so the button of the trimmed path is highlighted and the playing one is not |
| SoundList.Alphabetical | src/components/SoundList.tsx:19-36 | fails exactly when there are two or more sounds and one of them has no third segment; otherwise the buttons are a permutation of the sounds, ordered by third segment, the `i`-th coloured from a palette as long as the list, highlighted by the substring test |
| SoundList.Categories | src/components/SoundList.tsx:41 | the second segments without duplicates, containing exactly the categories of the sounds, in the order of their first occurrence in the listing |
| SoundList.FirstCategoryFirst | src/components/SoundList.tsx:41-48 | the first section shown is the category of the first sound listed |
| SoundList.CategoryGroupAsWritten | src/components/SoundList.tsx:49-51 | the section as written: exactly the sounds whose name starts with `'/' + category`, with their multiplicities, sorted by full name |
| SoundList.OwnCategoryPrefix | src/components/SoundList.tsx:41-50 | a name that begins with `/` passes the prefix test of its own category |
| SoundList.PrefixCollision | src/components/SoundList.tsx:41-50 | a sound whose category `d` has a proper prefix `c` that is also a category is listed under both `c` and `d` |
| SoundList.CategoryGroup | src/components/SoundList.tsx:49-51 | the corrected section: exactly the sounds whose category is that one, with multiplicities, sorted by full name |
| SoundList.GroupWithinAsWritten | src/components/SoundList.tsx:49-51 | for names under a leading `/`, the corrected section only keeps sounds the source's section also keeps |
| SoundList.InGroupAgrees | src/components/SoundList.tsx:41-50 | for a name under a leading `/`, the prefix test for a category agrees with comparing categories unless that category is a proper prefix of the sound's own |
| SoundList.GroupsAgree | src/components/SoundList.tsx:49-51 | without proper-prefix categories the section as written is the corrected section |
| SoundList.CategoryViewAsWritten | src/components/SoundList.tsx:41-70 | the view as written: one section per distinct category, in order, coloured from a palette with one entry per category; the buttons of section `k` are the prefix-test section in order, with that colour and the substring highlight |
| SoundList.CategoryView | src/components/SoundList.tsx:41-70 | corrected: the same sections and colours, each listing exactly the sounds of its category |
| SoundList.ViewsAgree | src/components/SoundList.tsx:41-70 | when every name begins with `/` and no category is a proper prefix of another, the view as written is the corrected view |
| SoundList.ViewsDiffer | src/components/SoundList.tsx:41-70 | when a category is a proper prefix of another category, the view as written differs from the corrected view |
| SoundList.SectionsPartition | src/components/SoundList.tsx:41-62 | every listed sound's category has a section, sections have distinct categories, and each sound appears, as often as in the input, in its own section only |
| SoundList.ListGestureAsWritten | src/components/SoundList.tsx:6-16 | on a listed button a click requests playback of its sound, and a double tap throws |
| SoundList.DoubleTapNeverFaves | src/components/SoundList.tsx:29-34 | no double tap on a listed button reaches the favourites toggle |
| SoundList.ListGesture | src/components/SoundButton.tsx:38-39 | with `onFave` forwarded, a gesture always reaches the handler with the button's own record, and a double tap is exactly the favourite request |
| SoundList.ListGestureAgrees | src/components/SoundList.tsx:28-34 | the forwarding and the non-forwarding view agree on clicks; only the forwarding one turns a double tap into a favourite request |
| SoundButton.StripExtension | src/components/SoundButton.tsx:25 | removes the one trailing `.` + word characters when present, giving the text before that dot, and leaves every other string unchanged |
| SoundButton.ExtensionUnique | src/components/SoundButton.tsx:25 | the extension pattern matches at most one position |
| SoundButton.DisplayName | src/components/SoundButton.tsx:22-25 | the label is always defined, holds no `/`, and is a prefix of the last `/`-segment |
| SoundButton.DisplayNameStripsExtension | src/components/SoundButton.tsx:22-25 | the label is the last `/`-segment cut before its trailing `.` + word characters when it has them, and the whole last segment otherwise |
| SoundButton.DisplayNameExamples | src/components/SoundButton.tsx:25 | `a.b.ogg` shows as `a.b`; `kick` and `kick.` are unchanged |
| SoundButton.TrailingSlashLabel | src/components/SoundButton.tsx:22-25 | a name ending in `/` has the empty label |
| SoundButton.HandleGesture | src/components/SoundButton.tsx:38-39 | a click asks to play and a double click asks to toggle the favourite, both with the button's own record |
| App.Increase | src/App.tsx:88-90 | one step up the cycle `xxs, xs, sm, md, lg`, wrapping from `lg` to `xxs` |
| App.Decrease | src/App.tsx:92-94 | one step down the same cycle, wrapping from `xxs` to `lg` |
| App.IncreaseDecreaseInverse | src/App.tsx:88-94 | decreasing undoes increasing and increasing undoes decreasing |
| App.FiveCycle | src/App.tsx:88-90 | a positive number of increases returns a size to itself exactly when it is a multiple of five |
| App.ToggleFave | src/App.tsx:79-84 | a present sound removes every fave with its name, keeping the others with their multiplicities and order and shortening the list; an absent sound is appended |
| App.ToggleFaveTwice | src/App.tsx:79-84 | toggling a sound whose name no fave carries twice restores the list |
| App.OnFaveAsWritten | src/App.tsx:79-86 | as written, the shown list is the toggled one while storage receives the list from before the toggle |
| App.StoredLagsBehind | src/App.tsx:79-86 | the first double tap on an empty list shows the sound but stores nothing |
| App.OnFave | src/App.tsx:79-86 | corrected: storage receives the toggled list |
| App.StoredMatchesShown | src/App.tsx:79-86 | with the corrected handler the stored list is the shown list after any non-empty run of double taps, and after any run from a state where they agreed |
| App.StoredLagsOneTap | src/App.tsx:79-86 | as written, after any non-empty run of double taps storage holds the list shown one tap earlier, which differs from the list shown now |
| App.ShownAgrees | src/App.tsx:79-86 | the handler as written and the corrected one show the same list after the same taps |
| App.StaleStoreNeedsForwarding | src/App.tsx:79-86 | as shipped a double tap on a listed button throws before `onFave`; with `onFave` forwarded it reaches the handler, which shows the toggled list and stores the old one |
| App.Search | src/App.tsx:169-171 | the result is an order-preserving subsequence holding exactly the sounds whose lower-cased name contains the lower-cased term, with their multiplicities |
| App.EmptySearch | src/App.tsx:169-171 | an empty term keeps every sound, in order |
| App.MatchesIgnoresCase | src/App.tsx:170 | lower-casing the term first changes no match |
| App.CategoriesOf | src/App.tsx:61-63 | the first segments without duplicates, containing exactly the first segments of the catalog |
| App.ProcessSounds | src/App.tsx:61-70 | categories without duplicates, exactly the first segments of the sounds; the palette generated for that many categories with hue factor 2; every sound kept in order, with a valid `categoryIndex` that points at its own first segment |
| App.CatalogNamesRooted | app.ts:24-27 | when every file lies under `root + "/"`, every catalog name begins with `/` |
| App.CatalogSingleCategory | src/App.tsx:61-63 | on a non-empty such catalog the categories are exactly `[""]`, with one colour, and every sound has category index 0 |
| Colors.Sector | src/lib/colors.ts:5-11 | the sector `floor(6h) % 6` lies in 0..5 for a non-negative hue |
| Colors.Factors | src/lib/colors.ts:7-9 | for `f`, `s`, `v` in [0, 1], each of `p`, `q`, `t` lies in [0, v] |
| Colors.PickBounds | src/lib/colors.ts:11-30 | every sector's triple takes values in [0, v] and contains both `v` and `p` |
| Colors.ComponentBounds | src/lib/colors.ts:5-30 | for a non-negative hue and `s`, `v` in [0, 1], the selected components lie in [0, v] and include `v` and `p` |
| Colors.HsvToRgb | src/lib/colors.ts:1-33 | for a non-negative hue and `s`, `v` in [0, 1] every channel is in 0..255, one is `round(255 v)` and one `round(255 v (1 - s))`; a sector remainder below 0 gives black |
| Colors.Grey | src/lib/colors.ts:7-32 | with `s = 0` all three channels equal `round(255 v)` |
| Colors.FullSaturationChannels | src/lib/colors.ts:11-38 | with `s = 1` and `v = 0.75` every colour has a 0 channel and a 191 channel |
| Colors.Hue | src/lib/colors.ts:37 | `(i / count) * mod` lies in [0, mod) for a positive `mod` |
| Colors.GenerateDistinguishableColors | src/lib/colors.ts:35-41 | exactly `count` strings, the `i`-th being the CSS `rgb(...)` of hue `(i / count) * mod` |
| Colors.PaletteChannels | src/lib/colors.ts:35-41 | every palette colour has a 0 channel and a 191 channel |
| Slider.Percentage | src/components/Slider.tsx:32 | undefined exactly when `max == min`; otherwise it satisfies `p (max - min) = 100 (value - min)` |
| Slider.ThumbPosition | src/components/Slider.tsx:37 | defined exactly when `max != min`, with `t (max - min) = 80 (value - min)` |
| Slider.ThumbOnTrack | src/components/Slider.tsx:32-37 | for a value in the range, the thumb's left edge is in [0, 80] and the fill width in [20, 100] |
| Slider.ThumbMonotone | src/components/Slider.tsx:32-37 | a larger value never moves the thumb left |
| Slider.Ratio | src/components/Slider.tsx:53-54 | the ratio is in [0, 1]; it is NaN exactly for `0 / 0`; inside the usable width it is `relativeX / usableWidth` |
| Slider.Snap | src/components/Slider.tsx:60 | the snapped value is a whole multiple of the step |
| Slider.SnapNearest | src/components/Slider.tsx:60 | snapping to a positive step moves the value by at most half a step |
| Slider.UpdateValue | src/components/Slider.tsx:41-67 | no track emits nothing; NaN is emitted exactly for a zero-width track with the cursor at its left edge; every other emitted value lies in `[min, max]` when `min <= max`, and is `min` otherwise |
| Slider.NoStepInterpolates | src/components/Slider.tsx:56-64 | with step 0 and `min <= max` the emitted value is `min + ratio (max - min)`, which the clamp leaves as it is |
| Slider.SnappedOnGrid | src/components/Slider.tsx:59-64 | with a non-zero step and bounds on its grid, every emitted value is on the grid |
| Slider.ThumbFollowsCursor | src/components/Slider.tsx:37-56 | with step 0, a cursor over the usable part emits the value whose thumb is centred under the cursor |
| Slider.CursorBeyondEnds | src/components/Slider.tsx:53-64 | with step 0, a cursor at or before the start of the usable part emits `min`, one at or past its end emits `max` |
| Slider.DragMonotone | src/components/Slider.tsx:50-64 | with step 0, moving the cursor right never lowers the value |
| UrlPath.Utf8RoundTrip | src/hooks/useAudio.ts:17 | the UTF-8 bytes of a character read back as its code point, with continuation bytes in 0x80..0xBF |
| UrlPath.EncodeChar | src/hooks/useAudio.ts:17 | a character left after the clean-up is kept exactly when it needs no rewriting; otherwise it becomes `/` or `%XX` triples, none of which needs rewriting |
| UrlPath.EncodePath | src/hooks/useAudio.ts:17 | the path is cleaned and then encoded character by character; the result holds nothing to rewrite, and equals the input exactly when the input holds nothing to rewrite |
| UrlPath.TrimStartSpec | src/hooks/useAudio.ts:17 | the clean-up cuts exactly the leading run of C0 controls and spaces |
| UrlPath.TrimEndSpec | src/hooks/useAudio.ts:17 | the clean-up cuts exactly the trailing run of C0 controls and spaces |
| UrlPath.DropTabsIsFilter | src/hooks/useAudio.ts:17 | deleting tabs and newlines is the order-preserving filter that keeps every other character |
| UrlPath.PreprocessDropsTabs | src/hooks/useAudio.ts:17 | after the clean-up no tab or newline is left, and every character left comes from the input |
| UrlPath.TrailingRunDropped | src/hooks/useAudio.ts:17 | a plain path followed by spaces or C0 controls serialises as the path alone |
| UrlPath.TabOrNewlineDropped | src/hooks/useAudio.ts:17 | a tab or newline between two plain pieces is deleted, and the pieces are joined |
| UrlPath.PlainConcat | src/hooks/useAudio.ts:17 | joining two strings that need no rewriting serialises to the join itself |
| LegacyBoard.ComputeHash | public/main.js:39-42 | the loop computes the left fold of `h' = code + ToInt32(ToInt32(h) << 5) - h` from 0, and the result has magnitude at most `n (2^31 + 2^20 + 2^16)` for a name of length `n` |
| LegacyBoard.HashFromAppend | public/main.js:40-42 | the hash of a name extended by one character is one more step applied to the name's hash |
| LegacyBoard.HashBound | public/main.js:40-42 | each step moves the hash by at most `2^31 + 0x110000`, so the double arithmetic is exact for names shorter than 2^21 characters |
| LegacyBoard.Hue | public/main.js:45 | the hue lies in (-360, 360), has the sign of the hash, and differs from it by a multiple of 360 |
| LegacyBoard.StringToColor | public/main.js:38-49 | the colour always starts with `hsl(` and ends with `, 50%, 50%)`, with something between them |
| LegacyBoard.ColorCarriesHue | public/main.js:44-48 | the colour string can be read back to the hue |
| LegacyBoard.SameColorIff | public/main.js:38-49 | two names get the same colour exactly when their hues agree |
| LegacyBoard.EmptyColor | public/main.js:38-49 | the empty string maps to `hsl(0, 50%, 50%)` |
| LegacyBoard.SingleCharHash | public/main.js:39-42 | a one-character name hashes to its character code |
| LegacyBoard.NormalizeName | public/main.js:60 | exactly one leading `/` is removed when present, and nothing changes otherwise |
| LegacyBoard.LabelIgnoresLeadingSlash | public/main.js:60-86 | the label of the normalised name is the component client's display name of the raw name |
| LegacyBoard.GetOrCreateSection | public/main.js:13-36 | the returned section carries the text; an existing heading returns its first section and changes nothing; a new text appends exactly one fresh section with both flags true; headings stay distinct |
| LegacyBoard.GetOrCreateIdempotent | public/main.js:14-34 | a second call with the same text returns the same pair and creates nothing |
| LegacyBoard.Toggle | public/main.js:25-28 | the section's `data-seen` flips, the heading takes the same value, and nothing else changes |
| LegacyBoard.ToggleTwice | public/main.js:25-28 | a toggle keeps the section and heading flags equal, and two toggles restore the board |
| LegacyBoard.AppendButton | public/main.js:102-103 | the button goes to the end of its section; headings, flags and other sections are unchanged; the board holds one more button |
| LegacyBoard.AddSound | public/main.js:79-103 | throws exactly when the normalised name holds no `/`; otherwise the button, labelled and coloured by the first segment, is appended to that segment's section and the board holds one more button |
| LegacyBoard.AddSoundPlacement | public/main.js:81-87 | a successful add changes only the section of the first segment, which ends with the new button |
| LegacyBoard.Render | public/main.js:58-104 | headings stay distinct; a listing that runs to its end adds one button per entry, and one that stops adds no more |
| LegacyBoard.RenderCompletesStep | public/main.js:58-104 | the `forEach` runs to its end exactly when each entry in turn names a section |
| LegacyBoard.RenderCompletes | public/main.js:58-104 | the listing completes exactly when every normalised name holds a `/` |
| LegacyBoard.OnLoadedData | public/main.js:67-75 | each `loadeddata` raises the count by one, sets the width to `count / total * 100`, and hides the container once the count reaches the total |
| LegacyBoard.Replay | public/main.js:67-75 | after `k` events the count has risen by `k`; the container is hidden exactly when it already was, or `k > 0` and the count reached the total |
| LegacyBoard.FiredAllIff | public/main.js:62-68 | the number of `loadeddata` events equals the number of entries exactly when every entry is a sound that loads |
| LegacyBoard.LoadListing | public/main.js:55-75 | the count restarts at 0 and ends at the number of sounds that load; the container ends hidden exactly when it was, or every entry is a sound and every one loads |
| LegacyBoard.FoldersBlockHide | public/main.js:62-75 | a folder in the listing keeps the loading container visible |
| LegacyBoard.Click | public/main.js:88-99 | a folder sets `currentPath` and fetches it; a sound pauses and rewinds a sounding current element, then `play()` starts it when allowed, from the start if it had ended and from where it stood otherwise; a refused `play()` leaves it as it was and paused; it becomes current either way; other elements are untouched; at most one element sounds |
| LegacyBoard.ClickSwitches | public/main.js:93-98 | clicking one sound and then another while the first still sounds leaves only the second sounding, with the first paused at time 0 |
| LegacyBoard.Ended | public/main.js:93-96 | an element that plays to its end is paused where it stopped, has ended, and stays `currentAudio`; at most one element still sounds |
| LegacyBoard.EndedThenReplay | public/main.js:93-97 | clicking a sound again after it has ended on its own: line 93 skips the rewind, but `play()` on an ended element restarts it from time 0, and it is the only element sounding |
| LegacyBoard.EndedThenClick | public/main.js:93-98 | when the first sound has ended before the second click, line 93 finds it paused, so it keeps its end time while the second sound plays alone |

## Left out

- Express routing, `res.sendFile` for `/api/audio`, the 404 fallback and `listen` in `app.ts`. These are HTTP plumbing around library calls.
- The recursive directory walk. It is a parameter: the files it found, or a read error.
- `app.js`. It is a thin map over `fs.readdir` and Node's path helpers, which are not part of this model.
- `normalize-all.cjs`: ffmpeg subprocesses and file-system recursion.
- `src/lib/generateBackground.ts`. Its output comes entirely from `Math.random`.
- `vite.config.ts`, `src/components/LoadingBar.tsx` and the JSX rendering. Class names, sizes and dark mode are presentation only.
- `localStorage`, `fetch`, `matchMedia` and the DOM. Their reads and writes are values in the model; the quotes of the CSS attribute selector in `getOrCreateSection` are not modelled.
- Audio decoding, the 10 s timer and autoplay policy. These are the outcome parameters of each operation.
- Preact state semantics. State updates are sequential and immediate. Stale closures are modelled only where they change an observable value, as in `App.OnFaveAsWritten`.
- The interleaving inside `Promise.all`. Completions arrive in an arbitrary order.
- UrlPath.EncodePath: the clean-up is applied to the relative URL `/api/audio` + path, which never starts with a control or a space, so the leading cut never applies. `^`, which browsers disagree on, and `?` and `#`, which start a query or fragment, are kept as they are. Dot segments (`/./`, `/../`) are not removed, the page is taken to be served from `http://localhost:5173` (`vite.config.ts:15`), and an unpaired surrogate cannot occur, as a Dafny character is a scalar value.
- AudioHook.LateLoadedData: when two loads of one path are pending, the later `loadeddata` replaces the earlier cache entry; the model does the same, but does not track which of the two elements is `current`.
- IEEE-754 doubles. Numbers are exact reals or unbounded integers. The only special values modelled are the NaN and the infinities the slider can reach; NaN inputs to the slider's props are not modelled.
- Seqs.LexLe: `localeCompare` and the default `sort` are both modelled as lexicographic order of characters. Locale collation rules are not modelled. JavaScript compares UTF-16 code units, so outside the Basic Multilingual Plane the orders differ: a character at U+10000 or above sorts after U+FFFF here, but its lead surrogate (0xD800..0xDBFF) sorts before U+E000..U+FFFF in JavaScript.
- JsString.Lower: `toLowerCase` is modelled as ASCII only.
- App.ToggleFave: `faves.includes(sound)` compares object identity. The model compares records by value, so two equal records count as the same sound.
- SoundList.Alphabetical: the model fails whenever some entry lacks a third segment and there are at least two entries. The source throws only when such an entry is the left operand of a comparison. Which pairs get compared depends on the engine's sort algorithm.
- LegacyBoard.HashBound: character codes are taken to be below 0x110000. JavaScript's `charCodeAt` reads UTF-16 code units. The model reads one code per character, so a character outside the BMP hashes as one code, where JavaScript hashes its two surrogates.
- LegacyBoard.Click: only clicks within one listing are modelled. A navigation starts a new listing with fresh elements and does not stop the old `currentAudio`; that is not modelled.
- LegacyBoard.OnLoadedData: each element is assumed to fire `loadeddata` at most once. `hidden` means the 500 ms hiding timer has been scheduled; the timer itself is not modelled. Elements of an earlier listing keep their handlers after `loadedCount` is reset, and their late events, which can push the count past the new total, are not modelled.
- LegacyBoard.LoadListing: the listing is taken to run to its end. When `Render` stops early, later entries create no element, and the caller's `fires` must say so.

## Findings

| source | as written | input that shows it | evidently intended | confidence | as-written member | corrected member |
|---|---|---|---|---|---|---|
| src/components/SoundList.tsx:50 | a section keeps every sound whose name starts with `'/' + category` | categories `dr` and `drums`: `/drums/kick.mp3` is listed in both sections | each sound listed only under its own category | high; not executed | SoundList.CategoryGroupAsWritten, SoundList.PrefixCollision, SoundList.CategoryViewAsWritten, SoundList.ViewsDiffer | SoundList.CategoryGroup, SoundList.SectionsPartition, SoundList.CategoryView, SoundList.ViewsAgree |
| src/App.tsx:85 | `onFave` stores `faves` as it was before the toggle; latent as shipped, since no button gets `onFave` (next row), and reached once the list forwards it | the first forwarded double tap on an empty list: the sound is shown, `[]` is stored | store the toggled list | high; not executed | App.OnFaveAsWritten, App.StoredLagsBehind, App.StoredLagsOneTap, App.StaleStoreNeedsForwarding | App.OnFave, App.StoredMatchesShown, App.ShownAgrees |
| src/components/SoundList.tsx:6-16 | the list view does not pass `onFave` to its buttons | any double tap on a listed button calls `undefined` and throws | forward `onFave` so a double tap toggles the favourite | high; not executed | SoundList.ListGestureAsWritten, SoundList.DoubleTapNeverFaves | SoundList.ListGesture, SoundList.ListGestureAgrees |

Two further notes on `public/main.js`. Neither is a finding:

- A name with no `/` leaves `section` undefined, and line 87 then throws inside the `forEach`. The listing stops at that entry. `LegacyBoard.AddSound` and `LegacyBoard.Render` model this as an error result.
- The `throw` at line 35 cannot be reached.

=== FILE: app.dfy ===
/** The state logic of the root component (src/App.tsx): the cyclic button
    size, the favourites toggle and what it stores, the search filter, and the
    category indexing applied to a freshly fetched catalog. */
module App {
  import opened Types
  import opened JsString
  import opened Seqs
  import opened Colors
  import Catalog
  import SoundButton
  import SoundList
  import Results

  // ---------------------------------------------------------------------------
  // Button size
  // ---------------------------------------------------------------------------

  /** `'xxs' | 'xs' | 'sm' | 'md' | 'lg'`. */
  datatype ButtonSize = Xxs | Xs | Sm | Md | Lg

  /** The position of a size in the cycle. */
  function Index(b: ButtonSize): (r: nat)
    ensures r < 5
  {
    match b
    case Xxs => 0
    case Xs => 1
    case Sm => 2
    case Md => 3
    case Lg => 4
  }

  const InitialSize: ButtonSize := Md

  /** `increaseButtonSize`: one step up the cycle, `lg` wrapping to `xxs`. */
  function Increase(b: ButtonSize): (r: ButtonSize)
    ensures Index(r) == (Index(b) + 1) % 5
  {
    match b
    case Xxs => Xs
    case Xs => Sm
    case Sm => Md
    case Md => Lg
    case Lg => Xxs
  }

  /** `decreaseButtonSize`: one step down the cycle, `xxs` wrapping to `lg`. */
  function Decrease(b: ButtonSize): (r: ButtonSize)
    ensures Index(r) == (Index(b) + 4) % 5
  {
    match b
    case Xxs => Lg
    case Xs => Xxs
    case Sm => Xs
    case Md => Sm
    case Lg => Md
  }

  /** A size is determined by its position. */
  lemma IndexInjective(a: ButtonSize, b: ButtonSize)
    requires Index(a) == Index(b)
    ensures a == b
  {
  }

  /** Decreasing undoes increasing, and increasing undoes decreasing. */
  lemma IncreaseDecreaseInverse(b: ButtonSize)
    ensures Decrease(Increase(b)) == b
    ensures Increase(Decrease(b)) == b
  {
    IndexInjective(Decrease(Increase(b)), b);
    IndexInjective(Increase(Decrease(b)), b);
  }

  /** `n` presses of the plus button. */
  function IncreaseTimes(b: ButtonSize, n: nat): (r: ButtonSize)
    ensures Index(r) == (Index(b) + n) % 5
    decreases n
  {
    if n == 0 then b else Increase(IncreaseTimes(b, n - 1))
  }

  /** Five presses bring every size back to itself, and no fewer do. */
  lemma FiveCycle(b: ButtonSize, n: nat)
    requires 0 < n
    ensures IncreaseTimes(b, n) == b <==> n % 5 == 0
  {
    ShiftMod5(Index(b), n);
    if n % 5 == 0 {
      IndexInjective(IncreaseTimes(b, n), b);
    }
  }

  lemma ShiftMod5(x: int, n: nat)
    requires 0 <= x < 5
    ensures (x + n) % 5 == x <==> n % 5 == 0
  {
    var q, r := n / 5, n % 5;
    assert x + n == (x + r) + 5 * q;
    assert (x + n) % 5 == (x + r) % 5;
  }

  // ---------------------------------------------------------------------------
  // Favourites
  // ---------------------------------------------------------------------------

  /** The favourites after a double tap: a sound already in the list removes
      every fave with its name; any other sound is appended. */
  function ToggleFave(faves: seq<Sound>, sound: Sound): (r: seq<Sound>)
    ensures sound in faves ==> forall i :: 0 <= i < |r| ==> r[i].name != sound.name
    ensures sound in faves ==>
      forall s: Sound :: s.name != sound.name ==> multiset(r)[s] == multiset(faves)[s]
    ensures sound in faves ==> IsSubsequence(r, faves) && |r| < |faves|
    ensures sound !in faves ==> r == faves + [sound]
  {
    if sound in faves then
      var keep := (s: Sound) => s.name != sound.name;
      FilterMultiset(faves, keep);
      FilterSubsequence(faves, keep);
      FilterShrinks(faves, keep, sound);
      Filter(faves, keep)
    else
      faves + [sound]
  }

  /** Two double taps on a sound whose name no fave carries restore the list. */
  lemma ToggleFaveTwice(faves: seq<Sound>, sound: Sound)
    requires forall i :: 0 <= i < |faves| ==> faves[i].name != sound.name
    ensures ToggleFave(ToggleFave(faves, sound), sound) == faves
  {
    assert sound !in faves;
    var once := faves + [sound];
    assert sound in once;
    var keep := (s: Sound) => s.name != sound.name;
    FilterAppend(faves, [sound], keep);
    FilterAll(faves, keep);
    assert Filter([sound], keep) == [];
  }

  /** `onFave` as written: the new list, and what `localStorage` receives,
      which is `JSON.stringify(faves)` of the list the handler closed over,
      that is, the list before the toggle. */
  datatype FaveUpdate = FaveUpdate(faves: seq<Sound>, stored: seq<Sound>)

  function OnFaveAsWritten(faves: seq<Sound>, sound: Sound): (r: FaveUpdate)
    ensures r.faves == ToggleFave(faves, sound)
    ensures r.stored == faves
  {
    FaveUpdate(ToggleFave(faves, sound), faves)
  }

  /** The stored favourites lag one toggle behind: after the first double tap
      on an empty list the list holds the sound while storage still holds
      nothing, so a reload loses it. */
  lemma StoredLagsBehind(sound: Sound)
    ensures var u := OnFaveAsWritten([], sound);
      u.faves == [sound] && u.stored == [] && u.stored != u.faves
  {
  }

  /** `onFave` storing the list it has just computed. */
  function OnFave(faves: seq<Sound>, sound: Sound): (r: FaveUpdate)
    ensures r.faves == ToggleFave(faves, sound)
    ensures r.stored == r.faves
  {
    var next := ToggleFave(faves, sound);
    FaveUpdate(next, next)
  }

  /** A run of double taps from a shown list and a stored list, each tap
      going through `onFave`. */
  function ApplyFaves(u: FaveUpdate, taps: seq<Sound>): FaveUpdate
    decreases |taps|
  {
    if |taps| == 0 then u else ApplyFaves(OnFave(u.faves, taps[0]), taps[1..])
  }

  /** The same run through `onFave` as written. */
  function ApplyFavesAsWritten(u: FaveUpdate, taps: seq<Sound>): FaveUpdate
    decreases |taps|
  {
    if |taps| == 0 then u else ApplyFavesAsWritten(OnFaveAsWritten(u.faves, taps[0]), taps[1..])
  }

  /** With the list stored after every toggle, what a reload reads back is
      the list the user sees once at least one double tap has happened, and
      from a state where the two already agree, after any run of taps. */
  lemma {:induction false} StoredMatchesShown(u: FaveUpdate, taps: seq<Sound>)
    ensures |taps| > 0 || u.stored == u.faves ==>
      ApplyFaves(u, taps).stored == ApplyFaves(u, taps).faves
    decreases |taps|
  {
    if |taps| > 0 {
      StoredMatchesShown(OnFave(u.faves, taps[0]), taps[1..]);
    }
  }

  /** As written, after any non-empty run of taps storage holds the list as
      it was one tap earlier, and that list differs from the one shown. */
  lemma {:induction false} StoredLagsOneTap(u: FaveUpdate, taps: seq<Sound>)
    ensures |taps| > 0 ==>
      ApplyFavesAsWritten(u, taps).stored == ApplyFavesAsWritten(u, taps[..|taps| - 1]).faves
    ensures |taps| > 0 ==>
      ApplyFavesAsWritten(u, taps).stored != ApplyFavesAsWritten(u, taps).faves
    decreases |taps|
  {
    if |taps| > 1 {
      var u1 := OnFaveAsWritten(u.faves, taps[0]);
      StoredLagsOneTap(u1, taps[1..]);
      assert taps[..|taps| - 1][1..] == taps[1..][..|taps| - 2];
    } else if |taps| == 1 {
      assert taps[..0] == [];
    }
  }

  /** Both handlers show the same list after the same taps; they differ
      only in what they store. */
  lemma {:induction false} ShownAgrees(u: FaveUpdate, v: FaveUpdate, taps: seq<Sound>)
    ensures u.faves == v.faves ==> ApplyFaves(u, taps).faves == ApplyFavesAsWritten(v, taps).faves
    decreases |taps|
  {
    if |taps| > 0 {
      ShownAgrees(OnFave(u.faves, taps[0]), OnFaveAsWritten(v.faves, taps[0]), taps[1..]);
    }
  }

  /** The stale store is latent in the shipped program: a double tap on a
      listed button throws before reaching `onFave`. It becomes reachable
      once the list forwards `onFave`; the tap then reaches the handler,
      which shows the toggled list and stores the old one. */
  lemma StaleStoreNeedsForwarding(faves: seq<Sound>, sound: Sound)
    ensures SoundList.ListGestureAsWritten(sound, SoundButton.DoubleClick).Failure?
    ensures SoundList.ListGesture(sound, SoundButton.DoubleClick) == Results.Success(SoundButton.FaveRequest(sound))
    ensures var u := OnFaveAsWritten(faves, sound); u.stored == faves && u.faves != faves
  {
    if sound in faves {
      assert |ToggleFave(faves, sound)| < |faves|;
    } else {
      assert |ToggleFave(faves, sound)| == |faves| + 1;
    }
  }

  // ---------------------------------------------------------------------------
  // Search
  // ---------------------------------------------------------------------------

  /** The search test: the lower-cased name contains the lower-cased term. */
  predicate Matches(term: string, s: Sound) {
    Includes(Lower(s.name), Lower(term))
  }

  /** `sounds.filter(s => s.name.toLowerCase().includes(term.toLowerCase()))`. */
  function Search(sounds: seq<Sound>, term: string): (r: seq<Sound>)
    ensures forall i :: 0 <= i < |r| ==> Matches(term, r[i]) && r[i] in sounds
    ensures forall s :: multiset(r)[s] == if Matches(term, s) then multiset(sounds)[s] else 0
    ensures IsSubsequence(r, sounds)
  {
    FilterMultiset(sounds, s => Matches(term, s));
    FilterSubsequence(sounds, s => Matches(term, s));
    Filter(sounds, s => Matches(term, s))
  }

  /** An empty search term keeps every sound, in order. */
  lemma EmptySearch(sounds: seq<Sound>)
    ensures Search(sounds, "") == sounds
  {
    forall i | 0 <= i < |sounds|
      ensures Matches("", sounds[i])
    {
      assert OccursAt(Lower(sounds[i].name), "", 0);
      IncludesIff(Lower(sounds[i].name), "");
    }
    FilterAll(sounds, s => Matches("", s));
  }

  /** The test ignores ASCII case in the term. */
  lemma MatchesIgnoresCase(term: string, s: Sound)
    ensures Matches(Lower(term), s) <==> Matches(term, s)
  {
    assert Lower(Lower(term)) == Lower(term);
  }

  // ---------------------------------------------------------------------------
  // Category indexing of a fetched catalog
  // ---------------------------------------------------------------------------

  /** `name.split('/')[0]`, always defined. */
  function TopSegment(s: Sound): string {
    Split(s.name, '/')[0]
  }

  /** A sound with its `categoryIndex`. */
  datatype Indexed = Indexed(sound: Sound, categoryIndex: int)

  /** What `fetchSounds` derives from the catalog. */
  datatype Processed = Processed(categories: seq<string>, colors: seq<string>, sounds: seq<Indexed>)

  /** The distinct first segments of the catalog, in first-occurrence
      order. */
  function CategoriesOf(data: seq<Sound>): (r: seq<string>)
    ensures NoDuplicates(r)
    ensures forall c :: c in r <==> exists i :: 0 <= i < |data| && TopSegment(data[i]) == c
  {
    var all := seq(|data|, i requires 0 <= i < |data| => TopSegment(data[i]));
    var categories := Distinct(all);
    forall i | 0 <= i < |data|
      ensures TopSegment(data[i]) in categories
    {
      assert all[i] == TopSegment(data[i]);
    }
    forall c | c in categories
      ensures exists i :: 0 <= i < |data| && TopSegment(data[i]) == c
    {
      var i :| 0 <= i < |all| && all[i] == c;
    }
    categories
  }

  /** Every sound tagged with the position of its first segment among
      `categories`. */
  function IndexAll(data: seq<Sound>, categories: seq<string>): (r: seq<Indexed>)
    requires forall i :: 0 <= i < |data| ==> TopSegment(data[i]) in categories
    ensures |r| == |data|
    ensures forall i :: 0 <= i < |data| ==>
      && r[i].sound == data[i]
      && 0 <= r[i].categoryIndex < |categories|
      && categories[r[i].categoryIndex] == TopSegment(data[i])
  {
    seq(|data|, i requires 0 <= i < |data| => Indexed(data[i], Seqs.IndexOf(categories, TopSegment(data[i]))))
  }

  /** `fetchSounds` after the response has been parsed: the distinct first
      segments, a palette of that many colours spread over two turns, and
      every sound tagged with the position of its first segment. */
  function ProcessSounds(data: seq<Sound>): (r: Processed)
    ensures NoDuplicates(r.categories)
    ensures forall c :: c in r.categories <==> exists i :: 0 <= i < |data| && TopSegment(data[i]) == c
    ensures r.colors == GenerateDistinguishableColors(|r.categories|, 2.0)
    ensures |r.sounds| == |data|
    ensures forall i :: 0 <= i < |data| ==>
      && r.sounds[i].sound == data[i]
      && 0 <= r.sounds[i].categoryIndex < |r.categories|
      && r.categories[r.sounds[i].categoryIndex] == TopSegment(data[i])
  {
    var categories := CategoriesOf(data);
    assert forall i :: 0 <= i < |data| ==> TopSegment(data[i]) in categories;
    Processed(categories, GenerateDistinguishableColors(|categories|, 2.0), IndexAll(data, categories))
  }

  /** A file under `root + "/"` is named by a path that begins with `/`. */
  lemma RootedName(f: string, root: string)
    requires StartsWith(f, root + "/")
    ensures var rel := Catalog.RelativePath(f, root); |rel| > 0 && rel[0] == '/'
  {
    assert f[..|root|] == (root + "/")[..|root|];
    assert f[|root|] == (root + "/")[|root|];
    assert StartsWith(f, root);
  }

  /** Every catalog item names its file after the root, so when each file
      lies under `root + "/"` every name begins with `/`. */
  lemma CatalogNamesRooted(files: seq<string>, root: string)
    requires forall f :: f in files ==> StartsWith(f, root + "/")
    ensures forall s :: s in Catalog.CatalogItems(files, root) ==> |s.name| > 0 && s.name[0] == '/'
  {
    var items := Catalog.CatalogItems(files, root);
    forall s | s in items
      ensures |s.name| > 0 && s.name[0] == '/'
    {
      var i :| 0 <= i < |items| && items[i] == s;
      var f :| f in files && Catalog.IsAudioFile(f) && items[i].path == Catalog.RelativePath(f, root);
      RootedName(f, root);
    }
  }

  /** A name that begins with `/` has the empty first segment. */
  lemma LeadingSlashTop(s: Sound)
    requires |s.name| > 0 && s.name[0] == '/'
    ensures TopSegment(s) == ""
  {
    assert s.name == [s.name[0]] + s.name[1..];
  }

  /** A catalog served from a root directory names every file after a
      leading `/`, so every sound gets the empty category at index 0 and the
      palette has a single colour. */
  lemma CatalogSingleCategory(files: seq<string>, root: string)
    requires forall f :: f in files ==> StartsWith(f, root + "/")
    requires |Catalog.CatalogItems(files, root)| > 0
    ensures var p := ProcessSounds(Catalog.CatalogItems(files, root));
      && p.categories == [""]
      && |p.colors| == 1
      && forall i :: 0 <= i < |p.sounds| ==> p.sounds[i].categoryIndex == 0
  {
    var items := Catalog.CatalogItems(files, root);
    CatalogNamesRooted(files, root);
    forall i | 0 <= i < |items|
      ensures TopSegment(items[i]) == ""
    {
      assert items[i] in items;
      LeadingSlashTop(items[i]);
    }
    var p := ProcessSounds(items);
    assert TopSegment(items[0]) in p.categories;
    SingletonDistinct(p.categories, "");
  }

  /** A duplicate-free list holding only `x`, and holding it, is `[x]`. */
  lemma SingletonDistinct(s: seq<string>, x: string)
    requires NoDuplicates(s) && x in s
    requires forall c :: c in s ==> c == x
    ensures s == [x]
  {
    if |s| > 1 {
      FirstTwoDiffer(s);
      assert false;
    }
  }

  lemma FirstTwoDiffer(s: seq<string>)
    requires NoDuplicates(s) && |s| > 1
    ensures s[0] != s[1] && s[0] in s && s[1] in s
  {
  }
}

=== FILE: audio.dfy ===
/** The audio hook of the client (src/hooks/useAudio.ts): a path-keyed cache
    of loaded audio elements, the one "current" element, and the batch
    preload with its progress bar.

    Elements are values held in the cache; `current` names the cache entry
    that `currentAudio` refers to, so pausing the current element is an update
    of that entry. What the browser decides (whether an element fires
    `loadeddata`, `error` or the 10 s timeout first, and whether `play()` is
    allowed) is a parameter of each operation. State updates are sequential
    and take effect immediately. */
module AudioHook {
  import opened Results
  import opened Types
  import opened UrlPath

  /** The URL prefix under which the server streams audio files. */
  const AudioRoute: string := "/api/audio"

  /** An `HTMLAudioElement` as far as the hook observes it: the URL it was
      created with, whether it is paused, its playback position, and whether
      playback has reached the end of the media. */
  datatype Element = Element(url: string, paused: bool, currentTime: real, ended: bool)

  /** Setting `currentTime = 0`: a seek to the start, after which playback
      has no longer ended. */
  function Rewind(e: Element): (r: Element)
    ensures r.currentTime == 0.0 && !r.ended
    ensures r.url == e.url && r.paused == e.paused
  {
    e.(currentTime := 0.0, ended := false)
  }

  /** The media reaches its end, `duration` seconds in: the element pauses
      there and has ended. */
  function PlayToEnd(e: Element, duration: real): (r: Element)
    ensures r.paused && r.ended && r.currentTime == duration && r.url == e.url
  {
    e.(paused := true, currentTime := duration, ended := true)
  }

  /** An allowed `play()`: an element whose playback has ended first seeks to
      the start, as the HTML Living Standard's internal play steps for media
      elements require; any other element resumes where it is. */
  function Play(e: Element): (r: Element)
    ensures !r.paused && !r.ended && r.url == e.url
    ensures r.currentTime == (if e.ended then 0.0 else e.currentTime)
  {
    if e.ended then Rewind(e).(paused := false) else e.(paused := false)
  }

  /** What the element's `src` reads back: its URL resolved against the
      page's origin, with the path serialised. */
  function Src(e: Element): string {
    PageOrigin + EncodePath(e.url)
  }

  /** `new Audio('/api/audio' + path)`: paused, at the start. */
  function NewElement(path: string): Element {
    Element(AudioRoute + path, true, 0.0, false)
  }

  /** Which of the element's settle events comes first. */
  datatype LoadOutcome = LoadedData | ErrorEvent | Timeout

  /** The errors the hook throws. */
  datatype AudioError =
    | PathRequired
    | LoadFailed(path: string)
    | LoadTimedOut(path: string)
    | PlayRejected(path: string)

  /** The hook's state: `currentAudio` (as the key of its cache entry),
      `loadedSounds`, `loading` and `loadingProgress`. */
  datatype Hook = Hook(
    current: Option<string>,
    loadedSounds: map<string, Element>,
    loading: bool,
    loadingProgress: real)

  /** The state the hook starts in. */
  const Initial: Hook := Hook(None, map[], false, 0.0)

  /** `currentAudio`, when set, is one of the loaded elements. */
  predicate CurrentIsLoaded(h: Hook) {
    h.current.Some? ==> h.current.value in h.loadedSounds
  }

  /** Every cached element was created for its own key: the hook only ever
      stores `new Audio('/api/audio' + path)` under `path`. */
  predicate UrlsMatchKeys(h: Hook) {
    forall p :: p in h.loadedSounds ==> h.loadedSounds[p].url == AudioRoute + p
  }

  /** The hook's invariant: every cached element was made for its key, at
      most one element sounds, and it is the current one. */
  ghost predicate Valid(h: Hook) {
    && CurrentIsLoaded(h)
    && UrlsMatchKeys(h)
    && forall p :: p in h.loadedSounds && !h.loadedSounds[p].paused ==> h.current == Some(p)
  }

  // ---------------------------------------------------------------------------
  // preloadSound
  // ---------------------------------------------------------------------------

  /** The state after a single preload and what its promise settles to. */
  datatype Loaded = Loaded(hook: Hook, result: Result<Element, AudioError>)

  /** `preloadSound(sound)`: rejects a sound without a path, answers a cached
      path from the cache, and otherwise creates an element whose first settle
      event decides the outcome; only `loadeddata` adds it to the cache. */
  function PreloadSound(h: Hook, sound: Sound, outcome: LoadOutcome): (r: Loaded)
    ensures sound.path == "" ==> r == Loaded(h, Failure(PathRequired))
    ensures sound.path != "" && sound.path in h.loadedSounds ==>
      r == Loaded(h, Success(h.loadedSounds[sound.path]))
    ensures r.result.Success? <==>
      sound.path != "" && (sound.path in h.loadedSounds || outcome == LoadedData)
    ensures r.result.Success? ==>
      sound.path in r.hook.loadedSounds && r.hook.loadedSounds[sound.path] == r.result.value
    ensures r.result.Success? && sound.path !in h.loadedSounds ==> r.result.value == NewElement(sound.path)
    ensures r.result.Failure? ==> r.hook == h
    ensures r.hook.loadedSounds.Keys ==
      h.loadedSounds.Keys + (if r.result.Success? then {sound.path} else {})
    ensures forall p :: p in h.loadedSounds ==> r.hook.loadedSounds[p] == h.loadedSounds[p]
    ensures r.hook.current == h.current && r.hook.loading == h.loading
    ensures r.hook.loadingProgress == h.loadingProgress
    ensures Valid(h) ==> Valid(r.hook)
  {
    if sound.path == "" then
      Loaded(h, Failure(PathRequired))
    else if sound.path in h.loadedSounds then
      Loaded(h, Success(h.loadedSounds[sound.path]))
    else
      var audio := NewElement(sound.path);
      match outcome
      case LoadedData =>
        Loaded(h.(loadedSounds := h.loadedSounds[sound.path := audio]), Success(audio))
      case ErrorEvent =>
        Loaded(h, Failure(LoadFailed(sound.path)))
      case Timeout =>
        Loaded(h, Failure(LoadTimedOut(sound.path)))
  }

  /** A fresh load yields an element that streams the sound's path and has
      not started. */
  lemma FreshLoadElement(h: Hook, sound: Sound)
    requires sound.path != "" && sound.path !in h.loadedSounds
    ensures var r := PreloadSound(h, sound, LoadedData);
      && r.result == Success(Element(AudioRoute + sound.path, true, 0.0, false))
      && r.hook.loadedSounds == h.loadedSounds[sound.path := r.result.value]
  {
  }

  /** Preloading is idempotent: once a path has loaded, preloading it again
      returns the same element and changes nothing, whatever the browser would
      have reported. */
  lemma PreloadIdempotent(h: Hook, sound: Sound, first: LoadOutcome, second: LoadOutcome)
    requires PreloadSound(h, sound, first).result.Success?
    ensures var r1 := PreloadSound(h, sound, first);
      PreloadSound(r1.hook, sound, second) == r1
  {
  }

  /** The `loadeddata` listener of a preload whose promise the 10 s timer
      has already rejected. The listener is never removed, so the element
      still enters the cache, replacing any entry the path has by then. */
  function LateLoadedData(h: Hook, path: string): (r: Hook)
    ensures r.loadedSounds.Keys == h.loadedSounds.Keys + {path}
    ensures r.loadedSounds[path] == NewElement(path)
    ensures forall p :: p in h.loadedSounds && p != path ==> r.loadedSounds[p] == h.loadedSounds[p]
    ensures r.current == h.current && r.loading == h.loading && r.loadingProgress == h.loadingProgress
    ensures Valid(h) ==> Valid(r)
  {
    h.(loadedSounds := h.loadedSounds[path := NewElement(path)])
  }

  /** A timed-out preload rejects and leaves the state alone, yet once its
      element loads late the path is cached: the next preload resolves to
      that element and a play starts from it, whatever a fresh load would
      have done. */
  lemma TimeoutThenCached(h: Hook, sound: Sound, later: LoadOutcome)
    requires CurrentIsLoaded(h)
    requires sound.path != "" && sound.path !in h.loadedSounds
    ensures var r := PreloadSound(h, sound, Timeout);
      && r == Loaded(h, Failure(LoadTimedOut(sound.path)))
      && var h2 := LateLoadedData(r.hook, sound.path);
         && PreloadSound(h2, sound, later) == Loaded(h2, Success(NewElement(sound.path)))
         && PlaySound(h2, sound, later, true).status == Started
  {
    var h2 := LateLoadedData(h, sound.path);
    assert CurrentIsLoaded(h2);
  }

  // ---------------------------------------------------------------------------
  // playSound
  // ---------------------------------------------------------------------------

  /** The current element is sounding. */
  predicate IsPlaying(h: Hook)
    requires CurrentIsLoaded(h)
  {
    h.current.Some? && !h.loadedSounds[h.current.value].paused
  }

  /** The first step of `playSound`: a sounding current element is paused and
      rewound; anything else is left alone. */
  function StopCurrent(h: Hook): (r: Hook)
    requires CurrentIsLoaded(h)
    ensures CurrentIsLoaded(r) && !IsPlaying(r)
    ensures r.current == h.current && r.loadedSounds.Keys == h.loadedSounds.Keys
    ensures IsPlaying(h) ==>
      var k := h.current.value; r.loadedSounds[k] == Rewind(h.loadedSounds[k]).(paused := true)
    ensures forall p :: p in h.loadedSounds && (!IsPlaying(h) || Some(p) != h.current) ==>
      r.loadedSounds[p] == h.loadedSounds[p]
    ensures Valid(h) ==> Valid(r)
  {
    if IsPlaying(h) then
      var k := h.current.value;
      h.(loadedSounds := h.loadedSounds[k := Rewind(h.loadedSounds[k]).(paused := true)])
    else
      h
  }

  /** How a `playSound` call ends: the new sound started, the call was
      ignored for an invalid sound, or it threw. */
  datatype PlayStatus = Started | InvalidSound | Threw(error: AudioError)

  datatype Played = Played(hook: Hook, status: PlayStatus)

  /** `playSound(sound)`: an invalid sound is logged and ignored; otherwise a
      sounding current element is stopped first, the sound's element is taken
      from the cache or preloaded, rewound, and played, and it becomes
      `currentAudio` only once `play()` has succeeded. */
  function PlaySound(h: Hook, sound: Sound, outcome: LoadOutcome, playAllowed: bool): (r: Played)
    requires CurrentIsLoaded(h)
    ensures sound.path == "" ==> r == Played(h, InvalidSound)
    ensures r.status == Started <==>
      sound.path != "" && (sound.path in h.loadedSounds || outcome == LoadedData) && playAllowed
    ensures r.status == Started ==>
      && r.hook.current == Some(sound.path)
      && sound.path in r.hook.loadedSounds
      && !r.hook.loadedSounds[sound.path].paused
      && r.hook.loadedSounds[sound.path].currentTime == 0.0
      && !r.hook.loadedSounds[sound.path].ended
      && r.hook.loadedSounds[sound.path].url ==
         (if sound.path in h.loadedSounds then h.loadedSounds[sound.path].url else AudioRoute + sound.path)
    ensures r.status.Threw? ==> r.hook.current == h.current
    ensures sound.path != "" && IsPlaying(h) && (h.current != Some(sound.path) || r.status != Started) ==>
      var k := h.current.value;
      k in r.hook.loadedSounds && r.hook.loadedSounds[k].paused && r.hook.loadedSounds[k].currentTime == 0.0
    ensures forall p :: p in h.loadedSounds && p != sound.path && Some(p) != h.current ==>
      p in r.hook.loadedSounds && r.hook.loadedSounds[p] == h.loadedSounds[p]
    ensures !IsPlaying(h) && h.current.Some? && h.current.value != sound.path ==>
      var k := h.current.value;
      k in r.hook.loadedSounds && r.hook.loadedSounds[k] == h.loadedSounds[k]
    ensures CurrentIsLoaded(r.hook)
    ensures r.hook.loading == h.loading && r.hook.loadingProgress == h.loadingProgress
    ensures Valid(h) ==> Valid(r.hook)
  {
    if sound.path == "" then
      Played(h, InvalidSound)
    else
      var h1 := StopCurrent(h);
      var got := if sound.path in h1.loadedSounds then Loaded(h1, Success(h1.loadedSounds[sound.path]))
                 else PreloadSound(h1, sound, outcome);
      match got.result
      case Failure(e) =>
        Played(got.hook, Threw(e))
      case Success(audio) =>
        RewindAndPlay(got.hook, sound.path, playAllowed)
  }

  /** The tail of `playSound` once the sound's element is cached: it is
      rewound, and then either `play()` is refused or it sounds and becomes
      `currentAudio`. */
  function RewindAndPlay(h: Hook, path: string, playAllowed: bool): (r: Played)
    requires CurrentIsLoaded(h) && path in h.loadedSounds
    ensures r.status == (if playAllowed then Started else Threw(PlayRejected(path)))
    ensures r.hook.current == (if playAllowed then Some(path) else h.current)
    ensures var e := Rewind(h.loadedSounds[path]);
      r.hook.loadedSounds == h.loadedSounds[path := if playAllowed then e.(paused := false) else e]
    ensures r.hook.loading == h.loading && r.hook.loadingProgress == h.loadingProgress
    ensures Valid(h) && !IsPlaying(h) ==> Valid(r.hook)
  {
    var rewound := Rewind(h.loadedSounds[path]);
    if !playAllowed then
      Played(h.(loadedSounds := h.loadedSounds[path := rewound]), Threw(PlayRejected(path)))
    else
      var sounding := rewound.(paused := false);
      Played(h.(loadedSounds := h.loadedSounds[path := sounding], current := Some(path)), Started)
  }

  /** Only one sound at a time: after playing A and then B, B is the current
      element and is sounding, and A (when it is a different sound) is stopped
      and rewound. */
  lemma SingleSounding(h: Hook, a: Sound, b: Sound, oa: LoadOutcome, ob: LoadOutcome)
    requires Valid(h)
    requires a.path != "" && b.path != "" && a.path != b.path
    requires PlaySound(h, a, oa, true).status == Started
    ensures var h1 := PlaySound(h, a, oa, true).hook;
      var r := PlaySound(h1, b, ob, true);
      r.status == Started ==>
        && r.hook.current == Some(b.path)
        && r.hook.loadedSounds[a.path].paused
        && r.hook.loadedSounds[a.path].currentTime == 0.0
        && forall p :: p in r.hook.loadedSounds && !r.hook.loadedSounds[p].paused ==> p == b.path
  {
    var h1 := PlaySound(h, a, oa, true).hook;
    assert IsPlaying(h1);
    var r := PlaySound(h1, b, ob, true);
    assert Valid(r.hook);
  }

  /** A sounding element plays to its end: the browser pauses it and leaves
      its position at the end, `duration` seconds in. Nothing rewinds it, and
      `currentAudio` still refers to it. A paused element or an unknown path
      is left alone. */
  function Ended(h: Hook, path: string, duration: real): (r: Hook)
    ensures r.current == h.current && r.loadedSounds.Keys == h.loadedSounds.Keys
    ensures r.loading == h.loading && r.loadingProgress == h.loadingProgress
    ensures path in h.loadedSounds && !h.loadedSounds[path].paused ==>
      r.loadedSounds[path] == PlayToEnd(h.loadedSounds[path], duration)
    ensures forall p :: p in h.loadedSounds && (p != path || h.loadedSounds[p].paused) ==>
      r.loadedSounds[p] == h.loadedSounds[p]
    ensures Valid(h) ==> Valid(r)
  {
    if path in h.loadedSounds && !h.loadedSounds[path].paused then
      h.(loadedSounds := h.loadedSounds[path := PlayToEnd(h.loadedSounds[path], duration)])
    else
      h
  }

  /** A sound that has ended on its own is not sounding when the next one is
      played, so `playSound` leaves it where it stopped: paused at its end,
      not rewound. The new sound is still the only one sounding. */
  lemma EndedNotRewound(h: Hook, a: Sound, b: Sound, oa: LoadOutcome, ob: LoadOutcome, duration: real)
    requires Valid(h)
    requires a.path != "" && b.path != "" && a.path != b.path
    requires PlaySound(h, a, oa, true).status == Started
    ensures var h1 := Ended(PlaySound(h, a, oa, true).hook, a.path, duration);
      var r := PlaySound(h1, b, ob, true);
      && h1.current == Some(a.path) && !IsPlaying(h1)
      && (r.status == Started ==>
        && r.hook.current == Some(b.path)
        && r.hook.loadedSounds[a.path].paused
        && r.hook.loadedSounds[a.path].currentTime == duration
        && forall p :: p in r.hook.loadedSounds && !r.hook.loadedSounds[p].paused ==> p == b.path)
  {
    var h0 := PlaySound(h, a, oa, true).hook;
    var h1 := Ended(h0, a.path, duration);
    assert h1.loadedSounds[a.path].currentTime == duration;
    var r := PlaySound(h1, b, ob, true);
    assert Valid(r.hook);
  }

  // ---------------------------------------------------------------------------
  // preloadSounds
  // ---------------------------------------------------------------------------

  /** The entries the batch attempts: sounds that have a path. */
  predicate Eligible(s: Sound) {
    s.kind == SoundKind && s.path != ""
  }

  /** An attempted entry's preload resolves: its path was cached when the
      batch was dispatched, or its element loaded. */
  predicate Resolves(start: map<string, Element>, s: Sound, o: LoadOutcome) {
    Eligible(s) && (s.path in start || o == LoadedData)
  }

  /** An attempted entry's preload rejects. */
  predicate Rejects(start: map<string, Element>, s: Sound, o: LoadOutcome) {
    Eligible(s) && s.path !in start && o != LoadedData
  }

  ghost function EligibleIndices(sounds: seq<Sound>): set<nat> {
    set i: nat | i < |sounds| && Eligible(sounds[i])
  }

  ghost function ResolvedIndices(start: map<string, Element>, sounds: seq<Sound>, outcomes: seq<LoadOutcome>): set<nat>
    requires |outcomes| == |sounds|
  {
    set i: nat | i < |sounds| && Resolves(start, sounds[i], outcomes[i])
  }

  ghost function RejectedIndices(start: map<string, Element>, sounds: seq<Sound>, outcomes: seq<LoadOutcome>): set<nat>
    requires |outcomes| == |sounds|
  {
    set i: nat | i < |sounds| && Rejects(start, sounds[i], outcomes[i])
  }

  /** Every attempted entry either resolves or rejects, never both. */
  lemma ResolvedPlusRejected(start: map<string, Element>, sounds: seq<Sound>, outcomes: seq<LoadOutcome>)
    requires |outcomes| == |sounds|
    ensures |ResolvedIndices(start, sounds, outcomes)| + |RejectedIndices(start, sounds, outcomes)|
      == |EligibleIndices(sounds)|
  {
    var a := ResolvedIndices(start, sounds, outcomes);
    var b := RejectedIndices(start, sounds, outcomes);
    assert a * b == {};
    assert a + b == EligibleIndices(sounds);
  }

  /** `order` lists every index below `n` exactly once: the order in which the
      batch's promises settle. */
  predicate IsCompletionOrder(order: seq<nat>, n: nat) {
    && |order| == n
    && (forall k :: 0 <= k < n ==> order[k] < n)
    && (forall a, b :: 0 <= a < b < n ==> order[a] != order[b])
    && (forall i :: 0 <= i < n ==> i in order)
  }

  /** `(loaded / total) * 100`. */
  function Percent(loaded: nat, total: nat): (r: real)
    requires 0 < total && loaded <= total
    ensures 0.0 <= r <= 100.0
    ensures r == 100.0 <==> loaded == total
  {
    var f := loaded as real / total as real;
    assert f <= 1.0 by {
      assert f * total as real == loaded as real;
    }
    assert f == 1.0 ==> loaded == total by {
      assert f * total as real == loaded as real;
    }
    f * 100.0
  }

  lemma PercentMonotone(a: nat, b: nat, total: nat)
    requires 0 < total && a <= b <= total
    ensures Percent(a, total) <= Percent(b, total)
  {
    var fa := a as real / total as real;
    var fb := b as real / total as real;
    assert fa * total as real == a as real;
    assert fb * total as real == b as real;
    assert (fb - fa) * total as real == (b - a) as real;
  }

  /** The indices below `n`. */
  ghost function Range(n: nat): (r: set<nat>)
    ensures |r| == n
    ensures forall i: nat :: i in r <==> i < n
  {
    if n == 0 then {} else Range(n - 1) + {n - 1}
  }

  /** The indices of the first `j` settlements. */
  ghost function Processed(order: seq<nat>, j: nat): set<nat>
    requires j <= |order|
  {
    if j == 0 then {} else Processed(order, j - 1) + {order[j - 1]}
  }

  lemma {:induction false} ProcessedMembers(order: seq<nat>, j: nat)
    requires j <= |order|
    ensures forall k :: 0 <= k < j ==> order[k] in Processed(order, j)
    ensures forall x :: x in Processed(order, j) ==> x in order[..j]
  {
    if j > 0 {
      ProcessedMembers(order, j - 1);
      assert order[..j] == order[..j - 1] + [order[j - 1]];
    }
  }

  /** Settling one more entry adds a new index to the settled set, and the
      count of settled entries in any class grows by at most that one. */
  lemma ProcessedStep(order: seq<nat>, j: nat, a: set<nat>)
    requires j < |order|
    requires forall x, y :: 0 <= x < y < |order| ==> order[x] != order[y]
    ensures Processed(order, j + 1) == Processed(order, j) + {order[j]}
    ensures order[j] !in Processed(order, j)
    ensures order[j] in a ==> |a * Processed(order, j + 1)| == |a * Processed(order, j)| + 1
    ensures order[j] !in a ==> a * Processed(order, j + 1) == a * Processed(order, j)
  {
    ProcessedMembers(order, j);
    if order[j] in a {
      assert a * Processed(order, j + 1) == (a * Processed(order, j)) + {order[j]};
    }
  }

  lemma SubsetCard<T>(a: set<T>, b: set<T>)
    requires a <= b
    ensures |a| <= |b|
  {
    assert b == a + (b - a);
    assert a * (b - a) == {};
  }

  /** How many of the first `j` settlements fall in class `a`. */
  ghost function SettledCount(order: seq<nat>, j: nat, a: set<nat>): (c: nat)
    requires j <= |order|
    ensures c <= j
  {
    if j == 0 then 0 else SettledCount(order, j - 1, a) + (if order[j - 1] in a then 1 else 0)
  }

  /** The running count is the size of the class among the settled indices. */
  lemma {:induction false} SettledCountCard(order: seq<nat>, j: nat, a: set<nat>)
    requires j <= |order|
    requires forall x, y :: 0 <= x < y < |order| ==> order[x] != order[y]
    ensures SettledCount(order, j, a) == |a * Processed(order, j)|
  {
    if j > 0 {
      SettledCountCard(order, j - 1, a);
      ProcessedStep(order, j - 1, a);
    }
  }

  /** A subset as large as its superset is all of it. */
  lemma SubsetFull<T>(a: set<T>, b: set<T>)
    requires a <= b && |a| == |b|
    ensures a == b
  {
    if b - a != {} {
      var x :| x in b - a;
      SubsetCard(a, b - {x});
    }
  }

  /** A completion order eventually settles every index. */
  lemma ProcessedAll(order: seq<nat>, n: nat)
    requires IsCompletionOrder(order, n)
    ensures Processed(order, n) == Range(n)
  {
    ProcessedMembers(order, n);
    assert order[..n] == order;
    forall x: nat | x < n
      ensures x in Processed(order, n)
    {
      assert x in order;
      var k :| 0 <= k < |order| && order[k] == x;
    }
  }

  /** Every entry resolves exactly when all of them count as resolved. */
  lemma AllResolveIff(start: map<string, Element>, sounds: seq<Sound>, outcomes: seq<LoadOutcome>)
    requires |outcomes| == |sounds|
    ensures |ResolvedIndices(start, sounds, outcomes)| == |sounds| <==>
      forall i :: 0 <= i < |sounds| ==> Resolves(start, sounds[i], outcomes[i])
  {
    var resolved := ResolvedIndices(start, sounds, outcomes);
    var all := Range(|sounds|);
    assert resolved <= all;
    if |resolved| == |sounds| {
      SubsetFull(resolved, all);
      forall i | 0 <= i < |sounds|
        ensures Resolves(start, sounds[i], outcomes[i])
      {
        assert i in all;
      }
    }
    if forall i :: 0 <= i < |sounds| ==> Resolves(start, sounds[i], outcomes[i]) {
      assert resolved == all;
    }
  }

  /** A progress sequence `Percent(1, n), Percent(2, n), ...` reaches 100
      exactly when it has all `n` values. */
  lemma ProgressFull(progress: seq<real>, n: nat)
    requires |progress| <= n
    requires forall k :: 0 <= k < |progress| ==> progress[k] == Percent(k + 1, n)
    ensures 100.0 in progress <==> n > 0 && |progress| == n
  {
    if n > 0 && |progress| == n {
      assert progress[n - 1] == 100.0;
    }
  }

  /** The progress of a batch in flight: the hook, the progress values set so
      far, and the errors collected so far. */
  datatype Batch = Batch(hook: Hook, progress: seq<real>, errors: seq<AudioError>)

  /** One settlement of the batch, for entry `s` of a batch of `n` entries
      dispatched against the cache `start`. */
  function Settle(b: Batch, start: map<string, Element>, s: Sound, o: LoadOutcome, n: nat): (r: Batch)
    requires Resolves(start, s, o) ==> |b.progress| < n
    requires start.Keys <= b.hook.loadedSounds.Keys
    ensures r.hook.current == b.hook.current && r.hook.loading == b.hook.loading
    ensures Resolves(start, s, o) ==>
      && r.progress == b.progress + [Percent(|b.progress| + 1, n)]
      && r.hook.loadingProgress == r.progress[|r.progress| - 1]
      && r.errors == b.errors
      && s.path in r.hook.loadedSounds
    ensures Rejects(start, s, o) ==>
      && r.progress == b.progress && |r.errors| == |b.errors| + 1
      && r.hook.loadingProgress == b.hook.loadingProgress
    ensures !Eligible(s) ==> r == b
    ensures forall p :: p in b.hook.loadedSounds ==> p in r.hook.loadedSounds
    ensures forall p :: p in start && p in b.hook.loadedSounds ==>
      r.hook.loadedSounds[p] == b.hook.loadedSounds[p]
    ensures forall p :: p in r.hook.loadedSounds && p !in b.hook.loadedSounds ==>
      p !in start && r.hook.loadedSounds[p] == NewElement(p)
    ensures forall p :: p in r.hook.loadedSounds && p !in start ==>
      r.hook.loadedSounds[p] == NewElement(p) || (p in b.hook.loadedSounds && r.hook.loadedSounds[p] == b.hook.loadedSounds[p])
    ensures Valid(b.hook) ==> Valid(r.hook)
  {
    if !Eligible(s) then
      b
    else if s.path in start || o == LoadedData then
      var h := if s.path in start then b.hook
               else b.hook.(loadedSounds := b.hook.loadedSounds[s.path := NewElement(s.path)]);
      var pct := Percent(|b.progress| + 1, n);
      Batch(h.(loadingProgress := pct), b.progress + [pct], b.errors)
    else
      var e := if o == ErrorEvent then LoadFailed(s.path) else LoadTimedOut(s.path);
      Batch(b.hook, b.progress, b.errors + [e])
  }

  /** Runs the settlements of a batch of `|sounds|` entries in `order`,
      starting from `b0` with the cache `start` as dispatched. */
  method SettleAll(b0: Batch, start: map<string, Element>, sounds: seq<Sound>,
                   outcomes: seq<LoadOutcome>, order: seq<nat>) returns (b: Batch)
    requires |outcomes| == |sounds| && IsCompletionOrder(order, |sounds|)
    requires b0.progress == [] && b0.errors == [] && b0.hook.loadedSounds == start
    ensures b.hook.current == b0.hook.current && b.hook.loading == b0.hook.loading
    ensures |b.progress| == SettledCount(order, |sounds|, ResolvedIndices(start, sounds, outcomes))
    ensures |b.errors| == SettledCount(order, |sounds|, RejectedIndices(start, sounds, outcomes))
    ensures forall k :: 0 <= k < |b.progress| ==> b.progress[k] == Percent(k + 1, |sounds|)
    ensures b.hook.loadingProgress ==
      if |b.progress| == 0 then b0.hook.loadingProgress else b.progress[|b.progress| - 1]
    ensures forall p :: p in start ==> p in b.hook.loadedSounds && b.hook.loadedSounds[p] == start[p]
    ensures forall k :: 0 <= k < |order| && Resolves(start, sounds[order[k]], outcomes[order[k]]) ==>
      sounds[order[k]].path in b.hook.loadedSounds
    ensures forall p :: p in b.hook.loadedSounds && p !in start ==> b.hook.loadedSounds[p] == NewElement(p)
    ensures Valid(b0.hook) ==> Valid(b.hook)
  {
    var n := |sounds|;
    ghost var resolved := ResolvedIndices(start, sounds, outcomes);
    ghost var rejected := RejectedIndices(start, sounds, outcomes);
    b := b0;
    var j := 0;
    while j < n
      invariant 0 <= j <= n
      invariant b.hook.current == b0.hook.current && b.hook.loading == b0.hook.loading
      invariant |b.progress| == SettledCount(order, j, resolved)
      invariant |b.errors| == SettledCount(order, j, rejected)
      invariant forall k :: 0 <= k < |b.progress| ==> b.progress[k] == Percent(k + 1, n)
      invariant b.hook.loadingProgress ==
        if |b.progress| == 0 then b0.hook.loadingProgress else b.progress[|b.progress| - 1]
      invariant forall p :: p in start ==> p in b.hook.loadedSounds && b.hook.loadedSounds[p] == start[p]
      invariant forall k :: 0 <= k < j && order[k] in resolved ==> sounds[order[k]].path in b.hook.loadedSounds
      invariant forall p :: p in b.hook.loadedSounds && p !in start ==> b.hook.loadedSounds[p] == NewElement(p)
      invariant Valid(b0.hook) ==> Valid(b.hook)
    {
      var i := order[j];
      SettleCounts(b, start, sounds, outcomes, order, j);
      SettleKeepsStart(b, start, sounds[i], outcomes[i], n);
      SettleProgress(b, start, sounds[i], outcomes[i], n, b0.hook.loadingProgress);
      SettleFresh(b, start, sounds[i], outcomes[i], n);
      SettleResolved(b, start, sounds, outcomes, order, j);
      b := Settle(b, start, sounds[i], outcomes[i], n);
      j := j + 1;
    }
  }

  /** One settlement advances the resolved or the rejected count, as its
      entry falls. */
  lemma SettleCounts(b: Batch, start: map<string, Element>, sounds: seq<Sound>,
                     outcomes: seq<LoadOutcome>, order: seq<nat>, j: nat)
    requires |outcomes| == |sounds| && IsCompletionOrder(order, |sounds|) && j < |sounds|
    requires |b.progress| == SettledCount(order, j, ResolvedIndices(start, sounds, outcomes))
    requires |b.errors| == SettledCount(order, j, RejectedIndices(start, sounds, outcomes))
    requires start.Keys <= b.hook.loadedSounds.Keys
    ensures var i := order[j];
      var r := Settle(b, start, sounds[i], outcomes[i], |sounds|);
      && |r.progress| == SettledCount(order, j + 1, ResolvedIndices(start, sounds, outcomes))
      && |r.errors| == SettledCount(order, j + 1, RejectedIndices(start, sounds, outcomes))
  {
    var i := order[j];
    assert i in ResolvedIndices(start, sounds, outcomes) <==> Resolves(start, sounds[i], outcomes[i]);
    assert i in RejectedIndices(start, sounds, outcomes) <==> Rejects(start, sounds[i], outcomes[i]);
  }

  /** One settlement appends the next percentage, or nothing, and the
      displayed progress stays the last value set. */
  lemma SettleProgress(b: Batch, start: map<string, Element>, s: Sound, o: LoadOutcome, n: nat, base: real)
    requires Resolves(start, s, o) ==> |b.progress| < n
    requires start.Keys <= b.hook.loadedSounds.Keys
    requires |b.progress| <= n
    requires forall k :: 0 <= k < |b.progress| ==> b.progress[k] == Percent(k + 1, n)
    requires b.hook.loadingProgress == if |b.progress| == 0 then base else b.progress[|b.progress| - 1]
    ensures var r := Settle(b, start, s, o, n);
      && (forall k :: 0 <= k < |r.progress| ==> r.progress[k] == Percent(k + 1, n))
      && r.hook.loadingProgress == if |r.progress| == 0 then base else r.progress[|r.progress| - 1]
  {
  }

  /** One settlement leaves the entries of `start` as they were. */
  lemma SettleKeepsStart(b: Batch, start: map<string, Element>, s: Sound, o: LoadOutcome, n: nat)
    requires Resolves(start, s, o) ==> |b.progress| < n
    requires forall p :: p in start ==> p in b.hook.loadedSounds && b.hook.loadedSounds[p] == start[p]
    ensures var r := Settle(b, start, s, o, n);
      forall p :: p in start ==> p in r.hook.loadedSounds && r.hook.loadedSounds[p] == start[p]
  {
  }

  /** Every entry a settlement adds is a fresh element. */
  lemma SettleFresh(b: Batch, start: map<string, Element>, s: Sound, o: LoadOutcome, n: nat)
    requires Resolves(start, s, o) ==> |b.progress| < n
    requires start.Keys <= b.hook.loadedSounds.Keys
    requires forall p :: p in b.hook.loadedSounds && p !in start ==> b.hook.loadedSounds[p] == NewElement(p)
    ensures var r := Settle(b, start, s, o, n);
      forall p :: p in r.hook.loadedSounds && p !in start ==> r.hook.loadedSounds[p] == NewElement(p)
  {
  }

  /** After one more settlement every resolved entry so far is cached. */
  lemma SettleResolved(b: Batch, start: map<string, Element>, sounds: seq<Sound>,
                       outcomes: seq<LoadOutcome>, order: seq<nat>, j: nat)
    requires |outcomes| == |sounds| && IsCompletionOrder(order, |sounds|) && j < |sounds|
    requires |b.progress| == SettledCount(order, j, ResolvedIndices(start, sounds, outcomes))
    requires start.Keys <= b.hook.loadedSounds.Keys
    requires forall k :: 0 <= k < j && order[k] in ResolvedIndices(start, sounds, outcomes) ==>
      sounds[order[k]].path in b.hook.loadedSounds
    ensures var i := order[j];
      var r := Settle(b, start, sounds[i], outcomes[i], |sounds|);
      forall k :: 0 <= k < j + 1 && order[k] in ResolvedIndices(start, sounds, outcomes) ==>
            sounds[order[k]].path in r.hook.loadedSounds
  {
    var i := order[j];
    assert i in ResolvedIndices(start, sounds, outcomes) <==> Resolves(start, sounds[i], outcomes[i]);
  }

  /** Progress values `Percent(1..k)` never decrease. */
  lemma ProgressSorted(progress: seq<real>, n: nat)
    requires |progress| <= n
    requires forall k :: 0 <= k < |progress| ==> progress[k] == Percent(k + 1, n)
    ensures forall a, c :: 0 <= a < c < |progress| ==> progress[a] <= progress[c]
  {
    forall a, c | 0 <= a < c < |progress|
      ensures progress[a] <= progress[c]
    {
      PercentMonotone(a + 1, c + 1, n);
    }
  }

  /** Once every settlement has arrived, every resolving sound is cached. */
  lemma ResolvedAllCached(start: map<string, Element>, sounds: seq<Sound>, outcomes: seq<LoadOutcome>,
                          order: seq<nat>, cache: map<string, Element>)
    requires |outcomes| == |sounds| && IsCompletionOrder(order, |sounds|)
    requires forall k :: 0 <= k < |sounds| && order[k] in ResolvedIndices(start, sounds, outcomes) ==>
      sounds[order[k]].path in cache
    ensures forall i :: 0 <= i < |sounds| && Resolves(start, sounds[i], outcomes[i]) ==> sounds[i].path in cache
  {
    forall i | 0 <= i < |sounds| && Resolves(start, sounds[i], outcomes[i])
      ensures sounds[i].path in cache
    {
      assert i in order;
      var k :| 0 <= k < |sounds| && order[k] == i;
      assert order[k] in ResolvedIndices(start, sounds, outcomes);
    }
  }

  /** `preloadSounds(sounds)`: a non-array argument is logged and ignored.
      Otherwise `loading` is raised, every sound with a path is preloaded at
      once against the cache as it stands, and the settlements arrive in
      `order`: each resolution counts one more loaded entry and sets the
      progress to `loaded / sounds.length * 100`, each rejection is collected.
      No rejection escapes, and `loading` is lowered at the end. Returns the
      new state, the progress values in the order they were set, and the
      collected errors. */
  method PreloadSounds(h: Hook, input: Option<seq<Sound>>, outcomes: seq<LoadOutcome>, order: seq<nat>)
    returns (r: Hook, progress: seq<real>, errors: seq<AudioError>)
    requires input.Some? ==> |outcomes| == |input.value| && IsCompletionOrder(order, |input.value|)
    ensures input.None? ==> r == h && progress == [] && errors == []
    ensures input.Some? ==> !r.loading && r.current == h.current
    ensures input.Some? ==> |progress| == |ResolvedIndices(h.loadedSounds, input.value, outcomes)|
    ensures input.Some? ==> |errors| == |RejectedIndices(h.loadedSounds, input.value, outcomes)|
    ensures input.Some? ==> |progress| <= |input.value|
    ensures input.Some? ==> forall k :: 0 <= k < |progress| ==> progress[k] == Percent(k + 1, |input.value|)
    ensures forall k :: 0 <= k < |progress| ==> 0.0 <= progress[k] <= 100.0
    ensures forall a, b :: 0 <= a < b < |progress| ==> progress[a] <= progress[b]
    ensures input.Some? ==> (100.0 in progress <==>
      |input.value| > 0 && forall i :: 0 <= i < |input.value| ==> Resolves(h.loadedSounds, input.value[i], outcomes[i]))
    ensures r.loadingProgress == if |progress| == 0 then h.loadingProgress else progress[|progress| - 1]
    ensures forall p :: p in h.loadedSounds ==> p in r.loadedSounds && r.loadedSounds[p] == h.loadedSounds[p]
    ensures input.Some? ==> forall i :: 0 <= i < |input.value| && Resolves(h.loadedSounds, input.value[i], outcomes[i]) ==>
      input.value[i].path in r.loadedSounds
    ensures forall p :: p in r.loadedSounds && p !in h.loadedSounds ==> r.loadedSounds[p] == NewElement(p)
    ensures Valid(h) ==> Valid(r)
  {
    if input.None? {
      return h, [], [];
    }
    var sounds := input.value;
    var n := |sounds|;
    var start := h.loadedSounds;
    ghost var resolved := ResolvedIndices(start, sounds, outcomes);
    ghost var rejected := RejectedIndices(start, sounds, outcomes);
    var b := SettleAll(Batch(h.(loading := true), [], []), start, sounds, outcomes, order);
    ProcessedAll(order, n);
    SettledCountCard(order, n, resolved);
    SettledCountCard(order, n, rejected);
    assert resolved * Processed(order, n) == resolved;
    assert rejected * Processed(order, n) == rejected;
    r, progress, errors := b.hook.(loading := false), b.progress, b.errors;
    ProgressSorted(progress, n);
    ResolvedAllCached(start, sounds, outcomes, order, r.loadedSounds);
    ProgressFull(progress, n);
    AllResolveIff(start, sounds, outcomes);
  }
}

=== FILE: catalog.dfy ===
/** The `/api/sounds` handler of the server (app.ts): every file found under
    the soundboard directory that ends in `.mp3` or `.ogg`, sorted by full
    path, with the directory prefix removed, as `{type, name, path}` records.
    The recursive directory walk is a parameter: either the list of files it
    found or a read error. */
module Catalog {
  import opened Results
  import opened Types
  import opened JsString
  import opened Seqs

  /** What the recursive directory read reports. */
  datatype Listing = Listed(files: seq<string>) | ReadError

  /** The JSON body sent back: the items, or an error status with a message. */
  datatype Response = Items(items: seq<Sound>) | ErrorStatus(status: int, message: string)

  const UnreadableMessage: string := "Unable to read soundboard directory"

  /** The extension test, case-sensitive: `.MP3` is not served. */
  predicate IsAudioFile(f: string) {
    EndsWith(f, ".mp3") || EndsWith(f, ".ogg")
  }

  /** `file.replace(root, '')`: the first occurrence of the root removed. */
  function RelativePath(file: string, root: string): string {
    ReplaceFirst(file, root, "")
  }

  function Identity(f: string): string {
    f
  }

  /** The audio files in the order `Array.prototype.sort` puts them. */
  function SortedAudioFiles(files: seq<string>): (r: seq<string>)
    ensures SortedBy(r, Identity)
    ensures multiset(r) == multiset(Filter(files, IsAudioFile))
    ensures forall i :: 0 <= i < |r| ==> IsAudioFile(r[i]) && r[i] in files
  {
    var audio := Filter(files, IsAudioFile);
    FilterMultiset(files, IsAudioFile);
    var r := SortBy(audio, Identity);
    SortBySorted(audio, Identity);
    assert forall i :: 0 <= i < |r| ==> r[i] in multiset(audio);
    r
  }

  function ToItem(file: string, root: string): Sound {
    var rel := RelativePath(file, root);
    Sound(SoundKind, rel, rel, None)
  }

  /** The items of a successful listing, one per audio file. */
  function CatalogItems(files: seq<string>, root: string): (items: seq<Sound>)
    ensures |items| == |Filter(files, IsAudioFile)|
    ensures forall i :: 0 <= i < |items| ==>
      items[i].kind == SoundKind && items[i].name == items[i].path && items[i].isLoaded.None?
    ensures forall i :: 0 <= i < |items| ==>
      exists f :: f in files && IsAudioFile(f) && items[i].path == RelativePath(f, root)
    ensures forall i :: 0 <= i < |items| ==>
      items[i].path == RelativePath(SortedAudioFiles(files)[i], root)
  {
    var sorted := SortedAudioFiles(files);
    assert |sorted| == |Filter(files, IsAudioFile)| by {
      assert |multiset(sorted)| == |multiset(Filter(files, IsAudioFile))|;
    }
    var items := seq(|sorted|, i requires 0 <= i < |sorted| => ToItem(sorted[i], root));
    assert forall i :: 0 <= i < |items| ==> items[i].path == RelativePath(sorted[i], root);
    assert forall i :: 0 <= i < |items| ==>
      exists f :: f in files && IsAudioFile(f) && items[i].path == RelativePath(f, root) by {
      forall i | 0 <= i < |items|
        ensures exists f :: f in files && IsAudioFile(f) && items[i].path == RelativePath(f, root)
      {
        var f := sorted[i];
        assert f in files && IsAudioFile(f);
      }
    }
    items
  }

  /** The whole handler: a read error answers 500 with no items. */
  function ListSounds(root: string, listing: Listing): (r: Response)
    ensures listing.ReadError? ==> r == ErrorStatus(500, UnreadableMessage)
    ensures listing.Listed? ==> r.Items? && |r.items| == |Filter(listing.files, IsAudioFile)|
  {
    match listing
    case ReadError => ErrorStatus(500, UnreadableMessage)
    case Listed(files) => Items(CatalogItems(files, root))
  }

  /** The full paths the items were cut from, given the root. */
  function UnderRoot(items: seq<Sound>, root: string): (r: seq<string>)
    ensures |r| == |items|
  {
    seq(|items|, i requires 0 <= i < |items| => root + items[i].path)
  }

  /** When every file lies under the root, each item's path is exactly the
      file's suffix after the root: prefixing the root again gives back the
      audio files, each as often as listed, in ascending code-unit order. */
  lemma CatalogUnderRoot(files: seq<string>, root: string)
    requires forall f :: f in files ==> StartsWith(f, root)
    ensures SortedBy(UnderRoot(CatalogItems(files, root), root), Identity)
    ensures multiset(UnderRoot(CatalogItems(files, root), root)) == multiset(Filter(files, IsAudioFile))
  {
    var items := CatalogItems(files, root);
    var sorted := SortedAudioFiles(files);
    var full := UnderRoot(items, root);
    assert |sorted| == |items|;
    forall i | 0 <= i < |items|
      ensures full[i] == sorted[i]
    {
      var f := sorted[i];
      assert f in files;
      assert StartsWith(f, root);
      assert items[i].path == f[|root|..];
      assert root + f[|root|..] == f;
    }
    assert full == sorted;
  }
}

=== FILE: colors.dfy ===
/** The palette helpers of the client (src/lib/colors.ts): HSV to RGB
    conversion by hue sector, and a list of evenly spaced hues rendered as CSS
    `rgb(r, g, b)` strings. Numbers are exact reals; `Math.floor` is `.Floor`
    and `Math.round` is `JsNumber.Round`. */
module Colors {
  import opened JsNumber
  import opened JsString

  /** Three colour components, before or after scaling to 0..255. */
  datatype Triple<T> = Triple(r: T, g: T, b: T)

  /** `Math.floor(h * 6)`: the sector number before the remainder. */
  function SectorBase(h: real): int {
    (h * 6.0).Floor
  }

  /** `i % 6` with ECMAScript's truncating remainder. */
  function Sector(h: real): (r: int)
    ensures -6 < r < 6
    ensures h >= 0.0 ==> 0 <= r <= 5
  {
    TruncRem(SectorBase(h), 6)
  }

  /** The fractional position inside the sector, `h * 6 - i`. */
  function Fraction(h: real): (f: real)
    ensures 0.0 <= f < 1.0
  {
    h * 6.0 - SectorBase(h) as real
  }

  /** The `switch` on the sector: every sector uses `v` and `p` plus one of
      `q` and `t`; a sector outside 0..5 leaves all three at 0. */
  function Pick(sector: int, v: real, p: real, q: real, t: real): Triple<real>
  {
    match sector
    case 0 => Triple(v, t, p)
    case 1 => Triple(q, v, p)
    case 2 => Triple(p, v, t)
    case 3 => Triple(p, q, v)
    case 4 => Triple(t, p, v)
    case 5 => Triple(v, p, q)
    case _ => Triple(0.0, 0.0, 0.0)
  }

  /** `p = v(1 - s)`, `q = v(1 - fs)` and `t = v(1 - (1 - f)s)`; each lies
      in [0, v] when `f`, `s` and `v` lie in [0, 1]. */
  function Factors(f: real, s: real, v: real): (k: Triple<real>)
    ensures 0.0 <= f <= 1.0 && 0.0 <= s <= 1.0 && 0.0 <= v <= 1.0 ==>
      0.0 <= k.r <= v && 0.0 <= k.g <= v && 0.0 <= k.b <= v
  {
    var k := Triple(v * (1.0 - s), v * (1.0 - f * s), v * (1.0 - (1.0 - f) * s));
    if 0.0 <= f <= 1.0 && 0.0 <= s <= 1.0 && 0.0 <= v <= 1.0 then
      ScaledBelow(f, s);
      ScaledBelow(1.0 - f, s);
      ScaledBelow(1.0 - s, v);
      ScaledBelow(1.0 - f * s, v);
      ScaledBelow(1.0 - (1.0 - f) * s, v);
      k
    else
      k
  }

  /** The components `hsvToRgb` selects, before scaling. */
  function Components(h: real, s: real, v: real): Triple<real>
  {
    var k := Factors(Fraction(h), s, v);
    Pick(Sector(h), v, k.r, k.g, k.b)
  }

  /** `Math.round(x * 255)`. */
  function Channel(x: real): int {
    Round(x * 255.0)
  }

  /** `hsvToRgb(h, s, v)`. For a non-negative hue and `s`, `v` in [0, 1]
      every channel is in 0..255, one channel is the brightest `round(255 v)`
      and one the dimmest `round(255 v (1 - s))`; a negative hue whose sector
      remainder is negative falls through the `switch` and gives black. */
  function HsvToRgb(h: real, s: real, v: real): (c: Triple<int>)
    ensures h >= 0.0 && 0.0 <= s <= 1.0 && 0.0 <= v <= 1.0 ==>
      && 0 <= c.r <= 255 && 0 <= c.g <= 255 && 0 <= c.b <= 255
      && (c.r == Channel(v) || c.g == Channel(v) || c.b == Channel(v))
      && var p := Channel(v * (1.0 - s));
         c.r == p || c.g == p || c.b == p
    ensures Sector(h) < 0 ==> c == Triple(0, 0, 0)
  {
    var k := Components(h, s, v);
    if h >= 0.0 && 0.0 <= s <= 1.0 && 0.0 <= v <= 1.0 then
      ComponentBounds(h, s, v);
      ChannelRange(k.r);
      ChannelRange(k.g);
      ChannelRange(k.b);
      Triple(Channel(k.r), Channel(k.g), Channel(k.b))
    else
      Triple(Channel(k.r), Channel(k.g), Channel(k.b))
  }

  /** The value `v` and the value `p = v * (1 - s)` are both among the
      components of every sector. */
  predicate HasValueAndFloor(k: Triple<real>, s: real, v: real) {
    var p := Factors(0.0, s, v).r;
    (k.r == v || k.g == v || k.b == v) && (k.r == p || k.g == p || k.b == p)
  }

  lemma ScaledBelow(a: real, b: real)
    requires 0.0 <= a <= 1.0 && 0.0 <= b
    ensures 0.0 <= a * b <= b
  {
  }

  /** Whatever the sector in 0..5, the picked components come from
      `v, p, q, t` and include `v` and `p`. */
  lemma PickBounds(sector: int, v: real, p: real, q: real, t: real)
    requires 0 <= sector <= 5
    requires 0.0 <= p <= v && 0.0 <= q <= v && 0.0 <= t <= v
    ensures var k := Pick(sector, v, p, q, t);
      && 0.0 <= k.r <= v && 0.0 <= k.g <= v && 0.0 <= k.b <= v
      && (k.r == v || k.g == v || k.b == v) && (k.r == p || k.g == p || k.b == p)
  {
  }

  /** For a non-negative hue and `s`, `v` in [0, 1], each component lies in
      [0, v] and every sector holds both `v` and `p`. */
  lemma ComponentBounds(h: real, s: real, v: real)
    requires h >= 0.0 && 0.0 <= s <= 1.0 && 0.0 <= v <= 1.0
    ensures var k := Components(h, s, v);
      && 0.0 <= k.r <= v && 0.0 <= k.g <= v && 0.0 <= k.b <= v
      && HasValueAndFloor(k, s, v)
  {
    var pqt := Factors(Fraction(h), s, v);
    PickBounds(Sector(h), v, pqt.r, pqt.g, pqt.b);
  }

  lemma ChannelRange(x: real)
    requires 0.0 <= x <= 1.0
    ensures 0 <= Channel(x) <= 255
  {
  }

  /** No saturation: every sector gives three equal channels `round(v*255)`. */
  lemma Grey(h: real, v: real)
    requires h >= 0.0
    ensures HsvToRgb(h, 0.0, v) == Triple(Channel(v), Channel(v), Channel(v))
  {
    var f := Fraction(h);
    assert v * (1.0 - f * 0.0) == v;
    assert v * (1.0 - (1.0 - f) * 0.0) == v;
  }

  /** The hue of entry `i` of `count` spread over `mod` turns: `(i / count) * mod`. */
  function Hue(i: nat, count: nat, mod: real): (r: real)
    requires i < count
    ensures mod > 0.0 ==> 0.0 <= r < mod
    ensures mod >= 0.0 ==> r >= 0.0
  {
    var f := i as real / count as real;
    assert f < 1.0 by {
      assert f * count as real == i as real;
    }
    f * mod
  }

  /** The CSS colour string `rgb(r, g, b)`. */
  function CssRgb(c: Triple<int>): (r: string)
    ensures |r| > 4 && r[..4] == "rgb(" && r[|r| - 1] == ')'
  {
    "rgb(" + IntToString(c.r) + ", " + IntToString(c.g) + ", " + IntToString(c.b) + ")"
  }

  /** The saturation and value every generated colour uses. */
  const Saturation: real := 1.0
  const Brightness: real := 0.75

  /** The triples behind `generateDistinguishableColors(count, mod)`. */
  function PaletteTriples(count: nat, mod: real): (r: seq<Triple<int>>)
    ensures |r| == count
    ensures forall i :: 0 <= i < count ==> r[i] == HsvToRgb(Hue(i, count, mod), Saturation, Brightness)
  {
    seq(count, i requires 0 <= i < count => HsvToRgb(Hue(i, count, mod), Saturation, Brightness))
  }

  /** `generateDistinguishableColors(count, mod)`: exactly `count` CSS colours,
      one per hue `(i / count) * mod`. */
  function GenerateDistinguishableColors(count: nat, mod: real): (r: seq<string>)
    ensures |r| == count
    ensures forall i :: 0 <= i < count ==> r[i] == CssRgb(PaletteTriples(count, mod)[i])
  {
    var t := PaletteTriples(count, mod);
    seq(count, i requires 0 <= i < count => CssRgb(t[i]))
  }

  /** With full saturation and value 0.75, every non-negative hue gives a
      colour with one channel at 0 and one at 191, the rest in 0..255. */
  lemma FullSaturationChannels(h: real)
    requires h >= 0.0
    ensures var c := HsvToRgb(h, Saturation, Brightness);
      && (c.r == 0 || c.g == 0 || c.b == 0)
      && (c.r == 191 || c.g == 191 || c.b == 191)
      && 0 <= c.r <= 255 && 0 <= c.g <= 255 && 0 <= c.b <= 255
  {
    ComponentBounds(h, Saturation, Brightness);
    assert Channel(0.0) == 0;
    assert Channel(0.75) == 191;
  }

  /** Every colour of a palette with a non-negative spread has a 0 and a 191
      channel. */
  lemma PaletteChannels(count: nat, mod: real, i: nat)
    requires mod >= 0.0 && i < count
    ensures var c := PaletteTriples(count, mod)[i];
      (c.r == 0 || c.g == 0 || c.b == 0) && (c.r == 191 || c.g == 191 || c.b == 191)
  {
    FullSaturationChannels(Hue(i, count, mod));
  }
}

=== FILE: jsnumber.dfy ===
/** The few ECMAScript number operations the soundboard relies on, written out
    over Dafny's unbounded `int` and exact `real`: the 32-bit conversion used by
    the shift operators, the truncating remainder `%`, and `Math.round`,
    `Math.max`, `Math.min`. */
module JsNumber {

  const TwoTo31: int := 0x8000_0000
  const TwoTo32: int := 0x1_0000_0000

  /** ECMAScript ToInt32 of an integral number: the unique value in the signed
      32-bit range that is congruent to `x` modulo 2^32. */
  function ToInt32(x: int): (r: int)
    ensures -TwoTo31 <= r < TwoTo31
    ensures (x - r) % TwoTo32 == 0
    ensures -TwoTo31 <= x < TwoTo31 ==> r == x
  {
    var m := x % TwoTo32;
    if m >= TwoTo31 then m - TwoTo32 else m
  }

  /** Scaling preserves congruence modulo 2^32. */
  lemma ScaleCongruent(a: int, b: int)
    requires (a - b) % TwoTo32 == 0
    ensures (32 * a - 32 * b) % TwoTo32 == 0
  {
    var k := (a - b) / TwoTo32;
    assert a - b == k * TwoTo32;
    assert 32 * a - 32 * b == (32 * k) * TwoTo32;
  }

  /** Congruence modulo 2^32 is transitive. */
  lemma CongruentTrans(a: int, b: int, c: int)
    requires (a - b) % TwoTo32 == 0 && (b - c) % TwoTo32 == 0
    ensures (a - c) % TwoTo32 == 0
  {
    var k := (a - b) / TwoTo32;
    var l := (b - c) / TwoTo32;
    assert a - b == k * TwoTo32;
    assert b - c == l * TwoTo32;
    assert a - c == (k + l) * TwoTo32;
  }

  /** `x << 5`: the left operand is converted with ToInt32, shifted, and the
      32-bit result is read back as a signed integer. */
  function ShiftLeft5(x: int): (r: int)
    ensures -TwoTo31 <= r < TwoTo31
    ensures (32 * x - r) % TwoTo32 == 0
  {
    var y := ToInt32(x);
    var r := ToInt32(y * 32);
    ScaleCongruent(x, y);
    CongruentTrans(32 * x, 32 * y, r);
    r
  }

  /** The quotient of `a / n` truncated toward zero, as `Math.trunc(a / n)`. */
  function TruncQuot(a: int, n: int): int
    requires n > 0
  {
    if a >= 0 then a / n else -((-a) / n)
  }

  /** The ECMAScript `%` operator on integers: the remainder of the division
      truncated toward zero, so it takes the sign of the dividend (unlike
      Dafny's Euclidean `%`). */
  function TruncRem(a: int, n: int): (r: int)
    requires n > 0
    ensures -n < r < n
    ensures a >= 0 ==> 0 <= r
    ensures a <= 0 ==> r <= 0
    ensures a == TruncQuot(a, n) * n + r
  {
    if a >= 0 then a % n else -((-a) % n)
  }

  /** `Math.round` over exact reals: the nearest integer, halves rounded up
      (toward positive infinity), which is `floor(x + 1/2)`. */
  function Round(x: real): (r: int)
    ensures x - 0.5 < r as real <= x + 0.5
  {
    (x + 0.5).Floor
  }

  function Max(a: real, b: real): (r: real)
    ensures r >= a && r >= b
    ensures r == a || r == b
  {
    if a >= b then a else b
  }

  function Min(a: real, b: real): (r: real)
    ensures r <= a && r <= b
    ensures r == a || r == b
  {
    if a <= b then a else b
  }

  /** `Math.max(lo, Math.min(hi, x))`, the clamp idiom of the slider. */
  function Clamp(lo: real, hi: real, x: real): (r: real)
    ensures lo <= hi ==> lo <= r <= hi
    ensures lo <= x <= hi ==> r == x
    ensures r == lo || r == hi || r == x
  {
    Max(lo, Min(hi, x))
  }
}

=== FILE: jsstring.dfy ===
/** The ECMAScript string operations the soundboard uses, over `seq<char>`:
    `indexOf`/`includes`/`startsWith`/`endsWith`, `replace` with a string
    pattern, `split` on a one-character separator, ASCII `toLowerCase`, and
    the decimal rendering of an integral number. A `char` is a Unicode scalar
    value; JavaScript strings are UTF-16 code units, so the two coincide
    on strings within the Basic Multilingual Plane. */
module JsString {
  import opened Results

  // ---------------------------------------------------------------------------
  // Searching
  // ---------------------------------------------------------------------------

  /** `sub` occurs in `s` starting at index `i`. */
  predicate OccursAt(s: string, sub: string, i: int) {
    0 <= i <= |s| - |sub| && s[i..i + |sub|] == sub
  }

  lemma OccursAtShift(s: string, sub: string, i: int)
    requires |s| > 0 && i >= 1
    ensures OccursAt(s, sub, i) <==> OccursAt(s[1..], sub, i - 1)
  {
    if i <= |s| - |sub| {
      assert s[1..][i - 1..i - 1 + |sub|] == s[i..i + |sub|];
    }
  }

  /** `s.indexOf(sub)`: the first index at which `sub` occurs, or -1. */
  function IndexOf(s: string, sub: string): (r: int)
    ensures r >= 0 ==> OccursAt(s, sub, r)
    ensures r >= 0 ==> forall i :: 0 <= i < r ==> !OccursAt(s, sub, i)
    ensures r < 0 ==> r == -1 && forall i :: !OccursAt(s, sub, i)
    decreases |s|
  {
    if |sub| <= |s| && s[..|sub|] == sub then
      0
    else if |s| == 0 then
      -1
    else
      var k := IndexOf(s[1..], sub);
      assert !OccursAt(s, sub, 0);
      assert forall i :: i >= 1 ==> (OccursAt(s, sub, i) <==> OccursAt(s[1..], sub, i - 1)) by {
        forall i | i >= 1
          ensures OccursAt(s, sub, i) <==> OccursAt(s[1..], sub, i - 1)
        {
          OccursAtShift(s, sub, i);
        }
      }
      if k < 0 then -1 else k + 1
  }

  /** `s.includes(sub)`. */
  predicate Includes(s: string, sub: string) {
    IndexOf(s, sub) >= 0
  }

  /** `s.includes(sub)` holds exactly when `sub` occurs somewhere in `s`. */
  lemma IncludesIff(s: string, sub: string)
    ensures Includes(s, sub) <==> exists i :: OccursAt(s, sub, i)
  {
  }

  predicate StartsWith(s: string, prefix: string) {
    |prefix| <= |s| && s[..|prefix|] == prefix
  }

  predicate EndsWith(s: string, suffix: string) {
    |suffix| <= |s| && s[|s| - |suffix|..] == suffix
  }

  /** `s.replace(pattern, replacement)` with a string pattern: only the first
      occurrence is replaced (the replacement strings used here contain no
      `$` patterns). */
  function ReplaceFirst(s: string, pattern: string, replacement: string): (r: string)
    ensures StartsWith(s, pattern) ==> r == replacement + s[|pattern|..]
    ensures (forall i :: !OccursAt(s, pattern, i)) ==> r == s
  {
    var i := IndexOf(s, pattern);
    if i < 0 then
      s
    else
      assert StartsWith(s, pattern) ==> OccursAt(s, pattern, 0);
      s[..i] + replacement + s[i + |pattern|..]
  }

  // ---------------------------------------------------------------------------
  // split / join on a one-character separator
  // ---------------------------------------------------------------------------

  /** `s.split(sep)`: never empty; no piece contains the separator. */
  function Split(s: string, sep: char): (r: seq<string>)
    ensures |r| >= 1
    ensures forall k :: 0 <= k < |r| ==> sep !in r[k]
    decreases |s|
  {
    if |s| == 0 then
      [""]
    else
      var rest := Split(s[1..], sep);
      if s[0] == sep then [""] + rest
      else [[s[0]] + rest[0]] + rest[1..]
  }

  /** `parts.join(sep)`. */
  function Join(parts: seq<string>, sep: char): string
  {
    if |parts| == 0 then ""
    else if |parts| == 1 then parts[0]
    else parts[0] + [sep] + Join(parts[1..], sep)
  }

  /** Joining the pieces of a split gives the string back. */
  lemma {:induction false} JoinSplit(s: string, sep: char)
    ensures Join(Split(s, sep), sep) == s
    decreases |s|
  {
    if |s| > 0 {
      var rest := Split(s[1..], sep);
      JoinSplit(s[1..], sep);
      if s[0] != sep && |rest| > 1 {
        assert Join(rest, sep) == rest[0] + [sep] + Join(rest[1..], sep);
        assert [[s[0]] + rest[0]] + rest[1..] == [[s[0]] + rest[0]] + rest[1..];
        assert ([[s[0]] + rest[0]] + rest[1..])[1..] == rest[1..];
      }
      if s[0] == sep {
        assert ([""] + rest)[1..] == rest;
      }
      assert s == [s[0]] + s[1..];
    }
  }

  /** A split has more than one piece exactly when the separator occurs. */
  lemma SplitSeveralIff(s: string, sep: char)
    ensures |Split(s, sep)| > 1 <==> sep in s
  {
    if sep !in s {
      SplitNoSep(s, sep);
    } else {
      JoinSplit(s, sep);
    }
  }

  /** A string that holds no separator splits into itself alone. */
  lemma {:induction false} SplitNoSep(a: string, sep: char)
    requires sep !in a
    ensures Split(a, sep) == [a]
    decreases |a|
  {
    if |a| > 0 {
      SplitNoSep(a[1..], sep);
      assert [a[0]] + a[1..] == a;
    }
  }

  /** A separator-free head followed by the separator splits off as one piece. */
  lemma {:induction false} SplitCons(a: string, sep: char, b: string)
    requires sep !in a
    ensures Split(a + [sep] + b, sep) == [a] + Split(b, sep)
    decreases |a|
  {
    if |a| == 0 {
      assert a + [sep] + b == [sep] + b;
      assert ([sep] + b)[1..] == b;
    } else {
      SplitCons(a[1..], sep, b);
      assert (a + [sep] + b)[1..] == a[1..] + [sep] + b;
      assert [a[0]] + a[1..] == a;
    }
  }

  /** Splitting a join of separator-free pieces gives the pieces back. */
  lemma {:induction false} SplitJoin(parts: seq<string>, sep: char)
    requires |parts| >= 1
    requires forall k :: 0 <= k < |parts| ==> sep !in parts[k]
    ensures Split(Join(parts, sep), sep) == parts
    decreases |parts|
  {
    if |parts| == 1 {
      SplitNoSep(parts[0], sep);
    } else {
      SplitJoin(parts[1..], sep);
      SplitCons(parts[0], sep, Join(parts[1..], sep));
      assert [parts[0]] + parts[1..] == parts;
    }
  }

  /** `s.split(sep)[k]`, which is `undefined` past the last piece. */
  function Segment(s: string, sep: char, k: nat): (r: Option<string>)
    ensures r.Some? <==> k < |Split(s, sep)|
    ensures r.Some? ==> sep !in r.value
  {
    var parts := Split(s, sep);
    if k < |parts| then Some(parts[k]) else None
  }

  /** `s.split(sep).pop()`: the last piece, always defined. */
  function LastSegment(s: string, sep: char): string
  {
    var parts := Split(s, sep);
    parts[|parts| - 1]
  }

  /** The last piece is the separator-free tail of `s`: it ends `s`, and it
      is either all of `s` or preceded by a separator. */
  lemma {:induction false} LastSegmentIsTail(s: string, sep: char)
    ensures sep !in LastSegment(s, sep)
    ensures EndsWith(s, LastSegment(s, sep))
    ensures var n := |LastSegment(s, sep)|;
      n == |s| || s[|s| - n - 1] == sep
    decreases |s|
  {
    if |s| > 0 {
      LastSegmentIsTail(s[1..], sep);
      var rest := Split(s[1..], sep);
      var t := LastSegment(s[1..], sep);
      assert s[1..][|s[1..]| - |t|..] == s[|s| - |t|..];
      if |t| < |s| - 1 {
        assert s[1..][|s| - 1 - |t| - 1] == s[|s| - |t| - 1];
      }
      if s[0] == sep {
        assert Split(s, sep) == [""] + rest;
        assert LastSegment(s, sep) == t;
      } else if |rest| > 1 {
        assert Split(s, sep) == [[s[0]] + rest[0]] + rest[1..];
        assert LastSegment(s, sep) == t;
        if |t| == |s| - 1 {
          assert t == s[1..];
          SplitNoSep(s[1..], sep);
          assert false;
        }
      } else {
        assert Split(s, sep) == [[s[0]] + rest[0]];
        assert LastSegment(s, sep) == [s[0]] + t;
        JoinSplit(s[1..], sep);
        assert t == s[1..];
        assert [s[0]] + s[1..] == s;
      }
    }
  }

  /** The first piece is the separator-free head of `s`: it begins `s`, and
      it is either all of `s` or followed by a separator. */
  lemma {:induction false} FirstSegmentIsHead(s: string, sep: char)
    ensures StartsWith(s, Split(s, sep)[0])
    ensures var n := |Split(s, sep)[0]|;
      n == |s| || s[n] == sep
    decreases |s|
  {
    if |s| > 0 && s[0] != sep {
      FirstSegmentIsHead(s[1..], sep);
    }
  }

  // ---------------------------------------------------------------------------
  // Case folding
  // ---------------------------------------------------------------------------

  /** `toLowerCase` restricted to ASCII: only 'A'..'Z' change. */
  function LowerChar(c: char): char {
    if 'A' <= c <= 'Z' then (c as int + 32) as char else c
  }

  function Lower(s: string): (r: string)
    ensures |r| == |s|
    ensures forall i :: 0 <= i < |s| ==> r[i] == LowerChar(s[i])
  {
    seq(|s|, i requires 0 <= i < |s| => LowerChar(s[i]))
  }

  // ---------------------------------------------------------------------------
  // Decimal rendering of integers (`String(n)` for an integral number)
  // ---------------------------------------------------------------------------

  predicate IsDigit(c: char) {
    '0' <= c <= '9'
  }

  function DigitChar(d: int): (c: char)
    requires 0 <= d < 10
    ensures IsDigit(c) && c as int - '0' as int == d
  {
    ('0' as int + d) as char
  }

  /** The value of a string of decimal digits, read most significant first. */
  function DecimalValue(s: string): nat
    requires forall i :: 0 <= i < |s| ==> IsDigit(s[i])
  {
    if |s| == 0 then 0
    else
      assert IsDigit(s[|s| - 1]);
      10 * DecimalValue(s[..|s| - 1]) + (s[|s| - 1] as int - '0' as int)
  }

  /** The shortest decimal numeral of `n`: digits only, no leading zero. */
  function NatToDecimal(n: nat): (r: string)
    ensures |r| >= 1
    ensures forall i :: 0 <= i < |r| ==> IsDigit(r[i])
    ensures r[0] == '0' ==> n == 0
    decreases n
  {
    if n < 10 then [DigitChar(n)]
    else NatToDecimal(n / 10) + [DigitChar(n % 10)]
  }

  /** Reading the numeral back gives the number. */
  lemma {:induction false} DecimalRoundTrip(n: nat)
    ensures DecimalValue(NatToDecimal(n)) == n
    decreases n
  {
    if n >= 10 {
      DecimalRoundTrip(n / 10);
      var r := NatToDecimal(n);
      assert r[..|r| - 1] == NatToDecimal(n / 10);
    }
  }

  /** An optional minus sign followed by decimal digits. */
  predicate IsNumeral(s: string) {
    && |s| >= 1
    && (s[0] == '-' || IsDigit(s[0]))
    && forall i :: 0 < i < |s| ==> IsDigit(s[i])
  }

  /** `String(x)` for an integral number `x` (negative zero prints as "0",
      which the integers here cannot distinguish anyway). */
  function IntToString(x: int): (r: string)
    ensures IsNumeral(r)
    ensures r[0] == '-' <==> x < 0
  {
    if x < 0 then "-" + NatToDecimal(-x) else NatToDecimal(x)
  }

  /** Reads back a numeral produced by `IntToString`. */
  function ParseInt(s: string): int
    requires IsNumeral(s)
  {
    if s[0] == '-' then -(DecimalValue(s[1..]) as int) else DecimalValue(s)
  }

  /** `IntToString` is injective: its output can be read back. */
  lemma IntToStringRoundTrip(x: int)
    ensures ParseInt(IntToString(x)) == x
  {
    if x < 0 {
      DecimalRoundTrip(-x);
      assert IntToString(x)[1..] == NatToDecimal(-x);
    } else {
      DecimalRoundTrip(x);
    }
  }
}

=== FILE: legacy.dfy ===
/** The first, framework-free client (public/main.js): a board of collapsible
    sections, one per first path segment, whose buttons are coloured by a
    rolling hash of the section name; a loading bar fed by `loadeddata`
    events; and a click rule that stops the sounding element before the
    clicked one starts.

    The DOM is a value: the board is the list of sections in the order they
    were appended, and each section carries its heading text, the `data-seen`
    flags of the section and of its heading button, and its sound buttons.
    The audio elements of one listing are a list indexed like the entries. */
module LegacyBoard {
  import opened Results
  import opened Types
  import opened JsNumber
  import opened JsString
  import opened Seqs
  import SoundButton
  import AudioHook

  /** A catalog entry as this client reads it. */
  datatype Entry = Entry(kind: Kind, name: string, url: string, relativePath: string)

  // ---------------------------------------------------------------------------
  // stringToColor
  // ---------------------------------------------------------------------------

  /** One turn of the loop: `hash = str.charCodeAt(i) + ((hash << 5) - hash)`.
      The shift works on the 32-bit conversion of `hash`; the addition and
      the subtraction do not. */
  function HashStep(h: int, c: char): int {
    c as int + (ShiftLeft5(h) - h)
  }

  /** The loop as a left fold over the characters, from `h`. */
  function HashFrom(h: int, s: string): int
    decreases |s|
  {
    if |s| == 0 then h else HashFrom(HashStep(h, s[0]), s[1..])
  }

  /** The hash of `str`, starting from 0. */
  function Hash(s: string): int {
    HashFrom(0, s)
  }

  /** Folding one more character is one more step. */
  lemma {:induction false} HashFromAppend(h: int, s: string, c: char)
    ensures HashFrom(h, s + [c]) == HashStep(HashFrom(h, s), c)
    decreases |s|
  {
    if |s| > 0 {
      assert (s + [c])[1..] == s[1..] + [c];
      HashFromAppend(HashStep(h, s[0]), s[1..], c);
    }
  }

  /** The loop of `stringToColor`, index by index. */
  method ComputeHash(str: string) returns (hash: int)
    ensures hash == Hash(str)
    ensures Abs(hash) <= |str| * HashGrowth
  {
    hash := 0;
    var i := 0;
    while i < |str|
      invariant 0 <= i <= |str|
      invariant hash == Hash(str[..i])
    {
      HashFromAppend(0, str[..i], str[i]);
      assert str[..i + 1] == str[..i] + [str[i]];
      hash := HashStep(hash, str[i]);
      i := i + 1;
    }
    assert str[..i] == str;
    HashBound(str);
  }

  /** How far one step can move the hash: a character code (at most
      0x10FFFF) plus a 32-bit shift result. */
  const HashGrowth: int := TwoTo31 + 0x11_0000

  function Abs(x: int): nat {
    if x < 0 then -x else x
  }

  lemma StepBound(h: int, c: char)
    ensures Abs(HashStep(h, c)) <= Abs(h) + HashGrowth
  {
  }

  lemma {:induction false} HashFromBound(h: int, s: string)
    ensures Abs(HashFrom(h, s)) <= Abs(h) + |s| * HashGrowth
    decreases |s|
  {
    if |s| > 0 {
      StepBound(h, s[0]);
      HashFromBound(HashStep(h, s[0]), s[1..]);
      assert |s| * HashGrowth == (|s| - 1) * HashGrowth + HashGrowth;
    }
  }

  /** Every step moves the hash by less than 2^31 + 2^21, so for names
      shorter than 2^21 characters the hash stays below 2^53 in magnitude and
      the double arithmetic of the source is exact. */
  lemma HashBound(s: string)
    ensures Abs(Hash(s)) <= |s| * HashGrowth
  {
    HashFromBound(0, s);
  }

  /** `hash % 360` with the truncating remainder. */
  function Hue(s: string): (r: int)
    ensures -360 < r < 360
    ensures Hash(s) >= 0 ==> r >= 0
    ensures Hash(s) <= 0 ==> r <= 0
    ensures (Hash(s) - r) % 360 == 0
  {
    var h := Hash(s);
    var r := TruncRem(h, 360);
    assert h - r == TruncQuot(h, 360) * 360;
    r
  }

  const HslPrefix: string := "hsl("
  const HslSuffix: string := ", 50%, 50%)"

  /** `stringToColor(str)`: the hue followed by fixed saturation and
      lightness. */
  function StringToColor(s: string): (r: string)
    ensures |r| > |HslPrefix| + |HslSuffix|
    ensures r[..|HslPrefix|] == HslPrefix && r[|r| - |HslSuffix|..] == HslSuffix
  {
    HslPrefix + IntToString(Hue(s)) + HslSuffix
  }

  /** Reads the hue back out of an `hsl(h, 50%, 50%)` string. */
  function ReadHue(c: string): (r: Option<int>)
    ensures r.Some? ==> |c| > |HslPrefix| + |HslSuffix|
  {
    if |c| > |HslPrefix| + |HslSuffix|
      && c[..|HslPrefix|] == HslPrefix && c[|c| - |HslSuffix|..] == HslSuffix
      && IsNumeral(c[|HslPrefix|..|c| - |HslSuffix|])
    then Some(ParseInt(c[|HslPrefix|..|c| - |HslSuffix|]))
    else None
  }

  /** The colour string carries the hue and nothing else varies. */
  lemma ColorCarriesHue(s: string)
    ensures ReadHue(StringToColor(s)) == Some(Hue(s))
  {
    var d := IntToString(Hue(s));
    var c := StringToColor(s);
    assert c[|HslPrefix|..|c| - |HslSuffix|] == d;
    IntToStringRoundTrip(Hue(s));
  }

  /** Names whose hashes agree modulo 360 share a colour, and only they. */
  lemma SameColorIff(a: string, b: string)
    ensures StringToColor(a) == StringToColor(b) <==> Hue(a) == Hue(b)
  {
    if StringToColor(a) == StringToColor(b) {
      ColorCarriesHue(a);
      ColorCarriesHue(b);
    }
  }

  /** The empty heading hashes to 0. */
  lemma EmptyColor()
    ensures StringToColor("") == "hsl(0, 50%, 50%)"
  {
    assert Hash("") == 0;
    assert IntToString(0) == "0";
  }

  /** One-character names hash to their code. */
  lemma SingleCharHash(c: char)
    ensures Hash([c]) == c as int
  {
    assert ShiftLeft5(0) == 0;
    assert HashStep(0, c) == c as int;
    assert [c][1..] == [];
    assert HashFrom(0, [c]) == HashFrom(HashStep(0, c), []);
  }

  // ---------------------------------------------------------------------------
  // Names and labels
  // ---------------------------------------------------------------------------

  /** `sound.name.replace(/^\//, '')`: at most one leading slash goes. */
  function NormalizeName(name: string): (r: string)
    ensures r == name || "/" + r == name
    ensures r != name <==> |name| > 0 && name[0] == '/'
  {
    if |name| > 0 && name[0] == '/' then name[1..] else name
  }

  lemma NormalizeExample()
    ensures NormalizeName("//a") == "/a"
    ensures NormalizeName("a/b") == "a/b"
  {
    assert "//a"[1..] == "/a";
  }

  /** The button label of this client is the one the component client
      shows: dropping a leading slash changes no last segment. */
  lemma LabelIgnoresLeadingSlash(name: string)
    ensures SoundButton.DisplayName(NormalizeName(name)) == SoundButton.DisplayName(name)
  {
    if |name| > 0 && name[0] == '/' {
      var t := name[1..];
      assert name == "" + ['/'] + t;
      SplitCons("", '/', t);
      assert LastSegment(name, '/') == LastSegment(t, '/');
    }
  }

  // ---------------------------------------------------------------------------
  // The board and getOrCreateSection
  // ---------------------------------------------------------------------------

  /** A sound button: its caption, its `background-color` and its entry. */
  datatype Button = Button(caption: string, color: string, entry: Entry)

  /** A `<section data-heading>` with its heading button first. `seen` is the
      section's `data-seen`, `headingSeen` the heading button's. */
  datatype Section = Section(heading: string, seen: bool, headingSeen: bool, buttons: seq<Button>)

  /** `#soundboard`, as the sections appended to it. */
  datatype Board = Board(sections: seq<Section>)

  const EmptyBoard: Board := Board([])

  /** A fresh section: both flags start as `true`, no buttons yet. */
  function NewSection(text: string): Section {
    Section(text, true, true, [])
  }

  function Headings(b: Board): (r: seq<string>)
    ensures |r| == |b.sections|
    ensures forall i :: 0 <= i < |r| ==> r[i] == b.sections[i].heading
  {
    seq(|b.sections|, i requires 0 <= i < |b.sections| => b.sections[i].heading)
  }

  /** The board after `getOrCreateSection` and the index of the section it
      returns. */
  datatype Placed = Placed(board: Board, index: nat)

  /** `getOrCreateSection(text)`: the first section with that heading, or a
      new one appended to the board. The `throw` after the lookup cannot be
      reached, since the heading and the section are created together. */
  function GetOrCreateSection(b: Board, text: string): (r: Placed)
    ensures r.index < |r.board.sections| && r.board.sections[r.index].heading == text
    ensures text in Headings(b) ==> r.board == b && r.index == Seqs.IndexOf(Headings(b), text)
    ensures text !in Headings(b) ==>
      r.board.sections == b.sections + [NewSection(text)] && r.index == |b.sections|
    ensures NoDuplicates(Headings(b)) ==> NoDuplicates(Headings(r.board))
  {
    var hs := Headings(b);
    var k := Seqs.IndexOf(hs, text);
    if k >= 0 then
      Placed(b, k)
    else
      var r := Board(b.sections + [NewSection(text)]);
      assert Headings(r) == hs + [text];
      Placed(r, |b.sections|)
  }

  /** A second call with the same text returns the same pair and creates
      nothing. */
  lemma GetOrCreateIdempotent(b: Board, text: string)
    ensures var p := GetOrCreateSection(b, text);
      GetOrCreateSection(p.board, text) == p
  {
    var p := GetOrCreateSection(b, text);
    assert text in Headings(p.board) by {
      assert Headings(p.board)[p.index] == text;
    }
    if text !in Headings(b) {
      var hs := Headings(p.board);
      assert hs == Headings(b) + [text];
      IndexOfUnique(hs, text, |b.sections|);
    }
  }

  /** The heading's click handler: the new flag is the negation of the
      section's, and both the section and the heading take it. */
  function Toggle(b: Board, i: nat): (r: Board)
    requires i < |b.sections|
    ensures |r.sections| == |b.sections|
    ensures r.sections[i].seen == !b.sections[i].seen
    ensures r.sections[i].headingSeen == r.sections[i].seen
    ensures r.sections[i].heading == b.sections[i].heading
    ensures r.sections[i].buttons == b.sections[i].buttons
    ensures forall k :: 0 <= k < |b.sections| && k != i ==> r.sections[k] == b.sections[k]
  {
    var s := b.sections[i];
    var seen := !s.seen;
    Board(b.sections[i := s.(seen := seen, headingSeen := seen)])
  }

  /** The two `data-seen` flags of every section agree. */
  predicate Synced(b: Board) {
    forall i :: 0 <= i < |b.sections| ==> b.sections[i].seen == b.sections[i].headingSeen
  }

  /** Toggling keeps the flags in agreement, and two toggles restore the
      board. */
  lemma ToggleTwice(b: Board, i: nat)
    requires i < |b.sections| && Synced(b)
    ensures Synced(Toggle(b, i))
    ensures Toggle(Toggle(b, i), i) == b
  {
    var r := Toggle(Toggle(b, i), i);
    assert r.sections == b.sections;
  }

  /** The number of sound buttons on the board. */
  function ButtonCount(sections: seq<Section>): nat
    decreases |sections|
  {
    if |sections| == 0 then 0
    else ButtonCount(sections[..|sections| - 1]) + |sections[|sections| - 1].buttons|
  }

  lemma {:induction false} ButtonCountUpdate(sections: seq<Section>, i: nat, s: Section)
    requires i < |sections|
    ensures ButtonCount(sections[i := s]) == ButtonCount(sections) - |sections[i].buttons| + |s.buttons|
    decreases |sections|
  {
    var n := |sections|;
    if i < n - 1 {
      assert sections[i := s][..n - 1] == sections[..n - 1][i := s];
      ButtonCountUpdate(sections[..n - 1], i, s);
    } else {
      assert sections[i := s][..n - 1] == sections[..n - 1];
    }
  }

  /** The error of line 87: a name without a separator has no section. */
  datatype LegacyError = SectionUndefined(name: string)

  /** `section.appendChild(button)` on section `k`. */
  function AppendButton(b: Board, k: nat, button: Button): (r: Board)
    requires k < |b.sections|
    ensures Headings(r) == Headings(b)
    ensures r.sections[k].buttons == b.sections[k].buttons + [button]
    ensures r.sections[k].seen == b.sections[k].seen && r.sections[k].headingSeen == b.sections[k].headingSeen
    ensures forall j :: 0 <= j < |b.sections| && j != k ==> r.sections[j] == b.sections[j]
    ensures ButtonCount(r.sections) == ButtonCount(b.sections) + 1
  {
    var s := b.sections[k];
    var t := s.(buttons := s.buttons + [button]);
    ButtonCountUpdate(b.sections, k, t);
    var r := Board(b.sections[k := t]);
    assert Headings(r) == Headings(b);
    r
  }

  /** Looking up or adding a section moves no button. */
  lemma GetOrCreateKeepsButtons(b: Board, text: string)
    ensures ButtonCount(GetOrCreateSection(b, text).board.sections) == ButtonCount(b.sections)
  {
    var p := GetOrCreateSection(b, text);
    if text !in Headings(b) {
      assert p.board.sections[..|b.sections|] == b.sections;
    }
  }

  /** The body of the `forEach`: normalise the name, find or create the
      section of its first segment, label and colour the button and append
      it. A name with no `/` leaves `section` undefined and the colour
      lookup throws before anything is appended. */
  function AddSound(b: Board, e: Entry): (r: Result<Board, LegacyError>)
    ensures r.Failure? <==> '/' !in NormalizeName(e.name)
    ensures r.Success? ==>
      var name := NormalizeName(e.name);
      var text := Split(name, '/')[0];
      var p := GetOrCreateSection(b, text);
      r.value == AppendButton(p.board, p.index, Button(SoundButton.DisplayName(name), StringToColor(text), e))
    ensures r.Success? ==> ButtonCount(r.value.sections) == ButtonCount(b.sections) + 1
    ensures r.Success? && NoDuplicates(Headings(b)) ==> NoDuplicates(Headings(r.value))
  {
    var name := NormalizeName(e.name);
    var parts := Split(name, '/');
    SplitSeveralIff(name, '/');
    if |parts| <= 1 then
      Failure(SectionUndefined(name))
    else
      var text := parts[0];
      var p := GetOrCreateSection(b, text);
      GetOrCreateKeepsButtons(b, text);
      Success(AppendButton(p.board, p.index, Button(SoundButton.DisplayName(name), StringToColor(text), e)))
  }

  /** A button lands in the section named by the first segment of its
      normalised name, at the end, and that section is the only one to
      change; the headings are those `getOrCreateSection` leaves. */
  lemma AddSoundPlacement(b: Board, e: Entry)
    requires AddSound(b, e).Success?
    ensures var name := NormalizeName(e.name);
      var text := Split(name, '/')[0];
      var p := GetOrCreateSection(b, text);
      var r := AddSound(b, e).value;
      && Headings(r) == Headings(p.board)
      && r.sections[p.index].heading == text
      && r.sections[p.index].buttons == p.board.sections[p.index].buttons
           + [Button(SoundButton.DisplayName(name), StringToColor(text), e)]
      && forall j :: 0 <= j < |p.board.sections| && j != p.index ==> r.sections[j] == p.board.sections[j]
  {
  }

  /** An entry whose normalised name holds a `/`, so that it names a
      section. */
  predicate Nested(e: Entry) {
    '/' in NormalizeName(e.name)
  }

  /** The board after a listing and, when the `forEach` stopped early, the
      error that stopped it. */
  datatype Rendered = Rendered(board: Board, error: Option<LegacyError>)

  /** The `forEach` over a listing: sounds are added in order until one
      throws; what was appended before stays. */
  function Render(b: Board, entries: seq<Entry>): (r: Rendered)
    ensures NoDuplicates(Headings(b)) ==> NoDuplicates(Headings(r.board))
    ensures r.error.None? ==> ButtonCount(r.board.sections) == ButtonCount(b.sections) + |entries|
    ensures ButtonCount(r.board.sections) <= ButtonCount(b.sections) + |entries|
    decreases |entries|
  {
    if |entries| == 0 then
      Rendered(b, None)
    else
      match AddSound(b, entries[0])
      case Failure(e) => Rendered(b, Some(e))
      case Success(b1) => Render(b1, entries[1..])
  }

  /** Every entry of a listing names a section. */
  predicate AllNested(entries: seq<Entry>)
    decreases |entries|
  {
    |entries| == 0 || (Nested(entries[0]) && AllNested(entries[1..]))
  }

  /** The recursive reading of "every entry names a section" agrees with
      the quantified one. */
  lemma {:induction false} AllNestedIff(entries: seq<Entry>)
    ensures AllNested(entries) <==> forall i :: 0 <= i < |entries| ==> Nested(entries[i])
    decreases |entries|
  {
    if |entries| > 0 {
      AllNestedIff(entries[1..]);
      assert forall i :: 1 <= i < |entries| ==> entries[1..][i - 1] == entries[i];
    }
  }

  /** The `forEach` runs to its end exactly when each entry in turn names
      a section: the first entry that does not is the one that throws. */
  lemma {:induction false} RenderCompletesStep(b: Board, entries: seq<Entry>)
    ensures Render(b, entries).error.None? <==> AllNested(entries)
    decreases |entries|
  {
    if |entries| > 0 && Nested(entries[0]) {
      RenderCompletesStep(AddSound(b, entries[0]).value, entries[1..]);
    }
  }

  /** The listing completes exactly when every normalised name holds a
      `/`. */
  lemma RenderCompletes(b: Board, entries: seq<Entry>)
    ensures Render(b, entries).error.None? <==> forall i :: 0 <= i < |entries| ==> Nested(entries[i])
  {
    RenderCompletesStep(b, entries);
    AllNestedIff(entries);
  }

  /** A listing rendered from scratch has one section per distinct first
      segment: no heading appears twice. */
  lemma FreshRenderDistinct(entries: seq<Entry>)
    ensures NoDuplicates(Headings(Render(EmptyBoard, entries).board))
  {
    assert Headings(EmptyBoard) == [];
  }

  // ---------------------------------------------------------------------------
  // The loading bar
  // ---------------------------------------------------------------------------

  /** `loadedCount`, the bar's width in percent, and whether the loading
      container has been hidden. */
  datatype Loader = Loader(loadedCount: nat, width: real, hidden: bool)

  /** One `loadeddata` event of a listing of `total` entries. */
  function OnLoadedData(l: Loader, total: nat): (r: Loader)
    requires l.loadedCount < total
    ensures r.loadedCount == l.loadedCount + 1
    ensures r.width == AudioHook.Percent(r.loadedCount, total)
    ensures r.hidden <==> l.hidden || r.loadedCount == total
  {
    var c := l.loadedCount + 1;
    Loader(c, AudioHook.Percent(c, total), l.hidden || c == total)
  }

  /** `k` events in a row. */
  function Replay(l: Loader, k: nat, total: nat): (r: Loader)
    requires l.loadedCount + k <= total
    ensures r.loadedCount == l.loadedCount + k
    ensures r.hidden <==> l.hidden || (k > 0 && r.loadedCount == total)
    ensures k > 0 ==> r.width == AudioHook.Percent(r.loadedCount, total)
    ensures k == 0 ==> r == l
    decreases k
  {
    if k == 0 then l else Replay(OnLoadedData(l, total), k - 1, total)
  }

  /** The entries whose element fires `loadeddata`: only sounds get an
      element, and `fires[i]` says whether the browser loads entry `i`. */
  function Fired(entries: seq<Entry>, fires: seq<bool>): (n: nat)
    requires |fires| == |entries|
    ensures n <= |entries|
    decreases |entries|
  {
    if |entries| == 0 then 0
    else Fired(entries[1..], fires[1..]) + (if entries[0].kind == SoundKind && fires[0] then 1 else 0)
  }

  lemma {:induction false} FiredAllIff(entries: seq<Entry>, fires: seq<bool>)
    requires |fires| == |entries|
    ensures Fired(entries, fires) == |entries| <==>
      forall i :: 0 <= i < |entries| ==> entries[i].kind == SoundKind && fires[i]
    decreases |entries|
  {
    if |entries| > 0 {
      FiredAllIff(entries[1..], fires[1..]);
      assert forall i :: 1 <= i < |entries| ==> entries[1..][i - 1] == entries[i] && fires[1..][i - 1] == fires[i];
    }
  }

  /** The loader once every element of a listing has settled: the count is
      reset by the fetch, each `loadeddata` adds one, and the container is
      hidden exactly when every entry is a sound and every one loaded (or
      it was already hidden). */
  function LoadListing(l: Loader, entries: seq<Entry>, fires: seq<bool>): (r: Loader)
    requires |fires| == |entries|
    ensures r.loadedCount == Fired(entries, fires) && r.loadedCount <= |entries|
    ensures r.loadedCount > 0 ==> 0.0 < r.width <= 100.0
    ensures r.hidden <==>
      || l.hidden
      || (|entries| > 0 && forall i :: 0 <= i < |entries| ==> entries[i].kind == SoundKind && fires[i])
  {
    FiredAllIff(entries, fires);
    Replay(l.(loadedCount := 0), Fired(entries, fires), |entries|)
  }

  /** A folder in the listing keeps the loading container on screen. */
  lemma FoldersBlockHide(l: Loader, entries: seq<Entry>, fires: seq<bool>, i: nat)
    requires |fires| == |entries| && !l.hidden
    requires i < |entries| && entries[i].kind == FolderKind
    ensures !LoadListing(l, entries, fires).hidden
  {
  }

  // ---------------------------------------------------------------------------
  // The click rule
  // ---------------------------------------------------------------------------

  /** The listing's audio elements (`elements[i]` belongs to `entries[i]`),
      `currentAudio` as an index, and `currentPath`. */
  datatype Player = Player(
    entries: seq<Entry>,
    elements: seq<AudioHook.Element>,
    current: Option<nat>,
    currentPath: string)

  predicate WellFormed(p: Player) {
    && |p.elements| == |p.entries|
    && (p.current.Some? ==> p.current.value < |p.elements|)
  }

  /** At most one element sounds, and it is `currentAudio`. */
  predicate SingleSounding(p: Player) {
    forall k :: 0 <= k < |p.elements| && !p.elements[k].paused ==> p.current == Some(k)
  }

  /** The state after a click and the listing it asks to fetch, if any. */
  datatype Clicked = Clicked(player: Player, fetch: Option<string>)

  /** A click on button `i`. A folder navigates. A sound first pauses and
      rewinds a sounding `currentAudio`, then calls `play()` (`playStarts` is
      whether the browser allows it; an element that has ended restarts from
      the start), and becomes `currentAudio` whether or not playback
      started. */
  function Click(p: Player, i: nat, playStarts: bool): (r: Clicked)
    requires WellFormed(p) && i < |p.entries|
    ensures WellFormed(r.player) && r.player.entries == p.entries
    ensures p.entries[i].kind == FolderKind ==>
      r == Clicked(p.(currentPath := p.entries[i].relativePath), Some(p.entries[i].relativePath))
    ensures p.entries[i].kind == SoundKind ==>
      && r.fetch.None? && r.player.current == Some(i) && r.player.currentPath == p.currentPath
      && (playStarts ==> !r.player.elements[i].paused && !r.player.elements[i].ended)
    ensures p.entries[i].kind == SoundKind && playStarts && p.elements[i].ended ==>
      r.player.elements[i].currentTime == 0.0
    ensures (p.entries[i].kind == SoundKind && playStarts && !p.elements[i].ended
      && (p.current != Some(i) || p.elements[i].paused)) ==>
      r.player.elements[i] == p.elements[i].(paused := false)
    ensures p.entries[i].kind == SoundKind && !playStarts && (p.current != Some(i) || p.elements[i].paused) ==>
      r.player.elements[i] == p.elements[i]
    ensures p.entries[i].kind == SoundKind && !playStarts && SingleSounding(p) ==> r.player.elements[i].paused
    ensures (p.entries[i].kind == SoundKind && p.current.Some? && p.current.value != i
      && !p.elements[p.current.value].paused) ==>
      r.player.elements[p.current.value] == AudioHook.Rewind(p.elements[p.current.value]).(paused := true)
    ensures p.entries[i].kind == SoundKind && p.current == Some(i) && !p.elements[i].paused ==>
      r.player.elements[i].currentTime == 0.0
    ensures forall k :: 0 <= k < |p.elements| && k != i && Some(k) != p.current ==>
      r.player.elements[k] == p.elements[k]
    ensures SingleSounding(p) ==> SingleSounding(r.player)
  {
    var e := p.entries[i];
    if e.kind == FolderKind then
      Clicked(p.(currentPath := e.relativePath), Some(e.relativePath))
    else
      var elements :=
        if p.current.Some? && !p.elements[p.current.value].paused then
          var c := p.current.value;
          p.elements[c := AudioHook.Rewind(p.elements[c]).(paused := true)]
        else p.elements;
      var el := elements[i];
      var played := if playStarts then AudioHook.Play(el) else el;
      Clicked(p.(elements := elements[i := played], current := Some(i)), None)
  }

  /** Clicking another sound while one sounds leaves only the new one
      sounding, and the old one is back at the start. */
  lemma ClickSwitches(p: Player, i: nat, j: nat)
    requires WellFormed(p) && SingleSounding(p)
    requires i < |p.entries| && j < |p.entries| && i != j
    requires p.entries[i].kind == SoundKind && p.entries[j].kind == SoundKind
    ensures var q := Click(Click(p, i, true).player, j, true).player;
      && !q.elements[j].paused && q.elements[i].paused && q.elements[i].currentTime == 0.0
      && forall k :: 0 <= k < |q.elements| && k != j ==> q.elements[k].paused
  {
  }

  /** Element `k` plays to its end: the browser pauses it at its end,
      `duration` seconds in, and it stays `currentAudio`. A paused element is
      left alone. */
  function Ended(p: Player, k: nat, duration: real): (r: Player)
    requires WellFormed(p) && k < |p.elements|
    ensures WellFormed(r) && r.entries == p.entries && r.current == p.current && r.currentPath == p.currentPath
    ensures r.elements[k].paused
    ensures !p.elements[k].paused ==> r.elements[k] == AudioHook.PlayToEnd(p.elements[k], duration)
    ensures forall j :: 0 <= j < |p.elements| && (j != k || p.elements[k].paused) ==> r.elements[j] == p.elements[j]
    ensures SingleSounding(p) ==> SingleSounding(r)
  {
    if p.elements[k].paused then p
    else p.(elements := p.elements[k := AudioHook.PlayToEnd(p.elements[k], duration)])
  }

  /** When the first sound has ended on its own before the second click,
      line 94 finds `currentAudio` paused and does not rewind it: it stays at
      its end while the second sound plays alone. */
  lemma EndedThenClick(p: Player, i: nat, j: nat, duration: real)
    requires WellFormed(p) && SingleSounding(p)
    requires i < |p.entries| && j < |p.entries| && i != j
    requires p.entries[i].kind == SoundKind && p.entries[j].kind == SoundKind
    ensures var q := Click(Ended(Click(p, i, true).player, i, duration), j, true).player;
      && !q.elements[j].paused && q.elements[i].paused && q.elements[i].currentTime == duration
      && q.elements[i].ended
      && forall k :: 0 <= k < |q.elements| && k != j ==> q.elements[k].paused
  {
    var p1 := Click(p, i, true).player;
    var p2 := Ended(p1, i, duration);
    assert p2.elements[i].currentTime == duration;
  }

  /** Clicking a sound again after it has ended on its own replays it from
      the start: line 93 finds it paused and skips the rewind, but `play()`
      on an ended element seeks to the start itself. It is then the only one
      sounding. */
  lemma EndedThenReplay(p: Player, i: nat, duration: real)
    requires WellFormed(p) && SingleSounding(p)
    requires i < |p.entries| && p.entries[i].kind == SoundKind
    ensures var p2 := Ended(Click(p, i, true).player, i, duration);
      var q := Click(p2, i, true).player;
      && p2.elements[i].paused && p2.elements[i].ended
      && !q.elements[i].paused && q.elements[i].currentTime == 0.0 && !q.elements[i].ended
      && q.current == Some(i)
      && forall k :: 0 <= k < |q.elements| && k != i ==> q.elements[k].paused
  {
  }
}

=== FILE: results.dfy ===
/** Failure-compatible wrappers shared by every module of the soundboard model:
    `Option` stands for a JavaScript value that may be `undefined`, and `Result`
    for a computation that either returns or throws. */
module Results {

  datatype Option<+T> = None | Some(value: T) {

    /** The value, or `default` when it is undefined. */
    function GetOr(default: T): T {
      match this
      case Some(v) => v
      case None => default
    }
  }

  datatype Result<+R, +E> = Success(value: R) | Failure(error: E) {

    predicate IsFailure() {
      Failure?
    }

    function PropagateFailure<U>(): Result<U, E>
      requires Failure?
    {
      Failure(error)
    }

    function Extract(): R
      requires Success?
    {
      value
    }
  }
}

=== FILE: seqs.dfy ===
/** Sequence operations shared by the list views: `Array.prototype.filter`,
    a stable sort by a string key, `indexOf`, and the first-occurrence
    de-duplication performed by `[...new Set(xs)]`. */
module Seqs {

  // ---------------------------------------------------------------------------
  // Order-preserving selection
  // ---------------------------------------------------------------------------

  /** `a` can be obtained from `b` by deleting elements. */
  predicate IsSubsequence<T(==)>(a: seq<T>, b: seq<T>)
    decreases |b|
  {
    |a| == 0 ||
    (|b| > 0 && ((a[0] == b[0] && IsSubsequence(a[1..], b[1..])) || IsSubsequence(a, b[1..])))
  }

  /** `s.filter(keep)`: the elements `keep` accepts, in their order. */
  function Filter<T(==,!new)>(s: seq<T>, keep: T -> bool): (r: seq<T>)
    ensures |r| <= |s|
    ensures forall i :: 0 <= i < |r| ==> keep(r[i]) && r[i] in s
    decreases |s|
  {
    if |s| == 0 then
      []
    else
      var rest := Filter(s[1..], keep);
      if keep(s[0]) then [s[0]] + rest else rest
  }

  /** The filter keeps every occurrence of an accepted element and nothing
      else. */
  lemma {:induction false} FilterMultiset<T(!new)>(s: seq<T>, keep: T -> bool)
    ensures forall x :: multiset(Filter(s, keep))[x] == if keep(x) then multiset(s)[x] else 0
    decreases |s|
  {
    if |s| > 0 {
      FilterMultiset(s[1..], keep);
      assert s == [s[0]] + s[1..];
    }
  }

  /** The filter preserves order: its result is a subsequence of `s`. */
  lemma {:induction false} FilterSubsequence<T(!new)>(s: seq<T>, keep: T -> bool)
    ensures IsSubsequence(Filter(s, keep), s)
    decreases |s|
  {
    if |s| > 0 {
      FilterSubsequence(s[1..], keep);
      var r := Filter(s, keep);
      if keep(s[0]) {
        assert r[0] == s[0] && r[1..] == Filter(s[1..], keep);
      }
    }
  }

  /** A filter that keeps every element is the identity. */
  lemma {:induction false} FilterAll<T(!new)>(s: seq<T>, keep: T -> bool)
    requires forall i :: 0 <= i < |s| ==> keep(s[i])
    ensures Filter(s, keep) == s
    decreases |s|
  {
    if |s| > 0 {
      FilterAll(s[1..], keep);
      assert [s[0]] + s[1..] == s;
    }
  }

  /** Rejecting an element that occurs removes at least one entry. */
  lemma {:induction false} FilterShrinks<T(!new)>(s: seq<T>, keep: T -> bool, x: T)
    requires x in s && !keep(x)
    ensures |Filter(s, keep)| < |s|
    decreases |s|
  {
    if s[0] != x {
      FilterShrinks(s[1..], keep, x);
    }
  }

  /** Filtering distributes over concatenation. */
  lemma {:induction false} FilterAppend<T(!new)>(a: seq<T>, b: seq<T>, keep: T -> bool)
    ensures Filter(a + b, keep) == Filter(a, keep) + Filter(b, keep)
    decreases |a|
  {
    if |a| == 0 {
      assert a + b == b;
    } else {
      var ab := a + b;
      assert ab[0] == a[0] && ab[1..] == a[1..] + b;
      FilterAppend(a[1..], b, keep);
      FilterUnfold(ab, keep);
      FilterUnfold(a, keep);
    }
  }

  /** One step of `Filter` on a non-empty sequence. */
  lemma FilterUnfold<T(!new)>(s: seq<T>, keep: T -> bool)
    requires |s| > 0
    ensures Filter(s, keep) == (if keep(s[0]) then [s[0]] else []) + Filter(s[1..], keep)
  {
  }

  /** Two tests that agree on every element filter alike. */
  lemma {:induction false} FilterCongruent<T(!new)>(s: seq<T>, p: T -> bool, q: T -> bool)
    requires forall i :: 0 <= i < |s| ==> p(s[i]) == q(s[i])
    ensures Filter(s, p) == Filter(s, q)
    decreases |s|
  {
    if |s| > 0 {
      assert forall i :: 0 <= i < |s[1..]| ==> s[1..][i] == s[i + 1];
      FilterCongruent(s[1..], p, q);
    }
  }

  // ---------------------------------------------------------------------------
  // Lexicographic order on characters
  // ---------------------------------------------------------------------------

  /** `a <= b` in lexicographic order of characters: the order of the
      default `Array.prototype.sort` on strings, which compares UTF-16 code
      units, for strings within the Basic Multilingual Plane. */
  predicate LexLe(a: string, b: string)
    decreases |a|
  {
    |a| == 0 || (|b| > 0 && (a[0] < b[0] || (a[0] == b[0] && LexLe(a[1..], b[1..]))))
  }

  lemma {:induction false} LexLeTotal(a: string, b: string)
    ensures LexLe(a, b) || LexLe(b, a)
    decreases |a|
  {
    if |a| > 0 && |b| > 0 && a[0] == b[0] {
      LexLeTotal(a[1..], b[1..]);
    }
  }

  lemma {:induction false} LexLeTransitive(a: string, b: string, c: string)
    requires LexLe(a, b) && LexLe(b, c)
    ensures LexLe(a, c)
    decreases |a|
  {
    if |a| > 0 && a[0] == b[0] && b[0] == c[0] {
      LexLeTransitive(a[1..], b[1..], c[1..]);
    }
  }

  lemma {:induction false} LexLeAntisymmetric(a: string, b: string)
    requires LexLe(a, b) && LexLe(b, a)
    ensures a == b
    decreases |a|
  {
    if |a| > 0 {
      LexLeAntisymmetric(a[1..], b[1..]);
      assert a == [a[0]] + a[1..];
      assert b == [b[0]] + b[1..];
    }
  }

  // ---------------------------------------------------------------------------
  // Stable sort by a string key
  // ---------------------------------------------------------------------------

  ghost predicate SortedBy<T>(s: seq<T>, key: T -> string) {
    forall i, j :: 0 <= i < j < |s| ==> LexLe(key(s[i]), key(s[j]))
  }

  /** Inserts `x` in front of the first element whose key is not below it. */
  function InsertBy<T>(x: T, s: seq<T>, key: T -> string): (r: seq<T>)
    ensures |r| == |s| + 1
    ensures multiset(r) == multiset(s) + multiset{x}
    decreases |s|
  {
    if |s| == 0 then
      [x]
    else if LexLe(key(x), key(s[0])) then
      [x] + s
    else
      assert s == [s[0]] + s[1..];
      [s[0]] + InsertBy(x, s[1..], key)
  }

  /** `[...s].sort((a, b) => compare(key(a), key(b)))` by insertion: a
      permutation of `s`. */
  function SortBy<T>(s: seq<T>, key: T -> string): (r: seq<T>)
    ensures |r| == |s|
    ensures multiset(r) == multiset(s)
    decreases |s|
  {
    if |s| == 0 then
      []
    else
      assert s == [s[0]] + s[1..];
      InsertBy(s[0], SortBy(s[1..], key), key)
  }

  /** A key below `x` and below every element of `s` stays below every
      element after `x` is inserted. */
  lemma {:induction false} InsertByBound<T>(y: T, x: T, s: seq<T>, key: T -> string)
    requires LexLe(key(y), key(x))
    requires forall k :: 0 <= k < |s| ==> LexLe(key(y), key(s[k]))
    ensures forall k :: 0 <= k < |InsertBy(x, s, key)| ==> LexLe(key(y), key(InsertBy(x, s, key)[k]))
    decreases |s|
  {
    if |s| > 0 && !LexLe(key(x), key(s[0])) {
      InsertByBound(y, x, s[1..], key);
    }
  }

  lemma {:induction false} InsertBySorted<T>(x: T, s: seq<T>, key: T -> string)
    requires SortedBy(s, key)
    ensures SortedBy(InsertBy(x, s, key), key)
    decreases |s|
  {
    var r := InsertBy(x, s, key);
    if |s| == 0 {
    } else if LexLe(key(x), key(s[0])) {
      forall i, j | 0 <= i < j < |r|
        ensures LexLe(key(r[i]), key(r[j]))
      {
        if i == 0 && j > 1 {
          LexLeTransitive(key(x), key(s[0]), key(s[j - 1]));
        } else if i == 0 {
          assert r[j] == s[0];
        }
      }
    } else {
      var tail := s[1..];
      InsertBySorted(x, tail, key);
      var t := InsertBy(x, tail, key);
      assert r == [s[0]] + t;
      LexLeTotal(key(x), key(s[0]));
      assert forall k :: 0 <= k < |tail| ==> tail[k] == s[k + 1];
      InsertByBound(s[0], x, tail, key);
      forall i, j | 0 <= i < j < |r|
        ensures LexLe(key(r[i]), key(r[j]))
      {
        if i == 0 {
          assert r[j] == t[j - 1];
        } else {
          assert r[i] == t[i - 1] && r[j] == t[j - 1];
        }
      }
    }
  }

  /** `SortBy` orders its output by key. */
  lemma {:induction false} SortBySorted<T>(s: seq<T>, key: T -> string)
    ensures SortedBy(SortBy(s, key), key)
    decreases |s|
  {
    if |s| > 0 {
      SortBySorted(s[1..], key);
      InsertBySorted(s[0], SortBy(s[1..], key), key);
    }
  }

  // ---------------------------------------------------------------------------
  // indexOf and first-occurrence de-duplication
  // ---------------------------------------------------------------------------

  /** `s.indexOf(x)`: the first index holding `x`, or -1. */
  function IndexOf<T(==)>(s: seq<T>, x: T): (r: int)
    ensures r == -1 <==> x !in s
    ensures r >= 0 ==> r < |s| && s[r] == x && x !in s[..r]
    decreases |s|
  {
    if |s| == 0 then
      -1
    else if s[0] == x then
      0
    else
      var k := IndexOf(s[1..], x);
      assert k >= 0 ==> s[..k + 1] == [s[0]] + s[1..][..k];
      if k < 0 then -1 else k + 1
  }

  /** The first index of an element is unique: any index that holds `x`
      with no earlier `x` is it. */
  lemma IndexOfUnique<T>(s: seq<T>, x: T, k: int)
    requires 0 <= k < |s| && s[k] == x && x !in s[..k]
    ensures IndexOf(s, x) == k
  {
  }

  predicate NoDuplicates<T(==)>(s: seq<T>) {
    forall i, j :: 0 <= i < j < |s| ==> s[i] != s[j]
  }

  /** `[...new Set(s)]`: each distinct element once, in the order of its
      first occurrence in `s`. */
  function Distinct<T(==,!new)>(s: seq<T>): (r: seq<T>)
    ensures forall x :: x in r <==> x in s
    ensures NoDuplicates(r)
    ensures forall i, j :: 0 <= i < j < |r| ==> IndexOf(s, r[i]) < IndexOf(s, r[j])
    decreases |s|
  {
    if |s| == 0 then
      []
    else
      var init := s[..|s| - 1];
      var last := s[|s| - 1];
      var r := Distinct(init);
      assert s == init + [last];
      assert forall y :: y in init ==> IndexOf(s, y) == IndexOf(init, y) by {
        forall y | y in init
          ensures IndexOf(s, y) == IndexOf(init, y)
        {
          var k := IndexOf(init, y);
          assert init[..k] == s[..k];
          IndexOfUnique(s, y, k);
        }
      }
      if last in r then
        r
      else
        assert last !in init;
        assert IndexOf(s, last) == |s| - 1 by {
          assert s[..|s| - 1] == init;
          IndexOfUnique(s, last, |s| - 1);
        }
        r + [last]
  }
}

=== FILE: slider.dfy ===
/** The arithmetic of the slider control (src/components/Slider.tsx): where
    the thumb is drawn for a value, and which value a cursor position
    emits. Numbers are exact reals; the one IEEE value the code can reach
    besides finite ones, NaN from `0 / 0`, is modelled explicitly, and the
    infinities of `x / 0` are replaced by what the clamp makes of them. */
module Slider {
  import opened Results
  import opened JsNumber

  /** The thumb takes a fifth of the track: `thumbWidth = 20` (percent). */
  const ThumbWidth: real := 20.0

  /** `((value - min) / (max - min)) * 100`; undefined (NaN or an infinity)
      when `max == min`. */
  function Percentage(value: real, min: real, max: real): (r: Option<real>)
    ensures r.None? <==> max == min
    ensures r.Some? ==> r.value * (max - min) == (value - min) * 100.0
  {
    if max == min then None else Some((value - min) / (max - min) * 100.0)
  }

  /** `(percentage / 100) * (100 - thumbWidth)`: the thumb's left edge, in
      percent of the track. */
  function ThumbPosition(value: real, min: real, max: real): (r: Option<real>)
    ensures r.Some? <==> max != min
    ensures r.Some? ==> r.value * (max - min) == (value - min) * (100.0 - ThumbWidth)
  {
    match Percentage(value, min, max)
    case None => None
    case Some(p) =>
      var t := p / 100.0 * (100.0 - ThumbWidth);
      assert t * (max - min) == p * (max - min) / 100.0 * (100.0 - ThumbWidth);
      Some(t)
  }

  /** `thumbPosition + thumbWidth`: the width of the filled part. */
  function FillWidth(value: real, min: real, max: real): (r: Option<real>)
    ensures r.Some? <==> max != min
  {
    match ThumbPosition(value, min, max)
    case None => None
    case Some(t) => Some(t + ThumbWidth)
  }

  lemma DivBounds(a: real, b: real)
    requires 0.0 <= a <= b && b > 0.0
    ensures 0.0 <= a / b <= 1.0
  {
  }

  /** For a value inside the range the thumb stays on the track: its left
      edge is in [0, 80] and the fill covers [20, 100] percent. */
  lemma ThumbOnTrack(value: real, min: real, max: real)
    requires min < max && min <= value <= max
    ensures var t := ThumbPosition(value, min, max);
      t.Some? && 0.0 <= t.value <= 100.0 - ThumbWidth
    ensures var f := FillWidth(value, min, max);
      f.Some? && ThumbWidth <= f.value <= 100.0
  {
    DivBounds(value - min, max - min);
  }

  /** A larger value moves the thumb right. */
  lemma ThumbMonotone(a: real, b: real, min: real, max: real)
    requires min < max && a <= b
    ensures ThumbPosition(a, min, max).value <= ThumbPosition(b, min, max).value
  {
    var d := max - min;
    assert (b - min) / d - (a - min) / d == (b - a) / d;
  }

  // ---------------------------------------------------------------------------
  // updateValue
  // ---------------------------------------------------------------------------

  /** The part of `getBoundingClientRect()` the slider reads. */
  datatype Rect = Rect(left: real, width: real)

  /** `thumbWidthPx = trackWidth * (thumbWidth / 100)`. */
  function ThumbPx(track: Rect): real {
    track.width * (ThumbWidth / 100.0)
  }

  /** `relativeX`: the cursor relative to where the thumb's centre sits at
      the start of the track. */
  function RelativeX(track: Rect, clientX: real): real {
    clientX - track.left - ThumbPx(track) / 2.0
  }

  /** `usableWidth`: the distance the thumb's centre can travel. */
  function UsableWidth(track: Rect): real {
    track.width - ThumbPx(track)
  }

  /** `Math.max(0, Math.min(1, relativeX / usableWidth))`. On a track of no
      width the division gives +Infinity or -Infinity, which the clamp turns
      into 1 or 0, or NaN (for `0 / 0`), which passes through both `Math`
      calls; NaN is `None`. */
  function Ratio(relativeX: real, usable: real): (r: Option<real>)
    ensures r.None? <==> usable == 0.0 && relativeX == 0.0
    ensures r.Some? ==> 0.0 <= r.value <= 1.0
    ensures usable > 0.0 && 0.0 <= relativeX <= usable ==> r == Some(relativeX / usable)
  {
    if usable != 0.0 then Some(Clamp(0.0, 1.0, relativeX / usable))
    else if relativeX > 0.0 then Some(1.0)
    else if relativeX < 0.0 then Some(0.0)
    else None
  }

  /** `Math.round(v / step) * step`. */
  function Snap(v: real, step: real): (r: real)
    requires step != 0.0
    ensures IsMultiple(r, step)
  {
    var k := Round(v / step);
    assert Times(k, step) == k as real * step;
    k as real * step
  }

  /** `k * step` for an integer `k`. */
  function Times(k: int, step: real): real {
    k as real * step
  }

  /** `v` lies on the grid of `step`. */
  ghost predicate IsMultiple(v: real, step: real) {
    exists k: int :: Times(k, step) == v
  }

  /** Snapping to a positive step moves the value by at most half a step. */
  lemma SnapNearest(v: real, step: real)
    requires step > 0.0
    ensures v - step / 2.0 < Snap(v, step) <= v + step / 2.0
  {
    var q := v / step;
    var k := Round(q);
    assert q * step == v;
    assert q - 0.5 < k as real <= q + 0.5;
    MulLess(q - 0.5, k as real, step);
    MulLeq(k as real, q + 0.5, step);
  }

  lemma MulLess(a: real, b: real, c: real)
    requires a < b && c > 0.0
    ensures a * c < b * c
  {
  }

  lemma MulLeq(a: real, b: real, c: real)
    requires a <= b && c > 0.0
    ensures a * c <= b * c
  {
  }

  /** What `updateValue` passes to `onChange`, if anything. */
  datatype Emitted = NoEmit | EmitNaN | EmitValue(value: real)

  /** The value before clamping: `min + ratio * (max - min)`, snapped when
      `step` is truthy (non-zero). */
  function Unclamped(ratio: real, min: real, max: real, step: real): (r: real)
    ensures step == 0.0 ==> r == min + ratio * (max - min)
    ensures step != 0.0 ==> IsMultiple(r, step)
  {
    var v := min + ratio * (max - min);
    if step != 0.0 then Snap(v, step) else v
  }

  /** `updateValue(clientX)`: nothing without a track element; otherwise the
      cursor is turned into a ratio, the ratio into a value, the value is
      snapped and finally clamped to `[min, max]`. */
  function UpdateValue(track: Option<Rect>, clientX: real, min: real, max: real, step: real): (r: Emitted)
    ensures track.None? <==> r.NoEmit?
    ensures r.EmitNaN? <==> track.Some? && track.value.width == 0.0 && clientX == track.value.left
    ensures r.EmitValue? && min <= max ==> min <= r.value <= max
    ensures r.EmitValue? && min > max ==> r.value == min
    ensures r.EmitValue? ==>
      var ratio := Ratio(RelativeX(track.value, clientX), UsableWidth(track.value)).value;
      r.value == Clamp(min, max, Unclamped(ratio, min, max, step))
  {
    match track
    case None => NoEmit
    case Some(rect) =>
      match Ratio(RelativeX(rect, clientX), UsableWidth(rect))
      case None => EmitNaN
      case Some(ratio) => EmitValue(Clamp(min, max, Unclamped(ratio, min, max, step)))
  }

  /** With no step the emitted value is the linear interpolation of the
      ratio, already inside the range. */
  lemma NoStepInterpolates(track: Rect, clientX: real, min: real, max: real)
    requires min <= max
    requires UpdateValue(Some(track), clientX, min, max, 0.0).EmitValue?
    ensures var ratio := Ratio(RelativeX(track, clientX), UsableWidth(track)).value;
      UpdateValue(Some(track), clientX, min, max, 0.0).value == min + ratio * (max - min)
  {
    var ratio := Ratio(RelativeX(track, clientX), UsableWidth(track)).value;
    if max > min {
      MulLeq(ratio, 1.0, max - min);
      MulLeq(0.0, ratio, max - min);
    }
  }

  /** With a non-zero step and bounds on its grid, every emitted value is on
      the grid. */
  lemma SnappedOnGrid(track: Rect, clientX: real, min: real, max: real, step: real)
    requires step != 0.0 && IsMultiple(min, step) && IsMultiple(max, step)
    requires UpdateValue(Some(track), clientX, min, max, step).EmitValue?
    ensures IsMultiple(UpdateValue(Some(track), clientX, min, max, step).value, step)
  {
  }

  /** The thumb follows the cursor: with no step, on a track of positive
      width, a cursor over the usable part of the track emits the value
      whose thumb is centred under the cursor. */
  lemma ThumbFollowsCursor(track: Rect, clientX: real, min: real, max: real)
    requires min < max && track.width > 0.0
    requires 0.0 <= RelativeX(track, clientX) <= UsableWidth(track)
    ensures var e := UpdateValue(Some(track), clientX, min, max, 0.0);
      && e.EmitValue?
      && var t := ThumbPosition(e.value, min, max).value;
         track.left + t / 100.0 * track.width + ThumbPx(track) / 2.0 == clientX
  {
    var rx := RelativeX(track, clientX);
    var u := UsableWidth(track);
    assert u == track.width * 0.8;
    var ratio := rx / u;
    NoStepInterpolates(track, clientX, min, max);
    ThumbOfInterpolation(ratio, min, max);
    assert (ratio * 80.0) / 100.0 * track.width == ratio * u;
  }

  /** The thumb of the interpolated value sits at the same fraction of the
      thumb's travel. */
  lemma ThumbOfInterpolation(ratio: real, min: real, max: real)
    requires min < max
    ensures ThumbPosition(min + ratio * (max - min), min, max).value == ratio * 80.0
  {
    var d := max - min;
    var v := min + ratio * d;
    assert v - min == ratio * d;
    assert (ratio * d) / d == ratio;
    assert Percentage(v, min, max).value == ratio * 100.0;
  }

  /** Outside the usable part the cursor pins the value to an end: left of
      it emits `min`, right of it `max`. */
  lemma CursorBeyondEnds(track: Rect, clientX: real, min: real, max: real)
    requires min <= max && track.width > 0.0
    ensures RelativeX(track, clientX) <= 0.0 ==>
      UpdateValue(Some(track), clientX, min, max, 0.0) == EmitValue(min)
    ensures RelativeX(track, clientX) >= UsableWidth(track) ==>
      UpdateValue(Some(track), clientX, min, max, 0.0) == EmitValue(max)
  {
    var rx := RelativeX(track, clientX);
    var u := UsableWidth(track);
    assert u > 0.0;
    if rx <= 0.0 {
      assert rx / u <= 0.0;
    }
    if rx >= u {
      assert rx / u == 1.0 + (rx - u) / u;
      MulLeq(0.0, rx - u, 1.0 / u);
    }
  }

  lemma DivLeq(a: real, b: real, c: real)
    requires a <= b && c > 0.0
    ensures a / c <= b / c
  {
    assert b / c - a / c == (b - a) / c;
  }

  lemma ClampMonotone(lo: real, hi: real, x: real, y: real)
    requires lo <= hi && x <= y
    ensures Clamp(lo, hi, x) <= Clamp(lo, hi, y)
  {
  }

  lemma InterpolateMonotone(a: real, b: real, min: real, max: real)
    requires a <= b && min <= max
    ensures min + a * (max - min) <= min + b * (max - min)
  {
    if max > min {
      MulLeq(a, b, max - min);
    }
  }

  /** Without a step, dragging right never lowers the value. */
  lemma DragMonotone(track: Rect, x1: real, x2: real, min: real, max: real)
    requires min <= max && track.width > 0.0 && x1 <= x2
    ensures UpdateValue(Some(track), x1, min, max, 0.0).value <= UpdateValue(Some(track), x2, min, max, 0.0).value
  {
    var u := UsableWidth(track);
    var r1 := RelativeX(track, x1);
    var r2 := RelativeX(track, x2);
    assert u > 0.0;
    DivLeq(r1, r2, u);
    ClampMonotone(0.0, 1.0, r1 / u, r2 / u);
    var a := Clamp(0.0, 1.0, r1 / u);
    var b := Clamp(0.0, 1.0, r2 / u);
    assert Ratio(r1, u) == Some(a) && Ratio(r2, u) == Some(b);
    InterpolateMonotone(a, b, min, max);
    ClampMonotone(min, max, Unclamped(a, min, max, 0.0), Unclamped(b, min, max, 0.0));
  }
}

=== FILE: soundbutton.dfy ===
/** The label and the gestures of one sound button
    (src/components/SoundButton.tsx). */
module SoundButton {
  import opened Types
  import opened JsString

  /** `\w` without the `u` flag: ASCII letters, digits and `_`. */
  predicate IsWordChar(c: char) {
    ('a' <= c <= 'z') || ('A' <= c <= 'Z') || ('0' <= c <= '9') || c == '_'
  }

  /** `/\.\w+$/` matches at index `i`: a dot there, followed by one or more
      word characters that run to the end of the string. */
  predicate HasExtensionAt(s: string, i: int) {
    0 <= i < |s| - 1 && s[i] == '.' && forall j :: i < j < |s| ==> IsWordChar(s[j])
  }

  /** A dot is not a word character, so the pattern matches at most once. */
  lemma ExtensionUnique(s: string, i: int, k: int)
    requires HasExtensionAt(s, i) && HasExtensionAt(s, k)
    ensures i == k
  {
  }

  /** The length of the longest run of word characters ending `s`. */
  function WordSuffix(s: string): (n: nat)
    ensures n <= |s|
    ensures forall j :: |s| - n <= j < |s| ==> IsWordChar(s[j])
    ensures n < |s| ==> !IsWordChar(s[|s| - n - 1])
    decreases |s|
  {
    if |s| == 0 || !IsWordChar(s[|s| - 1]) then 0
    else
      var n := WordSuffix(s[..|s| - 1]);
      assert forall j :: 0 <= j < |s| - 1 ==> s[..|s| - 1][j] == s[j];
      n + 1
  }

  /** `s.replace(/\.\w+$/, '')`: removes the one trailing extension, when
      there is one, and leaves the string alone otherwise. */
  function StripExtension(s: string): (r: string)
    ensures forall i :: HasExtensionAt(s, i) ==> r == s[..i]
    ensures (forall i :: !HasExtensionAt(s, i)) ==> r == s
    ensures |r| <= |s| && r == s[..|r|]
  {
    var n := WordSuffix(s);
    if n >= 1 && n < |s| && s[|s| - n - 1] == '.' then
      var i := |s| - n - 1;
      assert HasExtensionAt(s, i);
      assert forall k :: HasExtensionAt(s, k) ==> k == i by {
        forall k | HasExtensionAt(s, k)
          ensures k == i
        {
          ExtensionUnique(s, i, k);
        }
      }
      s[..i]
    else
      assert forall k :: !HasExtensionAt(s, k) by {
        forall k | HasExtensionAt(s, k)
          ensures false
        {
        }
      }
      s
  }

  /** `sound.name.split('/').pop()?.replace(/\.\w+$/, '')`: the last path
      segment, without its extension when it has one and whole otherwise;
      always defined, since a split has at least one piece. */
  function DisplayName(name: string): (r: string)
    ensures '/' !in r
    ensures |r| <= |LastSegment(name, '/')|
    ensures r == LastSegment(name, '/')[..|r|]
  {
    var last := LastSegment(name, '/');
    LastSegmentIsTail(name, '/');
    var r := StripExtension(last);
    assert '/' !in r by {
      forall k | 0 <= k < |r|
        ensures r[k] != '/'
      {
        assert r[k] == last[k];
      }
    }
    r
  }

  /** The label is the last segment cut before its extension when it has
      one, and the whole last segment otherwise. */
  lemma DisplayNameStripsExtension(name: string)
    ensures var last := LastSegment(name, '/');
      forall i :: HasExtensionAt(last, i) ==> DisplayName(name) == last[..i]
    ensures var last := LastSegment(name, '/');
      (forall i :: !HasExtensionAt(last, i)) ==> DisplayName(name) == last
  {
    var last := LastSegment(name, '/');
    assert DisplayName(name) == StripExtension(last);
  }

  /** Only the final extension goes: `a.b.ogg` is shown as `a.b`. */
  lemma DisplayNameExamples()
    ensures StripExtension("a.b.ogg") == "a.b"
    ensures StripExtension("kick") == "kick"
    ensures StripExtension("kick.") == "kick."
  {
    assert HasExtensionAt("a.b.ogg", 3);
    assert forall i :: !HasExtensionAt("kick", i);
    assert forall i :: !HasExtensionAt("kick.", i);
  }

  /** A name ending in `/` has an empty label. */
  lemma TrailingSlashLabel(name: string)
    requires |name| > 0 && name[|name| - 1] == '/'
    ensures DisplayName(name) == ""
  {
    LastSegmentIsTail(name, '/');
    var last := LastSegment(name, '/');
    if |last| > 0 {
      assert false;
    }
    assert forall i :: !HasExtensionAt(last, i);
  }

  /** The two mouse gestures of a button. */
  datatype Gesture = Click | DoubleClick

  /** What a gesture asks the list to do, with the button's own record. */
  datatype Request = PlayRequest(sound: Sound) | FaveRequest(sound: Sound)

  /** `onClick={() => onPlay(sound)}` and `onDblClick={() => onFave(sound)}`. */
  function HandleGesture(sound: Sound, g: Gesture): (r: Request)
    ensures r.sound == sound
    ensures r.PlayRequest? <==> g == Click
  {
    match g
    case Click => PlayRequest(sound)
    case DoubleClick => FaveRequest(sound)
  }
}

=== FILE: soundlist.dfy ===
/** The list view (src/components/SoundList.tsx): the alphabetical ordering by
    the third `/`-segment of a name, the category ordering with one coloured
    section per second segment, and the "playing" highlight. */
module SoundList {
  import opened Results
  import opened Types
  import opened JsString
  import opened Seqs
  import opened Colors
  import opened AudioHook
  import SoundButton
  import opened UrlPath

  /** One rendered button: its record, its colour and its highlight. */
  datatype ListButton = ListButton(sound: Sound, color: string, isPlaying: bool)

  /** `currentAudio?.src`: the source of the hook's current element. */
  function CurrentSrc(h: Hook): (r: Option<string>)
    requires CurrentIsLoaded(h)
    ensures r.Some? <==> h.current.Some?
  {
    match h.current
    case None => None
    case Some(k) => Some(Src(h.loadedSounds[k]))
  }

  /** `Boolean(currentAudio?.src.includes(sound.path))`: there is a current
      element and the raw path occurs somewhere in its `src`. */
  predicate ShowsPlaying(src: Option<string>, path: string): (b: bool)
    ensures b <==> src.Some? && exists i :: OccursAt(src.value, path, i)
  {
    src.Some? && (IncludesIff(src.value, path); Includes(src.value, path))
  }

  /** After a successful `playSound`, whether the sound was cached already
      or loaded now, its button is highlighted, provided its path holds
      nothing the URL serialiser rewrites: `src` is then the origin, the
      audio route and the path. */
  lemma PlayedIsHighlighted(h: Hook, sound: Sound, outcome: LoadOutcome)
    requires Valid(h) && sound.path != ""
    requires forall i :: 0 <= i < |sound.path| ==> !Rewritten(sound.path[i])
    requires PlaySound(h, sound, outcome, true).status == Started
    ensures var h1 := PlaySound(h, sound, outcome, true).hook;
      ShowsPlaying(CurrentSrc(h1), sound.path)
  {
    var h1 := PlaySound(h, sound, outcome, true).hook;
    CurrentPlainHighlighted(h1, sound.path);
  }

  lemma CurrentPlainHighlighted(h: Hook, path: string)
    requires CurrentIsLoaded(h) && h.current == Some(path) && path in h.loadedSounds
    requires h.loadedSounds[path].url == AudioRoute + path
    requires forall i :: 0 <= i < |path| ==> !Rewritten(path[i])
    ensures ShowsPlaying(CurrentSrc(h), path)
  {
    PlainSrcHoldsPath(h.loadedSounds[path], path);
  }

  lemma PlainSrcHoldsPath(e: Element, path: string)
    requires e.url == AudioRoute + path
    requires forall i :: 0 <= i < |path| ==> !Rewritten(path[i])
    ensures OccursAt(Src(e), path, |PageOrigin| + |AudioRoute|)
  {
    PlainRoute(path);
    var src := PageOrigin + AudioRoute + path;
    assert Src(e) == src;
    assert src[|PageOrigin| + |AudioRoute|..] == path;
  }

  /** A sound whose path holds a character the serialiser rewrites (a space,
      say, which `src` shows as `%20`) is not highlighted while it plays:
      no character of `src` needs rewriting, so the raw path cannot occur
      in it. */
  lemma EscapedPathNotHighlighted(h: Hook, sound: Sound, outcome: LoadOutcome, j: nat)
    requires Valid(h) && j < |sound.path| && Rewritten(sound.path[j])
    requires PlaySound(h, sound, outcome, true).status == Started
    ensures var h1 := PlaySound(h, sound, outcome, true).hook;
      h1.current == Some(sound.path) && !ShowsPlaying(CurrentSrc(h1), sound.path)
  {
    var h1 := PlaySound(h, sound, outcome, true).hook;
    var e := h1.loadedSounds[sound.path];
    SrcIsPlain(e);
    PlainExcludes(Src(e), sound.path, j);
  }

  lemma SrcIsPlain(e: Element)
    ensures forall k :: 0 <= k < |Src(e)| ==> !Rewritten(Src(e)[k])
  {
    OriginPlain();
    PlainJoin(PageOrigin, EncodePath(e.url));
  }

  lemma OriginPlain()
    ensures forall i :: 0 <= i < |PageOrigin| ==> !Rewritten(PageOrigin[i])
  {
    assert forall i :: 0 <= i < |PageOrigin| ==> PageOrigin[i] in "htp:/locas5173";
  }

  /** A string with nothing to rewrite contains no string that has. */
  lemma PlainExcludes(s: string, sub: string, j: nat)
    requires forall k :: 0 <= k < |s| ==> !Rewritten(s[k])
    requires j < |sub| && Rewritten(sub[j])
    ensures forall i :: !OccursAt(s, sub, i)
  {
  }

  /** The audio route followed by a path that holds nothing to rewrite is
      serialised as it is. */
  lemma PlainRoute(path: string)
    requires forall i :: 0 <= i < |path| ==> !Rewritten(path[i])
    ensures EncodePath(AudioRoute + path) == AudioRoute + path
  {
    RoutePlain();
    PlainConcat(AudioRoute, path);
  }

  lemma RoutePlain()
    ensures forall i :: 0 <= i < |AudioRoute| ==> !Rewritten(AudioRoute[i])
  {
    assert forall i :: 0 <= i < |AudioRoute| ==> AudioRoute[i] in "/apiudo";
  }

  /** The highlight is a substring test, so while a sound plays, every
      sound whose path occurs inside its path (`/x/a.mp3` inside
      `/y/x/a.mp3`, say) is highlighted too. */
  lemma NestedPathAlsoHighlighted(playing: string, other: string, i: int)
    requires forall k :: 0 <= k < |playing| ==> !Rewritten(playing[k])
    requires OccursAt(playing, other, i)
    ensures ShowsPlaying(Some(Src(NewElement(playing))), other)
  {
    PlainRoute(playing);
    var src := PageOrigin + AudioRoute + playing;
    assert Src(NewElement(playing)) == src;
    var at := |PageOrigin| + |AudioRoute| + i;
    assert src[at..at + |other|] == playing[i..i + |other|];
    assert OccursAt(src, other, at);
  }

  /** The parser deletes a tab or newline in a path before `src` is
      serialised, so while `/a<tab>b.mp3` plays, the button of `/ab.mp3` is
      highlighted and the playing one is not. */
  lemma DroppedCharHighlightsJoined(a: string, t: char, b: string)
    requires forall k :: 0 <= k < |a| ==> !Rewritten(a[k])
    requires TabOrNewline(t)
    requires forall k :: 0 <= k < |b| ==> !Rewritten(b[k])
    ensures var src := Some(Src(NewElement(a + [t] + b)));
      ShowsPlaying(src, a + b) && !ShowsPlaying(src, a + [t] + b)
  {
    var e := NewElement(a + [t] + b);
    JoinedSrc(a, t, b);
    RouteOccurs(Src(e), a + b);
    SrcIsPlain(e);
    assert (a + [t] + b)[|a|] == t;
    PlainExcludes(Src(e), a + [t] + b, |a|);
  }

  lemma JoinedSrc(a: string, t: char, b: string)
    requires forall k :: 0 <= k < |a| ==> !Rewritten(a[k])
    requires TabOrNewline(t)
    requires forall k :: 0 <= k < |b| ==> !Rewritten(b[k])
    ensures Src(NewElement(a + [t] + b)) == PageOrigin + AudioRoute + (a + b)
  {
    var ra := AudioRoute + a;
    RoutePlain();
    PlainJoin(AudioRoute, a);
    var url := NewElement(a + [t] + b).url;
    assert url == ra + [t] + b;
    TabOrNewlineDropped(ra, t, b);
    assert EncodePath(url) == AudioRoute + (a + b);
  }

  /** The parser cuts trailing C0 controls and spaces, so while
      `/a.mp3 ` plays, the button of `/a.mp3` is highlighted and the playing
      one is not. */
  lemma TrailingRunHighlightsTrimmed(a: string, w: string)
    requires forall k :: 0 <= k < |a| ==> !Rewritten(a[k])
    requires |w| > 0 && forall k :: 0 <= k < |w| ==> C0OrSpace(w[k])
    ensures var src := Some(Src(NewElement(a + w)));
      ShowsPlaying(src, a) && !ShowsPlaying(src, a + w)
  {
    var e := NewElement(a + w);
    TrimmedSrc(a, w);
    RouteOccurs(Src(e), a);
    SrcIsPlain(e);
    assert (a + w)[|a|] == w[0];
    PlainExcludes(Src(e), a + w, |a|);
  }

  lemma TrimmedSrc(a: string, w: string)
    requires forall k :: 0 <= k < |a| ==> !Rewritten(a[k])
    requires forall k :: 0 <= k < |w| ==> C0OrSpace(w[k])
    ensures Src(NewElement(a + w)) == PageOrigin + AudioRoute + a
  {
    var ra := AudioRoute + a;
    RoutePlain();
    PlainJoin(AudioRoute, a);
    assert AudioRoute + (a + w) == ra + w;
    TrailingRunDropped(ra, w);
  }

  /** A `src` made of the origin, the audio route and a path contains the
      path. */
  lemma RouteOccurs(src: string, path: string)
    requires src == PageOrigin + AudioRoute + path
    ensures OccursAt(src, path, |PageOrigin| + |AudioRoute|)
  {
    assert src[|PageOrigin| + |AudioRoute|..] == path;
  }

  // ---------------------------------------------------------------------------
  // Alphabetical mode
  // ---------------------------------------------------------------------------

  /** `name.split('/')[2]`, the sort key, which is `undefined` for a name
      with fewer than two slashes. */
  function SortKey(s: Sound): Option<string> {
    Segment(s.name, '/', 2)
  }

  /** The key as a string, for sounds that have one. */
  function ThirdSegment(s: Sound): string {
    SortKey(s).GetOr("")
  }

  /** `localeCompare` is called on the first sound's key; a sort with at
      least two entries compares every entry, so an entry without a key makes
      the comparator throw. */
  predicate AlphabeticalThrows(sounds: seq<Sound>) {
    |sounds| >= 2 && exists i :: 0 <= i < |sounds| && SortKey(sounds[i]).None?
  }

  /** The records behind a row of buttons. */
  function SoundsOf(buttons: seq<ListButton>): (r: seq<Sound>)
    ensures |r| == |buttons|
    ensures forall i :: 0 <= i < |r| ==> r[i] == buttons[i].sound
  {
    seq(|buttons|, i requires 0 <= i < |buttons| => buttons[i].sound)
  }

  /** One button per sound, the `i`-th coloured with `colors[i]`. */
  function Buttons(sounds: seq<Sound>, colors: seq<string>, src: Option<string>): (r: seq<ListButton>)
    requires |colors| == |sounds|
    ensures SoundsOf(r) == sounds
    ensures forall i :: 0 <= i < |r| ==>
      r[i].color == colors[i] && r[i].isPlaying == ShowsPlaying(src, sounds[i].path)
  {
    var r := seq(|sounds|, i requires 0 <= i < |sounds| => ListButton(sounds[i], colors[i], ShowsPlaying(src, sounds[i].path)));
    assert SoundsOf(r) == sounds;
    r
  }

  /** The alphabetical view: the sounds sorted by their third segment, the
      `i`-th coloured with entry `i` of a palette as long as the list. */
  function Alphabetical(sounds: seq<Sound>, src: Option<string>): (r: Result<seq<ListButton>, string>)
    ensures r.Failure? <==> AlphabeticalThrows(sounds)
    ensures r.Success? ==>
      && multiset(SoundsOf(r.value)) == multiset(sounds)
      && SortedBy(SoundsOf(r.value), ThirdSegment)
      && (forall i :: 0 <= i < |r.value| ==>
            && r.value[i].color == GenerateDistinguishableColors(|sounds|, 1.0)[i]
            && r.value[i].isPlaying == ShowsPlaying(src, r.value[i].sound.path))
  {
    if AlphabeticalThrows(sounds) then
      Failure("TypeError")
    else
      var sorted := SortBy(sounds, ThirdSegment);
      SortBySorted(sounds, ThirdSegment);
      Success(Buttons(sorted, GenerateDistinguishableColors(|sorted|, 1.0), src))
  }

  // ---------------------------------------------------------------------------
  // Category mode
  // ---------------------------------------------------------------------------

  /** `name.split('/')[1]`, the category, `undefined` for a name with no `/`. */
  function CategoryOf(s: Sound): Option<string> {
    Segment(s.name, '/', 1)
  }

  /** The category as it appears in `'/' + category`. */
  function CategoryText(c: Option<string>): string {
    c.GetOr("undefined")
  }

  /** `sounds.map(...)`: each sound's category, in listing order. */
  function CategoryList(sounds: seq<Sound>): (r: seq<Option<string>>)
    ensures |r| == |sounds|
    ensures forall i :: 0 <= i < |sounds| ==> r[i] == CategoryOf(sounds[i])
  {
    seq(|sounds|, i requires 0 <= i < |sounds| => CategoryOf(sounds[i]))
  }

  /** `Array.from(new Set(sounds.map(...)))`: the distinct categories in
      first-occurrence order, which fixes the order of the sections and the
      colour each one takes. */
  function Categories(sounds: seq<Sound>): (r: seq<Option<string>>)
    ensures NoDuplicates(r)
    ensures forall c :: c in r <==> exists i :: 0 <= i < |sounds| && CategoryOf(sounds[i]) == c
    ensures forall i, j :: 0 <= i < j < |r| ==>
      Seqs.IndexOf(CategoryList(sounds), r[i]) < Seqs.IndexOf(CategoryList(sounds), r[j])
  {
    var all := CategoryList(sounds);
    var r := Distinct(all);
    assert forall c :: c in all <==> exists i :: 0 <= i < |sounds| && CategoryOf(sounds[i]) == c by {
      forall c | c in all
        ensures exists i :: 0 <= i < |sounds| && CategoryOf(sounds[i]) == c
      {
        var i :| 0 <= i < |all| && all[i] == c;
      }
      forall i | 0 <= i < |sounds|
        ensures CategoryOf(sounds[i]) in all
      {
        assert all[i] == CategoryOf(sounds[i]);
      }
    }
    r
  }

  /** The first section shown is the category of the first sound listed. */
  lemma FirstCategoryFirst(sounds: seq<Sound>)
    requires |sounds| > 0
    ensures |Categories(sounds)| > 0 && Categories(sounds)[0] == CategoryOf(sounds[0])
  {
    var r := Categories(sounds);
    var all := CategoryList(sounds);
    assert CategoryOf(sounds[0]) in r;
    var k :| 0 <= k < |r| && r[k] == CategoryOf(sounds[0]);
    assert Seqs.IndexOf(all, r[k]) == 0 by {
      Seqs.IndexOfUnique(all, r[k], 0);
    }
  }

  function Name(s: Sound): string {
    s.name
  }

  /** The filter the source applies for a category: the name starts with
      `'/' + category`. */
  predicate InGroupAsWritten(c: Option<string>, s: Sound) {
    StartsWith(s.name, "/" + CategoryText(c))
  }

  /** The section of category `c` as written: every sound whose name starts
      with `'/' + c`, sorted by full name. */
  function CategoryGroupAsWritten(sounds: seq<Sound>, c: Option<string>): (r: seq<Sound>)
    ensures forall s :: multiset(r)[s] == if InGroupAsWritten(c, s) then multiset(sounds)[s] else 0
    ensures SortedBy(r, Name)
  {
    var f := Filter(sounds, s => InGroupAsWritten(c, s));
    FilterMultiset(sounds, s => InGroupAsWritten(c, s));
    SortBySorted(f, Name);
    SortBy(f, Name)
  }

  /** A name that begins with `/` starts with `'/' + ` its own category. */
  lemma OwnCategoryPrefix(s: Sound)
    requires |s.name| > 0 && s.name[0] == '/'
    ensures CategoryOf(s).Some? && InGroupAsWritten(CategoryOf(s), s)
    ensures var n := |CategoryOf(s).value| + 1; n == |s.name| || s.name[n] == '/'
  {
    var name := s.name;
    var rest := name[1..];
    assert name == [name[0]] + rest;
    assert Split(name, '/') == [""] + Split(rest, '/');
    FirstSegmentIsHead(rest, '/');
    var c := Split(rest, '/')[0];
    assert CategoryOf(s) == Some(c);
    assert name[..|c| + 1] == "/" + c;
    assert |c| == |rest| || name[|c| + 1] == rest[|c|];
  }

  /** The prefix test lets one sound into two sections: when category `c`
      is a proper prefix of category `d` (as `dr` is of `drums`), every sound
      of `d` is also listed under `c`. */
  lemma PrefixCollision(sounds: seq<Sound>, c: string, d: string, s: Sound)
    requires s in sounds && |s.name| > 0 && s.name[0] == '/'
    requires CategoryOf(s) == Some(d) && StartsWith(d, c) && c != d
    ensures Some(c) != CategoryOf(s)
    ensures s in CategoryGroupAsWritten(sounds, Some(c))
    ensures s in CategoryGroupAsWritten(sounds, Some(d))
  {
    OwnCategoryPrefix(s);
    assert StartsWith(s.name, "/" + d);
    assert s.name[..|c| + 1] == ("/" + d)[..|c| + 1] == "/" + c;
    assert InGroupAsWritten(Some(c), s);
    assert multiset(sounds)[s] > 0;
    assert multiset(CategoryGroupAsWritten(sounds, Some(c)))[s] > 0;
    assert multiset(CategoryGroupAsWritten(sounds, Some(d)))[s] > 0;
  }

  /** The section of category `c`: the sounds whose category is `c`, sorted
      by full name. */
  function CategoryGroup(sounds: seq<Sound>, c: Option<string>): (r: seq<Sound>)
    ensures forall s :: multiset(r)[s] == if CategoryOf(s) == c then multiset(sounds)[s] else 0
    ensures SortedBy(r, Name)
  {
    var f := Filter(sounds, s => CategoryOf(s) == c);
    FilterMultiset(sounds, s => CategoryOf(s) == c);
    SortBySorted(f, Name);
    SortBy(f, Name)
  }

  /** For names under a leading `/`, the corrected section is contained in
      the section the prefix test builds. */
  lemma GroupWithinAsWritten(sounds: seq<Sound>, c: Option<string>, s: Sound)
    requires |s.name| > 0 && s.name[0] == '/'
    requires s in CategoryGroup(sounds, c)
    ensures s in CategoryGroupAsWritten(sounds, c)
  {
    OwnCategoryPrefix(s);
    assert multiset(CategoryGroup(sounds, c))[s] > 0;
    assert multiset(CategoryGroupAsWritten(sounds, c))[s] > 0;
  }

  /** For a name under a leading `/`, the prefix test for a category `c`
      (which holds no `/`, as no category does) agrees with comparing
      categories unless `c` is a proper prefix of the sound's own category. */
  lemma InGroupAgrees(c: string, s: Sound)
    requires |s.name| > 0 && s.name[0] == '/' && '/' !in c
    requires forall d :: CategoryOf(s) == Some(d) && d != c ==> !StartsWith(d, c)
    ensures InGroupAsWritten(Some(c), s) <==> CategoryOf(s) == Some(c)
  {
    OwnCategoryPrefix(s);
    var d := CategoryOf(s).value;
    if d != c && InGroupAsWritten(Some(c), s) {
      if |c| <= |d| {
        SharedPrefix(s.name, c, d);
      }
    }
  }

  lemma SharedPrefix(x: string, c: string, d: string)
    requires StartsWith(x, "/" + c) && StartsWith(x, "/" + d) && |c| <= |d|
    ensures StartsWith(d, c)
  {
    assert ("/" + d)[1..] == d && ("/" + c)[1..] == c;
    assert d == x[1..|d| + 1] && c == x[1..|c| + 1];
    assert d[..|c|] == x[1..|c| + 1];
  }

  /** Without proper-prefix categories, the section the prefix test builds
      is the corrected section. */
  lemma GroupsAgree(sounds: seq<Sound>, c: string)
    requires forall i :: 0 <= i < |sounds| ==> |sounds[i].name| > 0 && sounds[i].name[0] == '/'
    requires '/' !in c
    requires forall i :: 0 <= i < |sounds| && CategoryOf(sounds[i]).Some? && CategoryOf(sounds[i]).value != c ==>
      !StartsWith(CategoryOf(sounds[i]).value, c)
    ensures CategoryGroupAsWritten(sounds, Some(c)) == CategoryGroup(sounds, Some(c))
  {
    forall i | 0 <= i < |sounds|
      ensures InGroupAsWritten(Some(c), sounds[i]) == (CategoryOf(sounds[i]) == Some(c))
    {
      InGroupAgrees(c, sounds[i]);
    }
    FilterCongruent(sounds, s => InGroupAsWritten(Some(c), s), s => CategoryOf(s) == Some(c));
  }

  /** One rendered section. */
  datatype Section = Section(category: Option<string>, color: string, buttons: seq<ListButton>)

  /** One section per category of `cats`, in that order, coloured from a
      palette with one entry per category, listing `group` of the category. */
  function Sections(cats: seq<Option<string>>, group: Option<string> -> seq<Sound>, src: Option<string>): (r: seq<Section>)
    ensures |r| == |cats|
    ensures forall k :: 0 <= k < |r| ==>
      && r[k].category == cats[k]
      && r[k].color == GenerateDistinguishableColors(|cats|, 1.0)[k]
      && |r[k].buttons| == |group(cats[k])|
      && forall j :: 0 <= j < |r[k].buttons| ==>
           && r[k].buttons[j].sound == group(cats[k])[j]
           && r[k].buttons[j].color == r[k].color
           && r[k].buttons[j].isPlaying == ShowsPlaying(src, r[k].buttons[j].sound.path)
  {
    var colors := GenerateDistinguishableColors(|cats|, 1.0);
    seq(|cats|, k requires 0 <= k < |cats| =>
      var g := group(cats[k]);
      Section(cats[k], colors[k],
        seq(|g|, j requires 0 <= j < |g| => ListButton(g[j], colors[k], ShowsPlaying(src, g[j].path)))))
  }

  /** Sections of groups that agree on every category are the same. */
  lemma SectionsCongruent(cats: seq<Option<string>>, g1: Option<string> -> seq<Sound>,
                          g2: Option<string> -> seq<Sound>, src: Option<string>)
    requires forall k :: 0 <= k < |cats| ==> g1(cats[k]) == g2(cats[k])
    ensures Sections(cats, g1, src) == Sections(cats, g2, src)
  {
    var a := Sections(cats, g1, src);
    var b := Sections(cats, g2, src);
    forall k | 0 <= k < |cats|
      ensures a[k] == b[k]
    {
      assert a[k].buttons == b[k].buttons;
    }
  }

  /** The category view as written: one section per distinct category, in
      first-occurrence order, each listing what the prefix test lets in. */
  function CategoryViewAsWritten(sounds: seq<Sound>, src: Option<string>): (r: seq<Section>)
    ensures |r| == |Categories(sounds)|
    ensures forall k :: 0 <= k < |r| ==>
      && r[k].category == Categories(sounds)[k]
      && r[k].color == GenerateDistinguishableColors(|r|, 1.0)[k]
      && |r[k].buttons| == |CategoryGroupAsWritten(sounds, r[k].category)|
      && forall j :: 0 <= j < |r[k].buttons| ==>
           && r[k].buttons[j].sound == CategoryGroupAsWritten(sounds, r[k].category)[j]
           && r[k].buttons[j].color == r[k].color
           && r[k].buttons[j].isPlaying == ShowsPlaying(src, r[k].buttons[j].sound.path)
  {
    Sections(Categories(sounds), c => CategoryGroupAsWritten(sounds, c), src)
  }

  /** The category view: one section per distinct category, in
      first-occurrence order, coloured from a palette with one entry per
      category, each listing exactly the sounds of that category. */
  function CategoryView(sounds: seq<Sound>, src: Option<string>): (r: seq<Section>)
    ensures |r| == |Categories(sounds)|
    ensures forall k :: 0 <= k < |r| ==>
      && r[k].category == Categories(sounds)[k]
      && r[k].color == GenerateDistinguishableColors(|r|, 1.0)[k]
      && |r[k].buttons| == |CategoryGroup(sounds, r[k].category)|
      && forall j :: 0 <= j < |r[k].buttons| ==>
           && r[k].buttons[j].sound == CategoryGroup(sounds, r[k].category)[j]
           && r[k].buttons[j].color == r[k].color
           && r[k].buttons[j].isPlaying == ShowsPlaying(src, r[k].buttons[j].sound.path)
  {
    Sections(Categories(sounds), c => CategoryGroup(sounds, c), src)
  }

  /** Where every name sits under a leading `/` and no category is a proper
      prefix of another, the view as written is the corrected view. */
  lemma ViewsAgree(sounds: seq<Sound>, src: Option<string>)
    requires forall i :: 0 <= i < |sounds| ==> |sounds[i].name| > 0 && sounds[i].name[0] == '/'
    requires forall i, j ::
      (0 <= i < |sounds| && 0 <= j < |sounds| && CategoryOf(sounds[i]).Some? && CategoryOf(sounds[j]).Some? &&
       CategoryOf(sounds[i]) != CategoryOf(sounds[j])) ==>
      !StartsWith(CategoryOf(sounds[j]).value, CategoryOf(sounds[i]).value)
    ensures CategoryViewAsWritten(sounds, src) == CategoryView(sounds, src)
  {
    var cats := Categories(sounds);
    forall k | 0 <= k < |cats|
      ensures CategoryGroupAsWritten(sounds, cats[k]) == CategoryGroup(sounds, cats[k])
    {
      assert cats[k] in cats;
      var i :| 0 <= i < |sounds| && CategoryOf(sounds[i]) == cats[k];
      OwnCategoryPrefix(sounds[i]);
      GroupsAgree(sounds, cats[k].value);
    }
    SectionsCongruent(cats, c => CategoryGroupAsWritten(sounds, c), c => CategoryGroup(sounds, c), src);
  }

  /** Where category `c` is a proper prefix of another category `d`, the
      view as written differs from the corrected view: a sound of `d` is
      listed in `c`'s section. */
  lemma ViewsDiffer(sounds: seq<Sound>, src: Option<string>, s: Sound, c: string, d: string)
    requires s in sounds && |s.name| > 0 && s.name[0] == '/'
    requires CategoryOf(s) == Some(d) && StartsWith(d, c) && c != d
    requires Some(c) in Categories(sounds)
    ensures CategoryViewAsWritten(sounds, src) != CategoryView(sounds, src)
  {
    PrefixCollision(sounds, c, d, s);
    var cats := Categories(sounds);
    var k :| 0 <= k < |cats| && cats[k] == Some(c);
    assert multiset(CategoryGroup(sounds, Some(c)))[s] == 0;
    SectionsDiffer(cats, c => CategoryGroupAsWritten(sounds, c), c => CategoryGroup(sounds, c), src, k, s);
  }

  /** Sections whose `k`-th groups differ in a member differ. */
  lemma SectionsDiffer(cats: seq<Option<string>>, g1: Option<string> -> seq<Sound>,
                       g2: Option<string> -> seq<Sound>, src: Option<string>, k: nat, s: Sound)
    requires k < |cats| && s in g1(cats[k]) && s !in g2(cats[k])
    ensures Sections(cats, g1, src) != Sections(cats, g2, src)
  {
    var a := Sections(cats, g1, src);
    var j :| 0 <= j < |g1(cats[k])| && g1(cats[k])[j] == s;
    assert a[k].buttons[j].sound == s;
  }

  /** Every sound is listed in exactly one section, as often as it occurs in
      the input. */
  lemma SectionsPartition(sounds: seq<Sound>, src: Option<string>, s: Sound)
    requires s in sounds
    ensures var r := CategoryView(sounds, src);
      exists k :: 0 <= k < |r| && r[k].category == CategoryOf(s)
    ensures var r := CategoryView(sounds, src);
      forall k :: 0 <= k < |r| ==>
        multiset(CategoryGroup(sounds, r[k].category))[s] ==
          if r[k].category == CategoryOf(s) then multiset(sounds)[s] else 0
    ensures var r := CategoryView(sounds, src);
      forall k, l :: 0 <= k < l < |r| ==> r[k].category != r[l].category
  {
    var i :| 0 <= i < |sounds| && sounds[i] == s;
    var cats := Categories(sounds);
    assert CategoryOf(sounds[i]) in cats;
    var k :| 0 <= k < |cats| && cats[k] == CategoryOf(s);
    assert CategoryView(sounds, src)[k].category == CategoryOf(s);
  }

  // ---------------------------------------------------------------------------
  // Gestures on a listed button
  // ---------------------------------------------------------------------------

  /** What a gesture on a listed button reaches. The list view takes
      `sounds`, `sortMode`, `onPlay` and `currentAudio` from its props and
      hands its buttons `onPlay` only, so a button's `onFave` is `undefined`
      and a double tap throws before any favourite changes. */
  function ListGestureAsWritten(sound: Sound, g: SoundButton.Gesture): (r: Result<SoundButton.Request, string>)
    ensures g == SoundButton.Click ==> r == Success(SoundButton.PlayRequest(sound))
    ensures g == SoundButton.DoubleClick ==> r.Failure?
  {
    match g
    case Click => Success(SoundButton.HandleGesture(sound, g))
    case DoubleClick => Failure("TypeError: onFave is not a function")
  }

  /** No double tap on a listed button ever reaches the favourites toggle. */
  lemma DoubleTapNeverFaves(sound: Sound)
    ensures ListGestureAsWritten(sound, SoundButton.DoubleClick) != Success(SoundButton.FaveRequest(sound))
  {
  }

  /** The list view forwarding `onFave` as well: every gesture reaches the
      button's own handler with the button's record. */
  function ListGesture(sound: Sound, g: SoundButton.Gesture): (r: Result<SoundButton.Request, string>)
    ensures r.Success? && r.value.sound == sound
    ensures r.value.FaveRequest? <==> g == SoundButton.DoubleClick
  {
    Success(SoundButton.HandleGesture(sound, g))
  }

  /** With `onFave` forwarded, the two views agree on clicks and differ only
      in that a double tap now asks for the favourites toggle. */
  lemma ListGestureAgrees(sound: Sound, g: SoundButton.Gesture)
    ensures g == SoundButton.Click ==> ListGesture(sound, g) == ListGestureAsWritten(sound, g)
    ensures g == SoundButton.DoubleClick ==>
      ListGesture(sound, g) == Success(SoundButton.FaveRequest(sound)) && ListGestureAsWritten(sound, g).Failure?
  {
  }
}

=== FILE: types.dfy ===
/** The records shared by the server and the client (src/lib/types.ts). */
module Types {
  import opened Results

  /** The `type` field, `'sound' | 'folder'`. Folders only navigate the
      catalog and are never loaded. */
  datatype Kind = SoundKind | FolderKind

  /** One catalog entry. `path` is the cache key and the address of the audio
      bytes; `name` is what the views split into category and label; the
      optional `isLoaded` flag is carried but never read. A missing path is the
      empty string (the only falsy string). */
  datatype Sound = Sound(kind: Kind, name: string, path: string, isLoaded: Option<bool>)

  /** The two orderings the list view offers. */
  datatype SortMode = Alphabetical | Category
}

=== FILE: url.dfy ===
/** How the browser turns a relative URL into an element's `src`. The parser
    first cleans its input: C0 controls and spaces at either end are cut, and
    every tab and newline is deleted. The URL is then resolved against the
    page's origin, and its path is serialised with the URL standard's path
    percent-encode set. A character the set holds is written as `%XX` triples
    of its UTF-8 bytes; a backslash, which the parser reads as a path
    separator in an `http` URL, becomes `/`. */
module UrlPath {
  import opened Seqs

  /** The origin the page is served from: the development server of
      vite.config.ts. */
  const PageOrigin: string := "http://localhost:5173"

  const HexDigits: string := "0123456789ABCDEF"

  /** The characters the URL parser does not keep as they are in a path:
      controls and space, `"`, `<`, `>`, backquote, `{`, `}`, everything
      past `~`, and the backslash. */
  predicate Rewritten(c: char) {
    || c as int <= 0x20
    || c == '"' || c == '<' || c == '>' || c == '`' || c == '{' || c == '}'
    || c == '\\'
    || c as int > 0x7E
  }

  /** The UTF-8 encoding of a character, as byte values. */
  function Utf8(c: char): (r: seq<int>)
    ensures 1 <= |r| <= 4
    ensures forall i :: 0 <= i < |r| ==> 0 <= r[i] < 256
    ensures |r| == 1 <==> c as int < 0x80
  {
    var n := c as int;
    if n < 0x80 then [n]
    else if n < 0x800 then [0xC0 + n / 64, 0x80 + n % 64]
    else if n < 0x1_0000 then [0xE0 + n / 4096, 0x80 + (n / 64) % 64, 0x80 + n % 64]
    else [0xF0 + n / 262144, 0x80 + (n / 4096) % 64, 0x80 + (n / 64) % 64, 0x80 + n % 64]
  }

  /** Reads a code point back from the bytes of one UTF-8 sequence. */
  function Utf8Value(b: seq<int>): int {
    if |b| == 1 then b[0]
    else if |b| == 2 then (b[0] - 0xC0) * 64 + (b[1] - 0x80)
    else if |b| == 3 then ((b[0] - 0xE0) * 64 + (b[1] - 0x80)) * 64 + (b[2] - 0x80)
    else if |b| == 4 then (((b[0] - 0xF0) * 64 + (b[1] - 0x80)) * 64 + (b[2] - 0x80)) * 64 + (b[3] - 0x80)
    else 0
  }

  lemma DivMod64(n: nat)
    ensures n == (n / 64) * 64 + n % 64 && 0 <= n % 64 < 64
  {
  }

  lemma NestedDiv64(n: nat)
    ensures n / 4096 == (n / 64) / 64
  {
    var q := n / 64;
    DivMod64(n);
    DivMod64(q);
    assert n == (q / 64) * 4096 + (q % 64) * 64 + n % 64;
    assert 0 <= (q % 64) * 64 + n % 64 < 4096;
  }

  /** Every character's encoding reads back as its code point, and its
      continuation bytes all lie in 0x80..0xBF. */
  lemma Utf8RoundTrip(c: char)
    ensures Utf8Value(Utf8(c)) == c as int
    ensures forall i :: 1 <= i < |Utf8(c)| ==> 0x80 <= Utf8(c)[i] < 0xC0
  {
    var n := c as int;
    var q := n / 64;
    DivMod64(n);
    DivMod64(q);
    if n >= 0x1_0000 {
      var p := q / 64;
      DivMod64(p);
      NestedDiv64(n);
      NestedDiv64(q);
      assert n / 262144 == p / 64;
      assert Utf8Value(Utf8(c)) == ((p / 64 * 64 + p % 64) * 64 + q % 64) * 64 + n % 64;
    } else if n >= 0x800 {
      NestedDiv64(n);
      assert Utf8Value(Utf8(c)) == ((q / 64) * 64 + q % 64) * 64 + n % 64;
    } else if n >= 0x80 {
      assert Utf8Value(Utf8(c)) == q * 64 + n % 64;
    }
  }

  /** `%XX` for one byte, with upper-case hexadecimal digits. */
  function PercentByte(b: int): (r: string)
    requires 0 <= b < 256
    ensures |r| == 3 && r[0] == '%' && r[1] in HexDigits && r[2] in HexDigits
  {
    ['%', HexDigits[b / 16], HexDigits[b % 16]]
  }

  function PercentBytes(bs: seq<int>): (r: string)
    requires forall i :: 0 <= i < |bs| ==> 0 <= bs[i] < 256
    ensures |r| == 3 * |bs|
    ensures forall i :: 0 <= i < |r| ==> r[i] == '%' || r[i] in HexDigits
  {
    if |bs| == 0 then "" else PercentByte(bs[0]) + PercentBytes(bs[1..])
  }

  /** How one character of a path appears in the serialised URL. */
  function EncodeChar(c: char): (r: string)
    ensures |r| >= 1
    ensures !Rewritten(c) <==> r == [c]
    ensures forall i :: 0 <= i < |r| ==> !Rewritten(r[i])
  {
    if !Rewritten(c) then [c]
    else if c == '\\' then "/"
    else
      var r := PercentBytes(Utf8(c));
      assert r[0] == '%';
      r
  }

  /** The serialised form of a path that has been cleaned: each character
      as `EncodeChar` writes it. */
  function EncodeChars(s: string): (r: string)
    ensures forall i :: 0 <= i < |r| ==> !Rewritten(r[i])
    ensures (forall i :: 0 <= i < |s| ==> !Rewritten(s[i])) <==> r == s
    decreases |s|
  {
    if |s| == 0 then ""
    else
      var head := EncodeChar(s[0]);
      var rest := EncodeChars(s[1..]);
      assert forall i :: 0 <= i < |head + rest| ==> !Rewritten((head + rest)[i]) by {
        forall i | 0 <= i < |head + rest|
          ensures !Rewritten((head + rest)[i])
        {
          if i >= |head| {
            assert (head + rest)[i] == rest[i - |head|];
          }
        }
      }
      assert (forall i :: 0 <= i < |s| ==> !Rewritten(s[i])) ==> head + rest == s by {
        if forall i :: 0 <= i < |s| ==> !Rewritten(s[i]) {
          assert forall i :: 0 <= i < |s[1..]| ==> !Rewritten(s[1..][i]);
          assert [s[0]] + s[1..] == s;
        }
      }
      head + rest
  }

  // ---------------------------------------------------------------------------
  // The parser's clean-up of its input
  // ---------------------------------------------------------------------------

  /** A C0 control or a space: what is cut from either end of the input. */
  predicate C0OrSpace(c: char) {
    c as int <= 0x20
  }

  /** An ASCII tab or newline: what is deleted wherever it occurs. */
  predicate TabOrNewline(c: char) {
    c == '\t' || c == '\n' || c == '\r'
  }

  /** The characters that survive the deletion of tabs and newlines. */
  predicate KeptInUrl(c: char) {
    !TabOrNewline(c)
  }

  /** The input without its leading run of C0 controls and spaces. */
  function TrimStart(s: string): (r: string)
    ensures |r| <= |s|
    decreases |s|
  {
    if |s| > 0 && C0OrSpace(s[0]) then TrimStart(s[1..]) else s
  }

  /** `TrimStart` keeps the longest suffix that does not start with a C0
      control or a space: everything it cuts is one. */
  lemma {:induction false} TrimStartSpec(s: string)
    ensures var r := TrimStart(s);
      && r == s[|s| - |r|..]
      && (|r| == 0 || !C0OrSpace(r[0]))
      && forall i :: 0 <= i < |s| - |r| ==> C0OrSpace(s[i])
    decreases |s|
  {
    if |s| > 0 && C0OrSpace(s[0]) {
      var t := s[1..];
      TrimStartSpec(t);
      var r := TrimStart(t);
      assert t[|t| - |r|..] == s[|s| - |r|..];
      assert forall i :: 1 <= i < |s| - |r| ==> s[i] == t[i - 1];
    }
  }

  /** The input without its trailing run of C0 controls and spaces. */
  function TrimEnd(s: string): (r: string)
    ensures |r| <= |s|
    decreases |s|
  {
    if |s| > 0 && C0OrSpace(s[|s| - 1]) then TrimEnd(s[..|s| - 1]) else s
  }

  /** `TrimEnd` keeps the longest prefix that does not end with a C0
      control or a space: everything it cuts is one. */
  lemma {:induction false} TrimEndSpec(s: string)
    ensures var r := TrimEnd(s);
      && r == s[..|r|]
      && (|r| == 0 || !C0OrSpace(r[|r| - 1]))
      && forall i :: |r| <= i < |s| ==> C0OrSpace(s[i])
    decreases |s|
  {
    if |s| > 0 && C0OrSpace(s[|s| - 1]) {
      TrimEndSpec(s[..|s| - 1]);
      var r := TrimEnd(s[..|s| - 1]);
      assert s[..|s| - 1][..|r|] == s[..|r|];
    }
  }

  /** The input without its tabs and newlines. */
  function DropTabs(s: string): (r: string)
    ensures |r| <= |s|
    decreases |s|
  {
    if |s| == 0 then [] else (if TabOrNewline(s[0]) then [] else [s[0]]) + DropTabs(s[1..])
  }

  /** `DropTabs` is the filter that keeps every character but tabs and
      newlines, so none is left and every other one stays, in order. */
  lemma {:induction false} DropTabsIsFilter(s: string)
    ensures DropTabs(s) == Filter(s, KeptInUrl)
    decreases |s|
  {
    if |s| > 0 {
      DropTabsIsFilter(s[1..]);
      FilterUnfold(s, KeptInUrl);
    }
  }

  /** What the parser reads: the input trimmed at both ends, then without
      its tabs and newlines. */
  function Preprocess(s: string): string {
    DropTabs(TrimEnd(TrimStart(s)))
  }

  /** After the clean-up no tab or newline is left, and the characters that
      are left all come from the input. */
  lemma PreprocessDropsTabs(s: string)
    ensures forall i :: 0 <= i < |Preprocess(s)| ==>
      !TabOrNewline(Preprocess(s)[i]) && Preprocess(s)[i] in s
  {
    var t := TrimStart(s);
    TrimStartSpec(s);
    TrimEndSpec(t);
    DropTabsIsFilter(TrimEnd(t));
    var r := Preprocess(s);
    forall i | 0 <= i < |r|
      ensures !TabOrNewline(r[i]) && r[i] in s
    {
      assert r[i] in TrimEnd(t);
      var k :| 0 <= k < |TrimEnd(t)| && TrimEnd(t)[k] == r[i];
      assert t[k] == r[i];
      assert s[|s| - |t| + k] == r[i];
    }
  }

  /** A string with nothing to rewrite has nothing to clean either. */
  lemma PlainIsClean(s: string)
    requires forall i :: 0 <= i < |s| ==> !Rewritten(s[i])
    ensures Preprocess(s) == s
  {
    if |s| > 0 {
      assert !C0OrSpace(s[0]) && !C0OrSpace(s[|s| - 1]);
    }
    assert TrimStart(s) == s;
    assert TrimEnd(s) == s;
    PlainKept(s);
    DropTabsIsFilter(s);
  }

  /** Deleting tabs and newlines leaves a string with nothing to rewrite
      as it is. */
  lemma PlainKept(s: string)
    requires forall i :: 0 <= i < |s| ==> !Rewritten(s[i])
    ensures Filter(s, KeptInUrl) == s
  {
    assert forall i :: 0 <= i < |s| ==> KeptInUrl(s[i]);
    FilterAll(s, KeptInUrl);
  }

  /** The serialised form of a path: cleaned, then each character encoded.
      Nothing in it needs rewriting, and a path that holds nothing to
      rewrite is kept as it is. */
  function EncodePath(s: string): (r: string)
    ensures forall i :: 0 <= i < |r| ==> !Rewritten(r[i])
    ensures (forall i :: 0 <= i < |s| ==> !Rewritten(s[i])) <==> r == s
  {
    var r := EncodeChars(Preprocess(s));
    assert (forall i :: 0 <= i < |s| ==> !Rewritten(s[i])) ==> r == s by {
      if forall i :: 0 <= i < |s| ==> !Rewritten(s[i]) {
        PlainIsClean(s);
      }
    }
    r
  }

  /** A plain, non-empty `a` followed by C0 controls and spaces is trimmed
      back to `a`. */
  lemma TrimEndRun(a: string, w: string)
    requires |a| > 0 && !C0OrSpace(a[|a| - 1])
    requires forall i :: 0 <= i < |w| ==> C0OrSpace(w[i])
    ensures TrimEnd(a + w) == a
  {
    var s := a + w;
    TrimEndSpec(s);
    var r := TrimEnd(s);
    assert s[|a| - 1] == a[|a| - 1];
    assert s[..|a|] == a;
  }

  /** Trailing C0 controls and spaces do not reach `src`: a plain,
      non-empty path followed by any run of them is serialised as the path
      alone. */
  lemma TrailingRunDropped(a: string, w: string)
    requires |a| > 0 && forall i :: 0 <= i < |a| ==> !Rewritten(a[i])
    requires forall i :: 0 <= i < |w| ==> C0OrSpace(w[i])
    ensures EncodePath(a + w) == a
  {
    var s := a + w;
    assert s[0] == a[0];
    assert TrimStart(s) == s;
    TrimEndRun(a, w);
    PlainKept(a);
    DropTabsIsFilter(a);
  }

  /** A tab or newline inside a path is deleted, not encoded: the two sides
      around it are joined. */
  lemma TabOrNewlineDropped(a: string, t: char, b: string)
    requires |a| > 0 && forall i :: 0 <= i < |a| ==> !Rewritten(a[i])
    requires TabOrNewline(t)
    requires forall i :: 0 <= i < |b| ==> !Rewritten(b[i])
    ensures EncodePath(a + [t] + b) == a + b
  {
    var s := a + [t] + b;
    assert s[0] == a[0];
    if |b| == 0 {
      assert s == a + [t];
      TrailingRunDropped(a, [t]);
    } else {
      assert s[|s| - 1] == b[|b| - 1];
      assert TrimStart(s) == s;
      assert TrimEnd(s) == s;
      DropJoins(a, t, b);
      DropTabsIsFilter(s);
      PlainJoin(a, b);
    }
  }

  /** Deleting tabs and newlines from plain text around one of them joins
      the text. */
  lemma DropJoins(a: string, t: char, b: string)
    requires forall i :: 0 <= i < |a| ==> !Rewritten(a[i])
    requires TabOrNewline(t)
    requires forall i :: 0 <= i < |b| ==> !Rewritten(b[i])
    ensures Filter(a + [t] + b, KeptInUrl) == a + b
  {
    var at := a + [t];
    FilterAppend(at, b, KeptInUrl);
    FilterAppend(a, [t], KeptInUrl);
    PlainKept(a);
    PlainKept(b);
    FilterUnfold([t], KeptInUrl);
    assert Filter(at, KeptInUrl) == a;
  }

  /** Two strings with nothing to rewrite joined hold nothing to rewrite. */
  lemma PlainJoin(a: string, b: string)
    requires forall i :: 0 <= i < |a| ==> !Rewritten(a[i])
    requires forall i :: 0 <= i < |b| ==> !Rewritten(b[i])
    ensures forall i :: 0 <= i < |a + b| ==> !Rewritten((a + b)[i])
  {
    forall i | 0 <= i < |a + b|
      ensures !Rewritten((a + b)[i])
    {
      if i >= |a| {
        assert (a + b)[i] == b[i - |a|];
      }
    }
  }

  /** Two strings with nothing to rewrite make a third. */
  lemma PlainConcat(a: string, b: string)
    requires forall i :: 0 <= i < |a| ==> !Rewritten(a[i])
    requires forall i :: 0 <= i < |b| ==> !Rewritten(b[i])
    ensures EncodePath(a + b) == a + b
  {
    PlainJoin(a, b);
  }
}
